=== FILE: README.md ===
# Interval-session analysis in Dafny

A model of the interval-training detection pipeline of a running-analysis
repository. The pipeline reads a 1 Hz speed and heart-rate series and
produces effort blocks, cluster summaries, a classification and recovery
phases. It comes in three variants:

- `analyse/toute_piece.py`: the multi-scale pipeline. It fills gaps and
  smooths each of three scale profiles. It then runs a hysteresis detector
  per scale, merges the intervals of the three scales by temporal IoU,
  refines the interval ends and extracts blocks. Finally it builds the
  distance × duration clusters, the recovery table and the "4 × 4 min"
  heuristic.
- `analyse/detect_fract.py`: the single-scale detector. It adds the
  relative (median-band) and cardio filters, `format_time`, and the
  `is_fractionne` test.
- `analyse/analyse_seance.py`: the single-scale session analysis, with
  `classify_blocks` (court / long / autres) and its own recovery table.
- `streams_to_df` of `appelAPIs/get_streams.py`: it builds the stream table
  from the activity-streams payload.

Series are `seq<real>`: floats are exact reals. Python's `int()` on a float
and its `round()` (half to even) are written out in `Numbers`. The
smoothing filters are a parameter of the loader. The three detectors are a
single scan (`Detection.FindEfforts`), parametrised by four conventions:
- the entry test (`>=` or `>`);
- the close rule;
- whether an effort still open at the end of the stream is kept;
- the threshold rule.

Each script is one instance of these conventions.

Modules follow the pipeline:
- `Results`, `Numbers`, `Seqs`, `Text`: Option/Result, arithmetic, sequence and string helpers.
- `Grouping`: pandas `groupby`, `sort_values` and `concat`.
- `Streams`, `Conditioning`, `Sessions`: the input table and the loaded session.
- `Detection`, `Overlap`, `Blocks`: detection, merging, refinement and block metrics.
- `MultiScale`, `SingleScale`: the pipelines.
- `Pace`, `Clusters`, `Filters`, `Classify`, `Recovery`, `Pattern`: the summaries and post-processing.

## Model

| member | source | states |
|---|---|---|
| Streams.StreamsToTable | appelAPIs/get_streams.py:47-58 | The table is built exactly when every present channel is as long as `time`; otherwise pandas refuses it. The table has one row per timestamp. Speed is 3.6 × velocity; heart rate and altitude are copied value for value. An absent or empty channel becomes a column of `None`. |
| Streams.StreamsRoundTrip | appelAPIs/get_streams.py:47-58 | Reading back the payload of any table the function can produce (channels filled or missing throughout, speed divided by 3.6) rebuilds that table. |
| Streams.NoTimeNoRows | appelAPIs/get_streams.py:48-51 | Without a time stream, and with no other data, the table is empty. |
| Conditioning.FillGaps | analyse/toute_piece.py:28-30 | `ffill().bfill()` keeps observed values. It leaves no gap in a column that has any value, leaves an all-missing column unchanged, and every filled value is an observed one. |
| Conditioning.FillGapsNearest | analyse/toute_piece.py:30 | A gap takes the nearest earlier value. When no earlier value exists, it takes the first observed value. |
| Conditioning.SmoothWindowProperties | analyse/toute_piece.py:35 | The window expression is always odd. It is the profile window on longer streams and the length on odd short streams. On even short streams it is length + 1. |
| Conditioning.SmoothWindowOvershoots | analyse/toute_piece.py:34-35 | A 10-sample stream gets an 11-sample short-scale window. Every even stream of at most 11 samples gets a window longer than itself. |
| Conditioning.ClampWindow | analyse/toute_piece.py:34-35 | The corrected window is the largest odd length that fits both the stream and the profile, and none for an empty stream. |
| Conditioning.ClampAgreesOnLongStreams | analyse/toute_piece.py:35 | On streams longer than the profile window, the corrected window equals the one as written. |
| Conditioning.LoadSession | analyse/toute_piece.py:25-39 | A session is produced exactly when the table is non-empty and speed and heart rate each have some value. Its channels are aligned with time, and observed heart-rate values are kept. Its heart rate is the gap-filled column. Each scale's channels smooth the gap-filled speed and heart rate with `ClampWindow` of the stream length and that scale's window, which is the corrected window. |
| Detection.MaxOrMeanThreshold | analyse/toute_piece.py:82-84 | `max(rel·max, 1.15·mean)` is at least both bounds and equals one of them. |
| Detection.Threshold | analyse/toute_piece.py:82-84 | No threshold exists for an empty channel, where `nanmax` raises. The multi-scale rule combines the maximum and the mean as above. The other rules are `0.75·max` (detect_fract.py:21) and the mean (analyse_seance.py:26). |
| Detection.FindHits | analyse/toute_piece.py:52-70 | The scan emits exactly the efforts of a scan-free definition. From the first sample that passes the entry test, the effort closes at the first later sample ending a run of below-threshold samples long enough to close it. It is kept when it lasts at least the minimum, and the search resumes after the close. An effort that never closes is kept, up to the last sample, only under the multi-scale convention. Each emitted effort also ends before the next one starts. |
| Detection.EmittedEffortsCloseAtFirstChance | analyse/toute_piece.py:52-70 | Every emitted effort starts on a sample that passes the entry test and ends at its first close point. The only exception is an effort left open under the multi-scale convention, which ends on the last sample. |
| Detection.FirstEffortFound | analyse/toute_piece.py:52-65 | Completeness: when the first entering sample is `e`, its first close point is `k` and `(e, k)` lasts at least the minimum, the first emitted effort is exactly `(e, k)`. |
| Detection.OpenEffortFound | analyse/toute_piece.py:66-70 | When the first effort never closes and it is long enough, the multi-scale convention emits exactly one effort, from its entry to the last sample. |
| Detection.FindEfforts | analyse/toute_piece.py:44-71 | The efforts are the `(start, end)` times of the efforts of the scan-free definition, one for one and in order. Each lasts at least `min_dur`. On a strictly increasing clock they are time-ordered and pairwise disjoint. |
| Detection.BelowCounterIsTrailingRun | analyse/toute_piece.py:56-65 | Inside an effort, the counter is the length of the run of below-threshold samples just read, so a sample at or above the threshold resets it. It never exceeds `max_pause` (or reaches `hold_below`). |
| Detection.OpenEffortAtEnd | analyse/toute_piece.py:66-70 | An effort open at the end becomes a last effort ending on the last sample exactly when the multi-scale convention applies and it is long enough. Otherwise it is dropped. |
| Detection.NoEntryNoEfforts | analyse/toute_piece.py:52-55 | If no sample passes the entry test, no effort is found. |
| Detection.FlatSessionHasNoEfforts | analyse/toute_piece.py:82-84 | At a constant positive speed, the `1.15·mean` bound is above every sample, so the multi-scale detector finds nothing. |
| Detection.FlatSessionNeverEntersAtMean | analyse/analyse_seance.py:26-34 | With the mean as threshold and strict entry, a flat session yields no effort. |
| Overlap.IouSymmetric | analyse/toute_piece.py:108-110 | The temporal IoU does not depend on argument order. |
| Overlap.FirstOverlap | analyse/toute_piece.py:107-111 | Returns the first kept interval whose IoU reaches the threshold: all earlier ones stay below it. |
| Overlap.Absorb | analyse/toute_piece.py:105-118 | With no overlap, the interval is appended. Otherwise the first overlapping kept interval is replaced when the new one is strictly longer; if not, the new one is dropped. |
| Overlap.AbsorbOnlyLengthens | analyse/toute_piece.py:111-116 | A kept entry changes only into a strictly longer interval, and the list grows by at most one. |
| Overlap.MergeOverlaps | analyse/toute_piece.py:99-119 | Empty input gives empty output. Otherwise the output is a selection of the inputs and is no longer than the input. |
| Overlap.MergeOfOverlappingPair | analyse/toute_piece.py:103-116 | Two intervals overlapping enough merge into one: the strictly longer, or on a tie the first in `(start, end)` order. |
| Overlap.MergeOfSeparatePair | analyse/toute_piece.py:103-118 | Two intervals overlapping too little are both kept, in `(start, end)` order. |
| Blocks.RefineEnd | analyse/toute_piece.py:128-135 | No end exists when the window has no sample. Otherwise the new end lies in `[start, end]` and, unless it is `end`, is a sample time of the window. |
| Blocks.RefineEndIsLastSustainedSample | analyse/toute_piece.py:131-135 | With non-negative speeds, the new end is the time of the last window sample reaching 90 % of the window mean. |
| Blocks.ExtractBlock | analyse/toute_piece.py:139-161 | A block exists exactly when the window's first and last samples lie at least the minimum apart. It spans from the first to the last sample, and its cardio effort is last minus first heart rate. Its distance is `Σ speed/3.6·dt` over the window's samples. Its mean speed and mean heart rate are the means of those samples. |
| Blocks.MeasuredAtConstantSpeed | analyse/toute_piece.py:145-151 | A block measured on a window run at constant speed `v` has mean speed `v` and distance `v/3.6 ×` its duration. |
| Blocks.DistanceNonNegative | analyse/toute_piece.py:145-146 | `Σ speed/3.6·dt`, with the first `dt = 0`, is non-negative for non-negative speeds over non-decreasing times. |
| Blocks.DistanceAtConstantSpeed | analyse/toute_piece.py:145-146 | At constant speed the distance is speed × (last − first time). The first row contributes nothing. |
| Blocks.ExtractedBlockIsPhysical | analyse/toute_piece.py:145-158 | Every extracted block has a non-negative distance and mean speed when speeds are non-negative and times non-decreasing. |
| MultiScale.ScaleEfforts | analyse/toute_piece.py:79-92 | The efforts at a scale are exactly those of the scan-free definition on that scale's smoothed speed, with `max(rel·max, 1.15·mean)` as threshold. Every effort lasts at least that profile's `min_dur`. |
| MultiScale.DetectIntervalsMultiscale | analyse/toute_piece.py:73-97 | Fails on an empty session, where `nanmax` raises. Otherwise every merged interval was found by the detector of its own scale, lasts at least that scale's minimum, and merging adds nothing. Some interval survives exactly when some scale found one. |
| MultiScale.RefineOne | analyse/toute_piece.py:126-136 | An interval without samples is dropped. Otherwise start and scale are kept and the end moves within `[start, end]`. |
| MultiScale.RefineIntervals | analyse/toute_piece.py:124-137 | Each output tightens one input. The outputs are the refinements of exactly the inputs that have samples, one each and in input order. No interval is lost when every input has samples. |
| MultiScale.ExtractOne | analyse/toute_piece.py:141-161 | A block exists exactly when the interval's samples span at least 8 s. It keeps its interval's scale, lies inside the interval, and is measured on the interval's samples with that scale's speed and heart-rate channels. |
| MultiScale.ExtractBlocks | analyse/toute_piece.py:139-162 | The blocks are those of exactly the intervals whose samples span at least 8 s, one per interval and in interval order. Each block lies inside an interval of its scale and is measured on that interval's samples. |
| MultiScale.MultiScaleBlocks | analyse/toute_piece.py:232-234 | Detection, refinement and extraction fail only on an empty session. Every block lasts at least 8 s and lies inside an effort found at its own scale. |
| SingleScale.DetectIntervals | analyse/detect_fract.py:18-50 | Nothing is found on an empty table. Otherwise the efforts are exactly those of the scan-free definition under the single-scale conventions: strict entry, close after `hold_below` samples below, open efforts dropped. Each effort starts on a sample strictly above the threshold and lasts at least `min_duration`, and efforts are disjoint on an increasing clock. The same holds for analyse_seance.py:21-49 with the mean threshold. |
| SingleScale.RefineSpan | analyse/detect_fract.py:54-67 | The start is kept. With samples in the window the end moves within `[start, end]`; without samples the effort is unchanged. |
| SingleScale.RefineIntervals | analyse/analyse_seance.py:52-62 | Gives one effort per input, with the same start and an end that is never later. An effort with samples ends at or after its start. An effort without samples is kept unchanged. |
| SingleScale.ExtractOne | analyse/detect_fract.py:125-148 | A block exists exactly when the effort's samples span at least 10 s. It lies inside its effort and is measured on the effort's samples. |
| SingleScale.ExtractBlocks | analyse/analyse_seance.py:68-91 | The blocks are those of exactly the efforts whose samples span at least 10 s, one per effort and in effort order. Each block lies inside its effort, lasts at least 10 s and is measured on that effort's samples. |
| SingleScale.SingleScaleBlocks | analyse/detect_fract.py:18-148 | Every block of the chained pipeline lies inside a detected effort. There are no more blocks than efforts. |
| Pace.AllureShowsSixtySeconds | analyse/toute_piece.py:167-170 | `format_allure(4.995)` prints `4:60 min/km`. |
| Pace.AllureRoundTrip | analyse/detect_fract.py:217-220 | `allure_to_sec(format_allure(x))` is `int(x)·60 + round(frac(x)·60)`. |
| Pace.AllureReadsRoundedSeconds | analyse/detect_fract.py:217-220 | That value is the pace rounded half to even to whole seconds, so `4:60` still reads as 300 s. |
| Pace.FormatPaceFields | analyse/detect_fract.py:248-251 | The corrected format has a seconds field in `[0, 59]`. It reads back to the same seconds as `format_allure`. |
| Pace.FormatPaceFixesSixty | analyse/detect_fract.py:248-251 | The corrected format prints 4.995 min/km as `5:00 min/km`. |
| Pace.FormatPaceReadsBack | analyse/detect_fract.py:217-220 | The corrected pace string parses back to the rounded number of seconds. |
| Pace.PaceOfSpeed | analyse/toute_piece.py:183 | The pace shown for a mean speed of `v` km/h reads back as `3600 / v` seconds per km, rounded. |
| Pace.AllureToSec | analyse/detect_fract.py:217-220 | Succeeds exactly when, after removing the unit, the first two `:` fields are integers. The value is minutes × 60 + seconds. |
| Pace.ClockFields | analyse/detect_fract.py:105-109 | `sec` is in `[0, 59]`, and `minutes·60 + sec` is the floor of the seconds. |
| Pace.FormatTimeRoundTrip | analyse/detect_fract.py:105-109 | `mm:ss` parses back into those two fields. |
| Pace.ThresholdSeconds | analyse/detect_fract.py:213-214 | The threshold parses exactly when it has exactly two `:` fields, both integers. Its value is minutes × 60 + seconds. |
| Pace.AllPaces | analyse/detect_fract.py:222 | Every pace is read back, in order, or the read fails if any pace fails. |
| Pace.IsFractionne | analyse/detect_fract.py:203-225 | False for an empty summary. Otherwise it fails exactly when a pace or the threshold does not parse, and is true exactly when some pace is at or under the threshold. |
| Pace.DefaultThreshold | analyse/detect_fract.py:203 | `"4:15"` is 255 s per km. |
| Pace.FractionneOnFormattedPaces | analyse/detect_fract.py:203-225 | On paces printed by `format_allure`, the session is interval training exactly when some rounded pace is ≤ 255 s. |
| Clusters.GroupPace | analyse/toute_piece.py:183 | A group has a pace exactly when it is non-empty with a non-zero mean speed. The pace reads back as `3600 / mean` seconds. |
| Clusters.DistanceRowOf | analyse/analyse_seance.py:168-175 | A row exists exactly when the group has a pace. It records the group's size and rounded distance, and its `type` is `"{n} × {dist} m"`. Its pace reads back as the rounded seconds per km of the group's mean speed. Its `durée moyenne` cell reads back as the group's mean duration rounded half to even, followed by `" s"`. Heart rate and cardiac drift are within 0.05 of the group means. |
| Clusters.SummarizeByDistanceCounts | analyse/analyse_seance.py:161-176 | Empty input gives an empty table. Row counts sum to the number of blocks, and each is the positive number of blocks with that rounded distance. |
| Clusters.SummarizeByDistanceOrder | analyse/detect_fract.py:230-244 | Every block's rounded distance has a row, and rows are in strictly increasing distance order. |
| Clusters.SummarizeByDistanceFails | analyse/analyse_seance.py:168-171 | The summary fails exactly when some block's group has no pace. |
| Clusters.PresentScales | analyse/toute_piece.py:188 | `sorted(unique(scale))` lists exactly the scales present, in strictly increasing name order. |
| Clusters.ClusterRowOf | analyse/toute_piece.py:180-189 | A row exists exactly when the group has a pace. It records the group's size and (distance, duration) key, and its `pattern` is `"{n} × {dur} s  (~{dist} m)"`. Its pace reads back as the rounded seconds per km of the group's mean speed. Its `durée moyenne` cell reads back as the rounded mean duration with `" s"`, and its `distance moyenne` cell as the truncated mean distance with `" m"`. Heart rate and cardiac drift are within 0.05 of the group means. Its `échelle` cell joins, with `", "`, the names of exactly the scales present in the group, in alphabetical order. |
| Clusters.CellNumberReadsBack | analyse/toute_piece.py:184-185 | A whole number printed with its unit, as in `f"{n} s"`, reads back through `int()` of the text before the unit as the same number. |
| Clusters.SummarizeClusters | analyse/toute_piece.py:172-190 | Empty input gives an empty table. The rows are sorted by pattern string. |
| Clusters.SummarizeClustersCounts | analyse/toute_piece.py:176-181 | Row counts sum to the number of blocks, and each is the positive number of blocks with that key. |
| Clusters.SummarizeClustersCover | analyse/toute_piece.py:176-180 | Every block's (distance, duration) key is shown by some row. |
| Clusters.SummarizeClustersFails | analyse/toute_piece.py:183 | The summary fails exactly when some block's group has no pace. |
| Filters.MedianWithinRange | analyse/detect_fract.py:166 | The median lies between two values of the group. |
| Filters.KeepGroup | analyse/detect_fract.py:164-170 | The group's selection is a sub-multiset of the group. A block is kept exactly when the group has at least `min_reps` blocks and the block is inside the median band. |
| Filters.FilterRelativeKeeps | analyse/detect_fract.py:152-171 | The result is a sub-multiset of the input. A block survives exactly when its distance group is large enough and the block is inside the group's inclusive median band. |
| Filters.FilterByCardio | analyse/detect_fract.py:174-200 | Empty input gives empty output, and it fails exactly when a required column is missing. Each row is flagged valid exactly when both minima hold. With `keep_all` every row is kept; otherwise the blocks kept are the valid ones, in table order and without repeats (the mask selection `Filter`). |
| Filters.FilterByCardioIdempotent | analyse/detect_fract.py:197-200 | Filtering the kept rows again keeps them all. |
| Classify.Chain | analyse/analyse_seance.py:107-112 | Each category is chosen exactly under its branch's condition. Earlier branches take precedence, and the categories exclude each other. |
| Classify.GroupCategoryAsWritten | analyse/analyse_seance.py:106-112 | The category with paces compared as strings. It exists exactly when the group has a pace. |
| Classify.SlowGroupClassedLongAsWritten | analyse/analyse_seance.py:109 | As written, a 10:00 min/km group of 500 m is classed `long`. |
| Classify.GroupCategory | analyse/analyse_seance.py:105-112 | With paces compared in seconds, the category is the chain's verdict on the group's pace against both limits. It fails exactly when the group has no pace or a limit does not parse. |
| Classify.ClassifiedGroupsAreFast | analyse/analyse_seance.py:107-111 | A `court` group is faster than the short limit. A `long` or `autres` group is faster than the long limit. |
| Classify.DefaultLimits | analyse/analyse_seance.py:97 | `"3:45"` is 225 s and `"4:20"` is 260 s per km. |
| Classify.SlowGroupUnclassed | analyse/analyse_seance.py:105-112 | With numeric paces, the 10:00 min/km group is in no class. |
| Classify.ClassifyBlocksFails | analyse/analyse_seance.py:105-106 | Classification fails exactly when some block's group cannot be classified. |
| Classify.ClassifyBlocksPlaces | analyse/analyse_seance.py:97-115 | A block is in a category's table exactly when its whole group has that category, so a block is in at most one table. |
| Recovery.NeighbourRows | analyse/toute_piece.py:204-218 | Gives one row per neighbour pair that yields one, in pair order: the k-th row is that of the k-th such pair. Hence at most n − 1 rows, each made from a pair of direct neighbours. |
| Recovery.PaceText | analyse/toute_piece.py:216 | The pace is `N/A` exactly when the mean speed is ≤ 0. Otherwise it reads back as `3600 / v` seconds per km. |
| Recovery.SegmentRow | analyse/toute_piece.py:210-218 | The pace is `N/A` exactly for a non-positive mean gap speed, and otherwise reads back as that speed's pace. Heart rate is within 0.05 of the gap mean. |
| Recovery.GapRecovery | analyse/toute_piece.py:207-209 | No row exists exactly when no sample lies between the first block's end and the second block's start. |
| Recovery.WindowEnds | analyse/toute_piece.py:210 | The first and last rows of a non-empty window are its extreme samples. |
| Recovery.RoundWithScale | analyse/toute_piece.py:221-223 | The key is a multiple of the scale's step and within half a step of the duration. |
| Recovery.UnknownScaleRoundsToTen | analyse/toute_piece.py:222 | A scale missing from the map is rounded to a multiple of 10 s. |
| Recovery.DefaultGroupingSteps | analyse/toute_piece.py:20 | With the default map, keys are multiples of 5, 10 or 15 s per scale. |
| Recovery.MultiScalePair | analyse/toute_piece.py:205-214 | A pair gives a row exactly when both keys are equal and the gap has samples. The row is titled with the first block's rounded duration. |
| Recovery.MultiScaleRecoveries | analyse/toute_piece.py:195-219 | For the blocks in start order, the rows are those of exactly the neighbour pairs of the same kind with a non-empty gap, one per pair and in pair order. |
| Recovery.MultiScaleRecoveriesInStartOrder | analyse/toute_piece.py:202 | The neighbours are taken in start order. |
| Recovery.SingleScalePair | analyse/analyse_seance.py:135-149 | A pair gives a row exactly when both rounded distances are equal and the gap has samples. The title carries that distance, a multiple of the step. |
| Recovery.SingleScaleRecoveries | analyse/analyse_seance.py:120-151 | Same as the multi-scale table, with neighbours compared by rounded distance. |
| Recovery.SingleScaleRecoveriesInStartOrder | analyse/analyse_seance.py:127 | The neighbours are taken in start order. |
| Pattern.LongDurations | analyse/toute_piece.py:256-258 | Gives one rounded duration per long-scale block, each a multiple of 15 s. |
| Pattern.Mode | analyse/toute_piece.py:259 | `mode()[0]` is a value of the series that no value occurs more often than. Among equally frequent values it is the smallest. |
| Pattern.FourByFour | analyse/toute_piece.py:256-262 | A pattern is detected exactly when the mode of the long durations lies in `[210, 270]` s and repeats at least 3 times. It reports that mode, the shortest of the most frequent durations, with its count. |
| Pattern.DominantFourMinutesDetected | analyse/toute_piece.py:259-262 | A duration in `[210, 270]` repeated at least 3 times, and strictly more often than any other, is detected with its count. |
| Pattern.ShortestMostFrequentDetected | analyse/toute_piece.py:259-262 | On a tie, the shorter of the most frequent durations is the one detected (`mode()[0]`). |
| Pattern.ModeIsShortestMostFrequent | analyse/toute_piece.py:259 | A value at least as frequent as every other and shorter than every other equally frequent one is the mode. |
| Pattern.OffTargetModeNotDetected | analyse/toute_piece.py:259-261 | A dominant duration outside `[210, 270]` rules the pattern out. |
| Grouping.GroupTableCounts | analyse/toute_piece.py:180 | For `groupby`, row counts sum to the input size, and each row counts the positive number of items with its key. |
| Grouping.GroupTableKeys | analyse/toute_piece.py:180 | Every item's key has a row, and the rows come in ascending, distinct key order. |
| Grouping.ConcatSelects | analyse/detect_fract.py:171 | Concatenating per-group selections gives a sub-multiset of the input. |
| Text.LexLeIsTotalPreorder | analyse/toute_piece.py:190 | Python string order is a total preorder, so sorting by pattern is well defined. |

## Left out

- Savitzky–Golay and Gaussian smoothing are scipy numerics. The loader takes the smoother as a parameter. The single-scale scripts' `load_stream` is not modelled: their series arrive already smoothed.
- IEEE floats and NaN propagation are not modelled: series are exact reals. The `"N/A"` branch of `bpm moyen` needs a NaN mean and so is never taken.
- pandas `sort_values` uses an unstable quicksort by default. The model sorts stably, so the order of blocks with equal start times, or rows with equal patterns, may differ from pandas.
- Python `int()` also accepts surrounding whitespace and digit underscores. `Text.ParseInt` accepts only an optional sign followed by digits, which covers every string this code produces.
- Multi-scale `extract_blocks` and `analyze_recups` raise `KeyError` when the table has no `bpm` column: `block.get(f"bpm_{scale}", block["bpm"])` evaluates its default first (toute_piece.py:150-151, 212). The session model always carries heart rate, so this error path does not arise.
- Conditioning.LoadSession: the model yields a session in cases where `load_stream` raises. With the window as written, `savgol_filter` in `interp` mode rejects every even stream of at most 51 samples (window longer than the stream). Streams of at most 3 samples fail even with the corrected window, and so do 4-sample streams under the long profile, because the polynomial order is not below the window. Conversely, the model returns no session for an all-missing speed or heart-rate channel, while the source goes on with NaN columns.
- Clusters.GroupPace: prints the pace with the corrected `Pace.FormatPace`, so a pace the source prints as `4:60 min/km` appears as `5:00 min/km`. Both strings read back to the same number of seconds (`Pace.FormatPaceFields`).
- Recovery.PaceText: prints the corrected `Pace.FormatPace` where the source calls `format_allure`, with the same difference as above.
- Classify.ClassifyBlocks: compares paces in seconds with the parsed limits (the corrected `Classify.GroupCategory`). The source compares strings and never parses the limits, so it classifies some groups differently (see Findings).
- Classify.ClassifyBlocksFails: also fails when a limit does not parse, which the source's string comparison never does.
- Clusters.SummarizeByDistance: on an empty table, detect_fract.py's `summarize_clusters` raises (no `distance_m` column). The model returns the empty table, as analyse_seance.py does.
- Overlap.MergeOverlaps: its exact result is stated for inputs of one or two intervals. For longer inputs the contract gives the selection and the size bound, and `Absorb`/`AbsorbOnlyLengthens` describe each step. Kept entries are not claimed to be pairwise below the IoU threshold, because a replacement can break that.
- Scales are a datatype, so an unknown scale name cannot occur. The `get(scale, 10)` default is reached only through a tolerance map that lacks a scale.
- Pattern strings of the multi-scale summary are not proved distinct.
- Not modelled: `main()` functions, printing (`print_intervals`), plotting, file and network I/O, and the unused sklearn imports.

## Findings

| source | as written | input that shows it | evidently intended | confidence | as-written member | corrected member |
|---|---|---|---|---|---|---|
| analyse/toute_piece.py:34-35 | For an even-length stream no longer than the profile window, the window is length + 1, although the comment requires it to be at most the length; `savgol_filter` in `interp` mode rejects it | a 10-sample stream with the short profile (window 11) gets window 11 | the largest odd window not exceeding the stream | not executed | Conditioning.SmoothWindow, Conditioning.SmoothWindowOvershoots | Conditioning.ClampWindow, Conditioning.ClampAgreesOnLongStreams |
| analyse/toute_piece.py:167-170 | `format_allure` truncates the minutes and then rounds the seconds, so the seconds field can be 60 | 4.995 min/km prints `4:60 min/km` | round the whole pace to seconds first: `5:00 min/km` | not executed | Pace.FormatAllure, Pace.AllureShowsSixtySeconds | Pace.FormatPace, Pace.FormatPaceFixesSixty |
| analyse/analyse_seance.py:106-111 | Paces are compared with the limits as strings | a 500 m group at 6 km/h: `"10:00 min/km" < "4:20"` holds, so the group is classed `long` | compare seconds per km: 600 s is not under 260 s | not executed | Classify.GroupCategoryAsWritten, Classify.SlowGroupClassedLongAsWritten | Classify.GroupCategory, Classify.SlowGroupUnclassed |

The corrected members are the ones the rest of the model uses. Cluster and recovery paces are printed with `Pace.FormatPace`. Classification compares seconds, and loading uses `Conditioning.ClampWindow`.

=== FILE: blocks.dfy ===
/** From a detected effort to a row of the blocks table: the samples whose
    timestamp falls inside the effort, the end pulled back onto the
    sustained part of it, and the metrics of the kept window. */
module Blocks {
  import opened Results
  import opened Numbers
  import opened Seqs
  import opened Sessions

  /** One row of the blocks table (`start`, `end`, `duration_s`,
      `distance_m`, `mean_speed`, `mean_bpm`, `effort_cardio`). */
  datatype Block = Block(start: real, end: real, duration: real, distance: real,
                         meanSpeed: real, meanBpm: real, cardio: real)

  /** A row of the multi-scale blocks table: the block and the scale whose
      detector found it. */
  datatype ScaledBlock = ScaledBlock(scale: Scale, block: Block)

  predicate InWindow(times: seq<real>, st: real, en: real, k: int)
  {
    0 <= k < |times| && st <= times[k] <= en
  }

  /** Rows `i` and `j` are the first and the last row of the window. */
  predicate FirstAndLastIn(times: seq<real>, st: real, en: real, i: int, j: int)
  {
    && InWindow(times, st, en, i) && InWindow(times, st, en, j)
    && forall k :: 0 <= k < |times| && InWindow(times, st, en, k) ==> i <= k <= j
  }

  // ----- distance -----

  /** `time_s.diff().fillna(0)`: the step before each row, 0 for the first. */
  function Dt(times: seq<real>, k: nat): real
    requires k < |times|
  {
    if k == 0 then 0.0 else times[k] - times[k - 1]
  }

  /** The per-row terms `speed / 3.6 * dt`. */
  function Legs(times: seq<real>, speeds: seq<real>): (legs: seq<real>)
    requires |times| == |speeds|
    ensures |legs| == |times|
    ensures forall k :: 0 <= k < |times| ==> legs[k] == speeds[k] / 3.6 * Dt(times, k)
  {
    seq(|times|, k requires 0 <= k < |times| => speeds[k] / 3.6 * Dt(times, k))
  }

  /** Metres covered by a window: speeds are in km/h and times in s. */
  function Distance(times: seq<real>, speeds: seq<real>): real
    requires |times| == |speeds|
  {
    Sum(Legs(times, speeds))
  }

  /** Non-negative speeds over non-decreasing timestamps cover a
      non-negative distance. */
  lemma DistanceNonNegative(times: seq<real>, speeds: seq<real>)
    requires |times| == |speeds|
    requires NonDecreasing(times)
    requires forall k :: 0 <= k < |speeds| ==> speeds[k] >= 0.0
    ensures Distance(times, speeds) >= 0.0
  {
    var legs := Legs(times, speeds);
    forall k | 0 <= k < |legs|
      ensures legs[k] >= 0.0
    {
      if k > 0 {
        assert times[k - 1] <= times[k];
        NonNegativeProduct(speeds[k] / 3.6, Dt(times, k));
      }
    }
    SumNonNegative(legs);
  }

  lemma NonNegativeProduct(a: real, b: real)
    requires a >= 0.0 && b >= 0.0
    ensures a * b >= 0.0
  {
  }

  /** Splitting off the first step of a window. */
  lemma DistanceFirstStep(times: seq<real>, speeds: seq<real>)
    requires |times| == |speeds| >= 2
    ensures Distance(times, speeds)
         == speeds[1] / 3.6 * (times[1] - times[0]) + Distance(times[1..], speeds[1..])
  {
    var legs := Legs(times, speeds);
    var legs' := Legs(times[1..], speeds[1..]);
    assert legs[1..][1..] == legs'[1..] by {
      forall k | 0 <= k < |legs'| - 1
        ensures legs[1..][1..][k] == legs'[1..][k]
      {
        assert Dt(times, k + 2) == Dt(times[1..], k + 1);
      }
    }
    assert Sum(legs) == legs[1] + Sum(legs[1..][1..]) by {
      assert Sum(legs) == legs[0] + Sum(legs[1..]);
      assert Sum(legs[1..]) == legs[1] + Sum(legs[1..][1..]);
    }
    assert Sum(legs') == Sum(legs'[1..]) by {
      assert Sum(legs') == legs'[0] + Sum(legs'[1..]);
    }
    assert legs[1] == speeds[1] / 3.6 * (times[1] - times[0]);
  }

  /** At a constant speed the distance is speed times elapsed time: the
      steps telescope to last minus first timestamp. */
  lemma {:induction false} DistanceAtConstantSpeed(times: seq<real>, speeds: seq<real>, v: real)
    requires |times| == |speeds| > 0
    requires forall k :: 0 <= k < |speeds| ==> speeds[k] == v
    ensures Distance(times, speeds) == v / 3.6 * (times[|times| - 1] - times[0])
  {
    if |times| == 1 {
      assert Legs(times, speeds) == [0.0];
      assert Sum([0.0]) == 0.0 + Sum([]);
    } else {
      DistanceAtConstantSpeed(times[1..], speeds[1..], v);
      DistanceFirstStep(times, speeds);
    }
  }

  // ----- windows and refinement -----

  /** The rows of `w` whose speed reaches `level`, in row order. */
  function RowsAtLeast(speeds: seq<real>, w: seq<nat>, level: real): (u: seq<nat>)
    requires IndicesBelow(w, |speeds|)
    ensures IndicesBelow(u, |speeds|)
    ensures forall k :: k in u <==> k in w && speeds[k] >= level
    ensures AscendingIndices(w) ==> AscendingIndices(u)
  {
    if |w| == 0 then []
    else
      var init := w[..|w| - 1];
      var last := w[|w| - 1];
      var u := RowsAtLeast(speeds, init, level);
      assert forall k :: k in w <==> k in init || k == last;
      AscendingBelowLast(w, init, last);
      if speeds[last] >= level then
        if AscendingIndices(w) then AppendAscending(u, last); u + [last] else u + [last]
      else u
  }

  lemma AscendingBelowLast(w: seq<nat>, init: seq<nat>, last: nat)
    requires w == init + [last]
    ensures AscendingIndices(w) ==> forall k :: k in init ==> k < last
  {
    if AscendingIndices(w) {
      forall k | k in init
        ensures k < last
      {
        var a :| 0 <= a < |init| && init[a] == k;
        assert w[a] == k && w[|w| - 1] == last;
      }
    }
  }

  lemma AppendAscending(u: seq<nat>, x: nat)
    requires AscendingIndices(u)
    requires forall k :: k in u ==> k < x
    ensures AscendingIndices(u + [x])
  {
    forall a | 0 <= a < |u|
      ensures u[a] < x
    {
      assert u[a] in u;
    }
  }

  /** The last row of `w` reaching `level`: no later row of `w` does. */
  lemma LastRowAtLeast(speeds: seq<real>, w: seq<nat>, level: real)
    requires IndicesBelow(w, |speeds|) && AscendingIndices(w)
    requires |RowsAtLeast(speeds, w, level)| > 0
    ensures var u := RowsAtLeast(speeds, w, level);
            var i := u[|u| - 1];
            && i in w && speeds[i] >= level
            && forall j :: j in w && j > i ==> speeds[j] < level
  {
    var u := RowsAtLeast(speeds, w, level);
    var i := u[|u| - 1];
    forall j | j in w && j > i
      ensures speeds[j] < level
    {
      assert j !in u by {
        forall b | 0 <= b < |u|
          ensures u[b] <= i
        {
        }
      }
    }
  }

  /** 90 % of the window's mean speed. */
  function SustainLevel(speeds: seq<real>, w: seq<nat>): real
    requires IndicesBelow(w, |speeds|) && |w| > 0
  {
    0.9 * Mean(Pick(speeds, w))
  }

  /** With non-negative speeds some row of a non-empty window reaches the
      level: one reaches the mean, and the mean is not negative. */
  lemma SomeRowSustains(speeds: seq<real>, w: seq<nat>)
    requires IndicesBelow(w, |speeds|) && |w| > 0
    requires forall k :: 0 <= k < |speeds| ==> speeds[k] >= 0.0
    ensures |RowsAtLeast(speeds, w, SustainLevel(speeds, w))| > 0
  {
    var col := Pick(speeds, w);
    MeanNonNegative(col);
    var a := MeanIsReached(col);
    assert w[a] in RowsAtLeast(speeds, w, SustainLevel(speeds, w));
  }

  lemma WindowNonEmpty(times: seq<real>, st: real, en: real)
    requires exists k :: InWindow(times, st, en, k)
    ensures |Window(times, st, en)| > 0
  {
    var k0 :| InWindow(times, st, en, k0);
    assert k0 in Window(times, st, en);
  }

  /** `refine_intervals` for one effort: `None` when no sample falls in
      `[st, en]`; otherwise the timestamp of the last sample of the window
      whose speed reaches 90 % of the window mean, or `en` itself when no
      sample does. */
  function RefineEnd(times: seq<real>, speeds: seq<real>, st: real, en: real): (r: Option<real>)
    requires |times| == |speeds|
    ensures r.None? <==> forall k :: !InWindow(times, st, en, k)
    ensures r.Some? ==> st <= r.value <= en
    ensures r.Some? && r.value != en ==>
              exists k :: InWindow(times, st, en, k) && times[k] == r.value
  {
    var w := Window(times, st, en);
    if |w| == 0 then None
    else
      assert InWindow(times, st, en, w[0]);
      var u := RowsAtLeast(speeds, w, SustainLevel(speeds, w));
      if |u| == 0 then Some(en)
      else
        assert u[|u| - 1] in w;
        Some(times[u[|u| - 1]])
  }

  /** With non-negative speeds some sample of a non-empty window reaches
      90 % of the mean, so the refined end is the timestamp of the last such
      sample: it reaches the level and every later sample of the window
      falls short of it. */
  lemma RefineEndIsLastSustainedSample(times: seq<real>, speeds: seq<real>, st: real, en: real)
    requires |times| == |speeds|
    requires forall k :: 0 <= k < |speeds| ==> speeds[k] >= 0.0
    requires exists k :: InWindow(times, st, en, k)
    ensures |Window(times, st, en)| > 0
    ensures LastAtLevel(times, speeds, st, en, SustainLevel(speeds, Window(times, st, en)),
                        RefineEnd(times, speeds, st, en))
  {
    WindowNonEmpty(times, st, en);
    RefineEndSustained(times, speeds, st, en);
    var w := Window(times, st, en);
    LastRowInWindow(times, speeds, st, en, SustainLevel(speeds, w), RefineEnd(times, speeds, st, en));
  }

  /** `e` is the timestamp of a sample of `[st, en]` that reaches `level`
      while no later sample of the window does. */
  ghost predicate LastAtLevel(times: seq<real>, speeds: seq<real>, st: real, en: real, level: real, e: Option<real>)
    requires |times| == |speeds|
  {
    exists i :: && InWindow(times, st, en, i)
                && e == Some(times[i])
                && speeds[i] >= level
                && forall j :: InWindow(times, st, en, j) && j > i ==> speeds[j] < level
  }

  /** The last row of the window reaching `level` lies in the window, and
      no later row of the window reaches it. */
  lemma LastRowInWindow(times: seq<real>, speeds: seq<real>, st: real, en: real, level: real, e: Option<real>)
    requires |times| == |speeds|
    requires |RowsAtLeast(speeds, Window(times, st, en), level)| > 0
    requires var u := RowsAtLeast(speeds, Window(times, st, en), level);
             e == Some(times[u[|u| - 1]])
    ensures LastAtLevel(times, speeds, st, en, level, e)
  {
    var w := Window(times, st, en);
    LastRowAtLeast(speeds, w, level);
    var u := RowsAtLeast(speeds, w, level);
    assert InWindow(times, st, en, u[|u| - 1]);
    assert forall j :: InWindow(times, st, en, j) ==> j in w;
  }

  /** With non-negative speeds the refined end of a non-empty window is the
      timestamp of the last row reaching the sustain level. */
  lemma RefineEndSustained(times: seq<real>, speeds: seq<real>, st: real, en: real)
    requires |times| == |speeds|
    requires forall k :: 0 <= k < |speeds| ==> speeds[k] >= 0.0
    requires |Window(times, st, en)| > 0
    ensures |RowsAtLeast(speeds, Window(times, st, en), SustainLevel(speeds, Window(times, st, en)))| > 0
    ensures var u := RowsAtLeast(speeds, Window(times, st, en), SustainLevel(speeds, Window(times, st, en)));
            RefineEnd(times, speeds, st, en) == Some(times[u[|u| - 1]])
  {
    SomeRowSustains(speeds, Window(times, st, en));
  }

  // ----- block metrics -----

  /** The samples of `[st, en]` span at least `minDur` seconds from the
      first to the last of them. */
  ghost predicate LongEnough(times: seq<real>, st: real, en: real, minDur: real)
  {
    exists i, j :: FirstAndLastIn(times, st, en, i, j) && times[j] - times[i] >= minDur
  }

  /** `b` runs from the first to the last sample of `[st, en]`, and its
      heart-rate rise is the one between those two samples. */
  ghost predicate SpansWindow(times: seq<real>, bpms: seq<real>, st: real, en: real, b: Block)
    requires |times| == |bpms|
  {
    && (exists i, j :: && FirstAndLastIn(times, st, en, i, j)
                       && b.start == times[i] && b.end == times[j]
                       && b.cardio == bpms[j] - bpms[i])
    && b.duration == b.end - b.start
  }

  /** `b` is the blocks-table row of the samples of `[st, en]`: it spans
      them, and the distance, the mean speed and the mean heart rate are
      taken over all of them. */
  ghost predicate MeasuresWindow(times: seq<real>, speeds: seq<real>, bpms: seq<real>,
                                 st: real, en: real, b: Block)
    requires |times| == |speeds| == |bpms|
  {
    var w := Window(times, st, en);
    && |w| > 0
    && SpansWindow(times, bpms, st, en, b)
    && b.distance == Distance(Pick(times, w), Pick(speeds, w))
    && b.meanSpeed == Mean(Pick(speeds, w))
    && b.meanBpm == Mean(Pick(bpms, w))
  }

  /** `extract_blocks` for one effort: the window's first and last rows give
      start, end and the heart-rate rise; windows that are empty or last
      less than `minDur` seconds yield no block. */
  function ExtractBlock(times: seq<real>, speeds: seq<real>, bpms: seq<real>,
                        st: real, en: real, minDur: real): (r: Option<Block>)
    requires |times| == |speeds| == |bpms|
    ensures r.Some? <==> LongEnough(times, st, en, minDur)
    ensures r.Some? ==> st <= r.value.start && r.value.end <= en
    ensures r.Some? ==> r.value.duration == r.value.end - r.value.start >= minDur
    ensures r.Some? ==> MeasuresWindow(times, speeds, bpms, st, en, r.value)
    ensures r.None? ==> forall i, j :: FirstAndLastIn(times, st, en, i, j) ==> times[j] - times[i] < minDur
    ensures (forall k :: !InWindow(times, st, en, k)) ==> r.None?
  {
    var w := Window(times, st, en);
    if |w| == 0 then None
    else
      var i, j := w[0], w[|w| - 1];
      assert FirstAndLastIn(times, st, en, i, j) by {
        forall k | InWindow(times, st, en, k)
          ensures i <= k <= j
        {
          assert k in w;
        }
      }
      var duration := times[j] - times[i];
      if duration < minDur then None
      else
        var bt, bs, bb := Pick(times, w), Pick(speeds, w), Pick(bpms, w);
        Some(Block(times[i], times[j], duration, Distance(bt, bs), Mean(bs), Mean(bb), bpms[j] - bpms[i]))
  }

  /** A block measured on a window run at a constant speed `v` has mean
      speed `v` and covers `v` (in metres per second) times its duration. */
  lemma MeasuredAtConstantSpeed(times: seq<real>, speeds: seq<real>, bpms: seq<real>,
                                st: real, en: real, v: real, b: Block)
    requires |times| == |speeds| == |bpms|
    requires forall k :: InWindow(times, st, en, k) ==> speeds[k] == v
    requires MeasuresWindow(times, speeds, bpms, st, en, b)
    ensures b.meanSpeed == v
    ensures b.distance == v / 3.6 * b.duration
  {
    MeasuredSpansWindow(times, bpms, st, en, b);
    MetricsAtConstantSpeed(times, speeds, bpms, st, en, v, b);
  }

  /** A block spanning a window runs from its first to its last row. */
  lemma MeasuredSpansWindow(times: seq<real>, bpms: seq<real>, st: real, en: real, b: Block)
    requires |times| == |bpms|
    requires SpansWindow(times, bpms, st, en, b)
    ensures var w := Window(times, st, en);
            |w| > 0 && b.duration == times[w[|w| - 1]] - times[w[0]]
  {
    var w := Window(times, st, en);
    var i, j :| FirstAndLastIn(times, st, en, i, j) && b.start == times[i] && b.end == times[j];
    assert i == w[0] && j == w[|w| - 1] by {
      assert i in w && j in w;
      assert InWindow(times, st, en, w[0]) && InWindow(times, st, en, w[|w| - 1]);
    }
  }

  lemma MetricsAtConstantSpeed(times: seq<real>, speeds: seq<real>, bpms: seq<real>,
                               st: real, en: real, v: real, b: Block)
    requires |times| == |speeds| == |bpms|
    requires forall k :: InWindow(times, st, en, k) ==> speeds[k] == v
    requires MeasuresWindow(times, speeds, bpms, st, en, b)
    requires var w := Window(times, st, en);
             |w| > 0 && b.duration == times[w[|w| - 1]] - times[w[0]]
    ensures b.meanSpeed == v && b.distance == v / 3.6 * b.duration
  {
    ConstantOverWindow(times, speeds, st, en, v, b.duration);
  }

  /** Metrics of a window whose samples all run at speed `v` and whose
      first and last samples lie `d` seconds apart. */
  lemma ConstantOverWindow(times: seq<real>, speeds: seq<real>, st: real, en: real, v: real, d: real)
    requires |times| == |speeds|
    requires forall k :: InWindow(times, st, en, k) ==> speeds[k] == v
    requires var w := Window(times, st, en);
             |w| > 0 && d == times[w[|w| - 1]] - times[w[0]]
    ensures var w := Window(times, st, en);
            && Mean(Pick(speeds, w)) == v
            && Distance(Pick(times, w), Pick(speeds, w)) == v / 3.6 * d
  {
    var w := Window(times, st, en);
    var bt, bs := Pick(times, w), Pick(speeds, w);
    forall k | 0 <= k < |bs|
      ensures bs[k] == v
    {
      assert InWindow(times, st, en, w[k]);
    }
    MeanConstant(bs, v);
    ConstantSpeedCovers(bt, bs, v, d);
  }

  /** `DistanceAtConstantSpeed` with the elapsed time named. */
  lemma ConstantSpeedCovers(times: seq<real>, speeds: seq<real>, v: real, d: real)
    requires |times| == |speeds| > 0
    requires forall k :: 0 <= k < |speeds| ==> speeds[k] == v
    requires d == times[|times| - 1] - times[0]
    ensures Distance(times, speeds) == v / 3.6 * d
  {
    DistanceAtConstantSpeed(times, speeds, v);
  }

  /** A column picked along ascending rows keeps a non-decreasing order. */
  lemma PickKeepsOrder(times: seq<real>, w: seq<nat>)
    requires IndicesBelow(w, |times|) && AscendingIndices(w)
    requires NonDecreasing(times)
    ensures NonDecreasing(Pick(times, w))
  {
  }

  /** Over non-decreasing timestamps and non-negative speeds every extracted
      block has a non-negative distance and a non-negative mean speed. */
  lemma ExtractedBlockIsPhysical(times: seq<real>, speeds: seq<real>, bpms: seq<real>,
                                 st: real, en: real, minDur: real)
    requires |times| == |speeds| == |bpms|
    requires NonDecreasing(times)
    requires forall k :: 0 <= k < |speeds| ==> speeds[k] >= 0.0
    ensures var r := ExtractBlock(times, speeds, bpms, st, en, minDur);
            r.Some? ==> r.value.distance >= 0.0 && r.value.meanSpeed >= 0.0
  {
    var w := Window(times, st, en);
    if |w| > 0 {
      var bt, bs := Pick(times, w), Pick(speeds, w);
      PickKeepsOrder(times, w);
      DistanceNonNegative(bt, bs);
      MeanNonNegative(bs);
    }
  }
}

=== FILE: classify.dfy ===
/** `classify_blocks` of the session analysis: every group of blocks with
    the same rounded distance goes to the short repetitions (`court`), the
    long repetitions (`long`), the other efforts (`autres`) or nowhere,
    according to its distance, size and pace. */
module Classify {
  import opened Results
  import opened Numbers
  import opened Seqs
  import opened Text
  import opened Grouping
  import opened Blocks
  import opened Pace
  import opened Clusters

  datatype Category = Court | LongReps | Autres

  /** `short_min_dist`, `short_max_dist` (m), `min_short_speed`,
      `min_long_speed` (paces `m:ss`) and `min_short_reps`. */
  datatype ClassifyParams = ClassifyParams(shortMinDist: int, shortMaxDist: int,
                                           minShortSpeed: string, minLongSpeed: string,
                                           minShortReps: int)

  const DefaultParams: ClassifyParams := ClassifyParams(50, 400, "3:45", "4:20", 4)

  /** Distances are grouped to the nearest 50 m. */
  const ClassifyStep: Step := 50

  /** The `if / elif / elif` chain, given whether the group is faster than
      the short and the long pace limits. */
  function Chain(p: ClassifyParams, dist: int, count: int, fasterShort: bool, fasterLong: bool): (c: Option<Category>)
    ensures c == Some(Court) <==>
              p.shortMinDist <= dist <= p.shortMaxDist && count >= p.minShortReps && fasterShort
    ensures c == Some(LongReps) <==> dist > p.shortMaxDist && fasterLong
    ensures c == Some(Autres) <==>
              && fasterLong && p.shortMinDist < dist <= p.shortMaxDist
              && !(count >= p.minShortReps && fasterShort)
  {
    if p.shortMinDist <= dist <= p.shortMaxDist && count >= p.minShortReps && fasterShort then Some(Court)
    else if dist > p.shortMaxDist && fasterLong then Some(LongReps)
    else if fasterLong && dist > p.shortMinDist then Some(Autres)
    else None
  }

  /** The group's category as written: its pace string
      `format_allure(60 / mean_speed)` compared with the limits as
      strings. */
  function GroupCategoryAsWritten(p: ClassifyParams, dist: int, g: seq<Block>): (r: Result<Option<Category>>)
    ensures r.Success? <==> HasPace(g)
  {
    if |g| == 0 then Failure(EmptySeries)
    else
      var v := Mean(MapSeq(g, SpeedColumn));
      if v == 0.0 then Failure(ZeroSpeed)
      else
        var m := FormatAllure(60.0 / v);
        Success(Chain(p, dist, |g|, LexLess(m, p.minShortSpeed), LexLess(m, p.minLongSpeed)))
  }

  /** Seconds per km of a group's mean speed, rounded as the pace string
      shows them. */
  function PaceSeconds(g: seq<Block>): int
    requires HasPace(g)
  {
    RoundHalfEven(3600.0 / Mean(MapSeq(g, SpeedColumn)))
  }

  /** The group's category with paces compared as numbers of seconds per
      km. */
  function GroupCategory(p: ClassifyParams, dist: int, g: seq<Block>): (r: Result<Option<Category>>)
    ensures r.Success? <==>
              HasPace(g) && ThresholdSeconds(p.minShortSpeed).Success? && ThresholdSeconds(p.minLongSpeed).Success?
    ensures r.Success? ==>
              r.value == Chain(p, dist, |g|, PaceSeconds(g) < ThresholdSeconds(p.minShortSpeed).value,
                                             PaceSeconds(g) < ThresholdSeconds(p.minLongSpeed).value)
  {
    if !HasPace(g) then
      if |g| == 0 then Failure(EmptySeries) else Failure(ZeroSpeed)
    else
      var shortLimit :- ThresholdSeconds(p.minShortSpeed);
      var longLimit :- ThresholdSeconds(p.minLongSpeed);
      var secs := PaceSeconds(g);
      Success(Chain(p, dist, |g|, secs < shortLimit, secs < longLimit))
  }

  /** A classified group is faster than the limit of its class. */
  lemma ClassifiedGroupsAreFast(p: ClassifyParams, dist: int, g: seq<Block>)
    requires GroupCategory(p, dist, g).Success?
    ensures GroupCategory(p, dist, g).value == Some(Court) ==>
              PaceSeconds(g) < ThresholdSeconds(p.minShortSpeed).value
    ensures GroupCategory(p, dist, g).value in {Some(LongReps), Some(Autres)} ==>
              PaceSeconds(g) < ThresholdSeconds(p.minLongSpeed).value
  {
  }

  /** The default limits read `3:45` as 225 s and `4:20` as 260 s per km. */
  lemma DefaultLimits()
    ensures ThresholdSeconds(DefaultParams.minShortSpeed) == Success(225)
    ensures ThresholdSeconds(DefaultParams.minLongSpeed) == Success(260)
  {
    ShortLimit();
    LongLimit();
  }

  lemma ShortLimit()
    ensures ThresholdSeconds("3:45") == Success(225)
  {
    SplitFirst("3", ':', "45");
    assert "3" + [':'] + "45" == "3:45";
    SplitWithout("45", ':');
    assert DigitsValue("45") == 45 by {
      assert "45"[..1] == "4";
    }
  }

  lemma LongLimit()
    ensures ThresholdSeconds("4:20") == Success(260)
  {
    SplitFirst("4", ':', "20");
    assert "4" + [':'] + "20" == "4:20";
    SplitWithout("20", ':');
    assert DigitsValue("20") == 20 by {
      assert "20"[..1] == "2";
    }
  }

  /** A single 500 m block run at 6 km/h, a pace of 10:00 min/km. */
  const SlowBlock: Block := Block(0.0, 300.0, 300.0, 500.0, 6.0, 120.0, 5.0)

  /** As written, the slow group is a long repetition: `"10:00 min/km"`
      sorts before `"4:20"` because `'1' < '4'`. */
  lemma SlowGroupClassedLongAsWritten()
    ensures GroupCategoryAsWritten(DefaultParams, 500, [SlowBlock]) == Success(Some(LongReps))
  {
    SlowGroupMean();
    TenMinutePace();
    assert 60.0 / 6.0 == 10.0;
    assert LexLess("10:00 min/km", "4:20");
  }

  lemma SlowGroupMean()
    ensures Mean(MapSeq([SlowBlock], SpeedColumn)) == 6.0
  {
    assert MapSeq([SlowBlock], SpeedColumn) == [6.0];
    assert Sum([6.0]) == 6.0 + Sum([]);
  }

  lemma TenMinutePace()
    ensures FormatAllure(10.0) == "10:00 min/km"
  {
    assert Trunc(10.0) == 10;
    assert AllureSeconds(10.0) == 0;
    assert IntToString(10) == "10" by {
      assert NatToString(10) == NatToString(1) + [DigitChar(0)];
    }
    assert Pad2(0) == "00";
  }

  /** With paces compared as seconds the slow group (600 s per km) is in no
      class. */
  lemma SlowGroupUnclassed()
    ensures GroupCategory(DefaultParams, 500, [SlowBlock]) == Success(None)
  {
    var g := [SlowBlock];
    SlowGroupMean();
    assert PaceSeconds(g) == 600 by {
      assert 3600.0 / 6.0 == 600.0;
    }
    DefaultLimits();
  }

  // ----- the three tables -----

  datatype Classified = Classified(court: seq<Block>, long: seq<Block>, autres: seq<Block>)

  function CategoryOf(p: ClassifyParams): (int, seq<Block>) -> Result<Option<Category>>
  {
    (k, g) => GroupCategory(p, k, g)
  }

  function Selecting(p: ClassifyParams, c: Category): (int, seq<Block>) -> seq<Block>
  {
    (k, g) => if GroupCategory(p, k, g) == Success(Some(c)) then g else []
  }

  /** `classify_blocks(blocks, ...)`: three empty tables for no blocks;
      otherwise each group, in ascending distance order, is appended to the
      table of its category. */
  function ClassifyBlocks(p: ClassifyParams, blocks: seq<Block>): Result<Classified>
  {
    if |blocks| == 0 then Success(Classified([], [], []))
    else
      var kx := KeyedBy(blocks, ByDistance(ClassifyStep));
      var ks := SortedKeys(kx, LeInt);
      var _ :- MapGroups(kx, ks, CategoryOf(p));
      Success(Classified(ConcatGroups(kx, ks, Selecting(p, Court)),
                         ConcatGroups(kx, ks, Selecting(p, LongReps)),
                         ConcatGroups(kx, ks, Selecting(p, Autres))))
  }

  /** The table of category `c`. */
  function TableOf(t: Classified, c: Category): seq<Block>
  {
    match c
    case Court => t.court
    case LongReps => t.long
    case Autres => t.autres
  }

  /** The category of the group block `b` belongs to. */
  function CategoryOfBlock(p: ClassifyParams, blocks: seq<Block>, b: Block): Result<Option<Category>>
  {
    var k := DistanceKey(ClassifyStep, b);
    GroupCategory(p, k, DistanceGroup(blocks, ClassifyStep, k))
  }

  /** Classification fails exactly when the group of some block cannot be
      classified. */
  lemma ClassifyBlocksFails(p: ClassifyParams, blocks: seq<Block>)
    ensures ClassifyBlocks(p, blocks).Failure? <==>
              exists i :: 0 <= i < |blocks| && CategoryOfBlock(p, blocks, blocks[i]).Failure?
  {
    if |blocks| > 0 {
      GroupTableFails(blocks, ByDistance(ClassifyStep), LeInt, CategoryOf(p));
    }
  }

  /** A block selected into the table of `c` belongs to a group of
      category `c`. */
  lemma SelectedHasCategory(p: ClassifyParams, blocks: seq<Block>, c: Category, b: Block)
    requires b in ConcatGroups(KeyedBy(blocks, ByDistance(ClassifyStep)),
                               SortedKeys(KeyedBy(blocks, ByDistance(ClassifyStep)), LeInt), Selecting(p, c))
    ensures b in blocks && CategoryOfBlock(p, blocks, b) == Success(Some(c))
  {
    var key := ByDistance(ClassifyStep);
    var kx := KeyedBy(blocks, key);
    var ks := SortedKeys(kx, LeInt);
    var f := Selecting(p, c);
    MemberOfConcat(kx, ks, f, b);
    var i :| 0 <= i < |ks| && b in f(ks[i], GroupOf(kx, ks[i]));
    MemberOfGroup(blocks, key, ks[i], b);
  }

  /** A block whose group has category `c` is selected into its table. */
  lemma CategorySelects(p: ClassifyParams, blocks: seq<Block>, c: Category, b: Block)
    requires b in blocks && CategoryOfBlock(p, blocks, b) == Success(Some(c))
    ensures b in ConcatGroups(KeyedBy(blocks, ByDistance(ClassifyStep)),
                              SortedKeys(KeyedBy(blocks, ByDistance(ClassifyStep)), LeInt), Selecting(p, c))
  {
    var key := ByDistance(ClassifyStep);
    var kx := KeyedBy(blocks, key);
    var ks := SortedKeys(kx, LeInt);
    var f := Selecting(p, c);
    MemberOfGroup(blocks, key, key(b), b);
    KeyOccurs(blocks, key, key(b));
    var i :| 0 <= i < |ks| && ks[i] == key(b);
    assert b in f(ks[i], GroupOf(kx, ks[i]));
    MemberOfConcat(kx, ks, f, b);
  }

  /** A block is in the table of category `c` exactly when its group's
      category is `c`; so every block lands in at most one table. */
  lemma ClassifyBlocksPlaces(p: ClassifyParams, blocks: seq<Block>, c: Category, b: Block)
    requires ClassifyBlocks(p, blocks).Success?
    ensures b in TableOf(ClassifyBlocks(p, blocks).value, c) <==>
              b in blocks && CategoryOfBlock(p, blocks, b) == Success(Some(c))
  {
    if |blocks| > 0 {
      var kx := KeyedBy(blocks, ByDistance(ClassifyStep));
      var ks := SortedKeys(kx, LeInt);
      assert TableOf(ClassifyBlocks(p, blocks).value, c) == ConcatGroups(kx, ks, Selecting(p, c));
      if b in ConcatGroups(kx, ks, Selecting(p, c)) {
        SelectedHasCategory(p, blocks, c, b);
      }
      if b in blocks && CategoryOfBlock(p, blocks, b) == Success(Some(c)) {
        CategorySelects(p, blocks, c, b);
      }
    }
  }
}

=== FILE: clusters.dfy ===
/** The per-group summaries of the blocks table: blocks grouped by rounded
    distance (single-scale analyses) or by rounded distance and rounded
    duration (multi-scale analysis), each group shown with its size, pace,
    mean duration, heart rate and cardiac drift. */
module Clusters {
  import opened Results
  import opened Numbers
  import opened Seqs
  import opened Text
  import opened Grouping
  import opened Sessions
  import opened Blocks
  import opened Pace

  // ----- columns of a group -----

  function SpeedColumn(b: Block): real { b.meanSpeed }
  function DurationColumn(b: Block): real { b.duration }
  function DistanceColumn(b: Block): real { b.distance }
  function BpmColumn(b: Block): real { b.meanBpm }
  function CardioColumn(b: Block): real { b.cardio }

  /** A group whose pace can be shown: non-empty, with a non-zero mean
      speed (`60 / 0.0` is infinite and `int()` of it raises). */
  predicate HasPace(g: seq<Block>)
  {
    |g| > 0 && Mean(MapSeq(g, SpeedColumn)) != 0.0
  }

  /** `format_allure(60 / grp["mean_speed"].mean())`, shown with the
      corrected pace format. */
  function GroupPace(g: seq<Block>): (r: Result<string>)
    ensures r.Success? <==> HasPace(g)
    ensures r.Success? ==>
              AllureToSec(r.value) == Success(RoundHalfEven(3600.0 / Mean(MapSeq(g, SpeedColumn))))
  {
    if |g| == 0 then Failure(EmptySeries)
    else
      var v := Mean(MapSeq(g, SpeedColumn));
      if v == 0.0 then Failure(ZeroSpeed)
      else
        PaceOfSpeed(v);
        Success(FormatPace(60.0 / v))
  }

  /** `f"{round(grp['duration_s'].mean())} s"`. */
  function MeanDurationLabel(g: seq<Block>): string
    requires |g| > 0
  {
    IntToString(RoundHalfEven(Mean(MapSeq(g, DurationColumn)))) + " s"
  }

  /** The whole number shown in a cell such as `"42 s"` or `"380 m"`:
      `int()` of the text before the unit, none when the unit is missing
      or the rest is not an integer. */
  function CellNumber(cell: string, unit: string): Option<int>
  {
    if |unit| <= |cell| && cell[|cell| - |unit|..] == unit then ParseInt(cell[..|cell| - |unit|])
    else None
  }

  /** A number printed with its unit reads back as itself. */
  lemma CellNumberReadsBack(n: int, unit: string)
    ensures CellNumber(IntToString(n) + unit, unit) == Some(n)
  {
    var cell := IntToString(n) + unit;
    assert cell[..|cell| - |unit|] == IntToString(n);
    assert cell[|cell| - |unit|..] == unit;
    ParseIntToString(n);
  }

  // ----- single-scale summary: groups of equal rounded distance -----

  /** A row of the single-scale summary (`type`, `allure`, `durée moyenne`,
      `bpm moyen`, `effort_cardio moyen`), with the group's size and key
      kept alongside. */
  datatype DistanceRow = DistanceRow(count: nat, distance: int, title: string, pace: string,
                                     meanDuration: string, meanBpm: real, meanCardio: real)

  function DistanceRowKey(r: DistanceRow): int { r.distance }
  function DistanceRowCount(r: DistanceRow): int { r.count }

  predicate LeInt(a: int, b: int) { a <= b }

  lemma LeIntIsTotalPreorder()
    ensures TotalPreorder(LeInt)
  {
  }

  /** `(distance_m / step).round() * step`. */
  function DistanceKey(step: Step, b: Block): int
  {
    RoundToStep(b.distance, step)
  }

  function ByDistance(step: Step): Block -> int
  {
    b => DistanceKey(step, b)
  }

  /** The blocks whose rounded distance is `k`. */
  function DistanceGroup(blocks: seq<Block>, step: Step, k: int): seq<Block>
  {
    GroupOf(KeyedBy(blocks, ByDistance(step)), k)
  }

  /** The summary of one group: `"{n} × {dist} m"`, the pace, the rounded
      mean duration and the means of heart rate and cardiac drift to one
      decimal. */
  function DistanceRowOf(k: int, g: seq<Block>): (r: Result<DistanceRow>)
    ensures r.Success? <==> HasPace(g)
    ensures r.Success? ==> r.value.count == |g| && r.value.distance == k
    ensures r.Success? ==> r.value.title == IntToString(|g|) + " × " + IntToString(k) + " m"
    ensures r.Success? ==> AllureToSec(r.value.pace) == Success(RoundHalfEven(3600.0 / Mean(MapSeq(g, SpeedColumn))))
    ensures r.Success? ==> -0.05 <= Mean(MapSeq(g, BpmColumn)) - r.value.meanBpm <= 0.05
    ensures r.Success? ==> -0.05 <= Mean(MapSeq(g, CardioColumn)) - r.value.meanCardio <= 0.05
    ensures r.Success? ==>
              CellNumber(r.value.meanDuration, " s") == Some(RoundHalfEven(Mean(MapSeq(g, DurationColumn))))
  {
    var pace :- GroupPace(g);
    CellNumberReadsBack(RoundHalfEven(Mean(MapSeq(g, DurationColumn))), " s");
    Success(DistanceRow(|g|, k, IntToString(|g|) + " × " + IntToString(k) + " m", pace,
                        MeanDurationLabel(g),
                        Round1(Mean(MapSeq(g, BpmColumn))),
                        Round1(Mean(MapSeq(g, CardioColumn)))))
  }

  lemma DistanceRowRecordsGroup()
    ensures RecordsGroup(DistanceRowOf, DistanceRowKey, DistanceRowCount)
  {
  }

  /** `summarize_clusters(blocks, round_to)` of the single-scale analyses:
      one row per rounded distance, in ascending distance order. */
  function SummarizeByDistance(blocks: seq<Block>, step: Step): (r: Result<seq<DistanceRow>>)
  {
    GroupTable(blocks, ByDistance(step), LeInt, DistanceRowOf)
  }

  /** The rows of the single-scale summary partition the blocks: each row
      counts exactly the blocks with its rounded distance, and the counts
      add up to the number of blocks. */
  lemma SummarizeByDistanceCounts(blocks: seq<Block>, step: Step)
    ensures |blocks| == 0 ==> SummarizeByDistance(blocks, step) == Success([])
    ensures var r := SummarizeByDistance(blocks, step);
            r.Success? ==>
              && SumBy(r.value, DistanceRowCount) == |blocks|
              && (forall i :: 0 <= i < |r.value| ==>
                    r.value[i].count == CountKey(blocks, ByDistance(step), r.value[i].distance) > 0)
  {
    if |blocks| == 0 {
      NoBlocksNoRows(step);
    } else {
      DistanceRowRecordsGroup();
      GroupTableCounts(blocks, ByDistance(step), LeInt, DistanceRowOf, DistanceRowKey, DistanceRowCount);
      var r := SummarizeByDistance(blocks, step);
      if r.Success? {
        forall i | 0 <= i < |r.value|
          ensures r.value[i].count == CountKey(blocks, ByDistance(step), r.value[i].distance) > 0
        {
          assert DistanceRowKey(r.value[i]) == r.value[i].distance;
          assert DistanceRowCount(r.value[i]) == r.value[i].count;
        }
      }
    }
  }

  lemma NoBlocksNoRows(step: Step)
    ensures SummarizeByDistance([], step) == Success([])
  {
    assert KeyedBy([], ByDistance(step)) == [];
  }

  /** Every block is counted in the row of its rounded distance, and the
      rows' distances strictly increase. */
  lemma SummarizeByDistanceOrder(blocks: seq<Block>, step: Step)
    ensures var r := SummarizeByDistance(blocks, step);
            r.Success? ==>
              && (forall i :: 0 <= i < |blocks| ==>
                    exists j :: 0 <= j < |r.value| && r.value[j].distance == DistanceKey(step, blocks[i]))
              && (forall i, j :: 0 <= i < j < |r.value| ==> r.value[i].distance < r.value[j].distance)
  {
    DistanceRowRecordsGroup();
    LeIntIsTotalPreorder();
    GroupTableKeys(blocks, ByDistance(step), LeInt, DistanceRowOf, DistanceRowKey, DistanceRowCount);
    var r := SummarizeByDistance(blocks, step);
    if r.Success? {
      forall i | 0 <= i < |blocks|
        ensures exists j :: 0 <= j < |r.value| && r.value[j].distance == DistanceKey(step, blocks[i])
      {
        assert ByDistance(step)(blocks[i]) == DistanceKey(step, blocks[i]);
        var j :| 0 <= j < |r.value| && DistanceRowKey(r.value[j]) == ByDistance(step)(blocks[i]);
      }
      forall i, j | 0 <= i < j < |r.value|
        ensures r.value[i].distance < r.value[j].distance
      {
        assert LeInt(DistanceRowKey(r.value[i]), DistanceRowKey(r.value[j]));
        assert DistanceRowKey(r.value[i]) != DistanceRowKey(r.value[j]);
      }
    }
  }

  /** The single-scale summary fails exactly when some block's group has a
      zero mean speed. */
  lemma SummarizeByDistanceFails(blocks: seq<Block>, step: Step)
    ensures SummarizeByDistance(blocks, step).Failure? <==>
              exists i :: 0 <= i < |blocks| &&
                !HasPace(DistanceGroup(blocks, step, DistanceKey(step, blocks[i])))
  {
    GroupTableFails(blocks, ByDistance(step), LeInt, DistanceRowOf);
    forall i | 0 <= i < |blocks|
      ensures ByDistance(step)(blocks[i]) == DistanceKey(step, blocks[i])
    {
    }
  }

  // ----- multi-scale summary: groups of equal rounded distance and duration -----

  /** A row of the multi-scale summary (`pattern`, `allure`, `durée
      moyenne`, `distance moyenne`, `bpm moyen`, `effort_cardio moyen`,
      `échelle`), with the group's size and key kept alongside. */
  datatype ClusterRow = ClusterRow(count: nat, distance: int, duration: int, pattern: string,
                                   pace: string, meanDuration: string, meanDistance: string,
                                   meanBpm: real, meanCardio: real, scales: string)

  function ClusterRowKey(r: ClusterRow): (int, int) { (r.distance, r.duration) }
  function ClusterRowCount(r: ClusterRow): int { r.count }

  /** Tuple order on `(distance_round, duration_round)`. */
  predicate LePair(a: (int, int), b: (int, int))
  {
    a.0 < b.0 || (a.0 == b.0 && a.1 <= b.1)
  }

  lemma LePairIsTotalPreorder()
    ensures TotalPreorder(LePair)
  {
  }

  function ClusterKey(distStep: Step, durStep: Step, b: ScaledBlock): (int, int)
  {
    (RoundToStep(b.block.distance, distStep), RoundToStep(b.block.duration, durStep))
  }

  function ByDistanceAndDuration(distStep: Step, durStep: Step): ScaledBlock -> (int, int)
  {
    b => ClusterKey(distStep, durStep, b)
  }

  /** The blocks of a group without their scale. */
  function Unscaled(g: seq<ScaledBlock>): seq<Block>
  {
    MapSeq(g, (b: ScaledBlock) => b.block)
  }

  predicate Occurs(g: seq<ScaledBlock>, s: Scale)
  {
    exists i :: 0 <= i < |g| && g[i].scale == s
  }

  /** `sorted(grp["scale"].unique())`: the scales found in the group, in
      alphabetical order of their names. */
  function PresentScales(g: seq<ScaledBlock>): (r: seq<Scale>)
    ensures forall s :: s in r <==> Occurs(g, s)
    ensures forall i, j :: 0 <= i < j < |r| ==> LexLess(ScaleName(r[i]), ScaleName(r[j]))
  {
    var l, m, s := Occurs(g, Long), Occurs(g, Medium), Occurs(g, Short);
    ScalesByNameAscend(l, m, s);
    ScalesChosen(l, m, s)
  }

  /** The scales whose flags are set, in the order long, medium, short. */
  function ScalesChosen(l: bool, m: bool, s: bool): (r: seq<Scale>)
    ensures forall x :: x in r <==> (x == Long && l) || (x == Medium && m) || (x == Short && s)
  {
    (if l then [Long] else []) + (if m then [Medium] else []) + (if s then [Short] else [])
  }

  lemma ScalesByNameAscend(l: bool, m: bool, s: bool)
    ensures var r := ScalesChosen(l, m, s);
            forall i, j :: 0 <= i < j < |r| ==> LexLess(ScaleName(r[i]), ScaleName(r[j]))
  {
    assert LexLess("long", "medium") && LexLess("medium", "short") && LexLess("long", "short");
  }

  function ScaleNames(ss: seq<Scale>): (r: seq<string>)
    ensures |r| == |ss|
    ensures forall i :: 0 <= i < |ss| ==> r[i] == ScaleName(ss[i])
  {
    seq(|ss|, i requires 0 <= i < |ss| => ScaleName(ss[i]))
  }

  /** The summary of one group: `"{n} × {dur} s  (~{dist} m)"`, the pace,
      the rounded mean duration, the truncated mean distance, the means of
      heart rate and cardiac drift to one decimal and the scales found. */
  function ClusterRowOf(k: (int, int), g: seq<ScaledBlock>): (r: Result<ClusterRow>)
    ensures r.Success? <==> HasPace(Unscaled(g))
    ensures r.Success? ==> r.value.count == |g| && (r.value.distance, r.value.duration) == k
    ensures r.Success? ==> r.value.pattern == IntToString(|g|) + " × " + IntToString(k.1) + " s  (~" + IntToString(k.0) + " m)"
    ensures r.Success? ==>
              AllureToSec(r.value.pace) == Success(RoundHalfEven(3600.0 / Mean(MapSeq(Unscaled(g), SpeedColumn))))
    ensures r.Success? ==> -0.05 <= Mean(MapSeq(Unscaled(g), BpmColumn)) - r.value.meanBpm <= 0.05
    ensures r.Success? ==> -0.05 <= Mean(MapSeq(Unscaled(g), CardioColumn)) - r.value.meanCardio <= 0.05
    ensures r.Success? ==>
              CellNumber(r.value.meanDuration, " s") == Some(RoundHalfEven(Mean(MapSeq(Unscaled(g), DurationColumn))))
    ensures r.Success? ==>
              CellNumber(r.value.meanDistance, " m") == Some(Trunc(Mean(MapSeq(Unscaled(g), DistanceColumn))))
    ensures r.Success? ==> r.value.scales == Join(ScaleNames(PresentScales(g)), ", ")
  {
    var bs := Unscaled(g);
    var pace :- GroupPace(bs);
    CellNumberReadsBack(RoundHalfEven(Mean(MapSeq(bs, DurationColumn))), " s");
    CellNumberReadsBack(Trunc(Mean(MapSeq(bs, DistanceColumn))), " m");
    Success(ClusterRow(|g|, k.0, k.1,
                       IntToString(|g|) + " × " + IntToString(k.1) + " s  (~" + IntToString(k.0) + " m)",
                       pace, MeanDurationLabel(bs),
                       IntToString(Trunc(Mean(MapSeq(bs, DistanceColumn)))) + " m",
                       Round1(Mean(MapSeq(bs, BpmColumn))),
                       Round1(Mean(MapSeq(bs, CardioColumn))),
                       Join(ScaleNames(PresentScales(g)), ", ")))
  }

  lemma ClusterRowRecordsGroup()
    ensures RecordsGroup(ClusterRowOf, ClusterRowKey, ClusterRowCount)
  {
  }

  /** `sort_values("pattern")`: string order on the pattern column. */
  predicate LePattern(a: ClusterRow, b: ClusterRow)
  {
    LexLe(a.pattern, b.pattern)
  }

  lemma LePatternIsTotalPreorder()
    ensures TotalPreorder(LePattern)
  {
    LexLeIsTotalPreorder();
  }

  /** `summarize_clusters(blocks, round_dist, round_dur)` of the multi-scale
      analysis: empty for no blocks, otherwise one row per rounded
      `(distance, duration)` pair, ordered by pattern string. */
  function SummarizeClusters(blocks: seq<ScaledBlock>, distStep: Step, durStep: Step): (r: Result<seq<ClusterRow>>)
    ensures |blocks| == 0 ==> r == Success([])
    ensures r.Success? ==> SortedBy(r.value, LePattern)
  {
    if |blocks| == 0 then Success([])
    else
      var rows :- GroupTable(blocks, ByDistanceAndDuration(distStep, durStep), LePair, ClusterRowOf);
      LePatternIsTotalPreorder();
      SortSorted(rows, LePattern);
      Success(Sort(rows, LePattern))
  }

  /** A non-empty multi-scale summary is the group table sorted by
      pattern. */
  lemma ClustersAreSortedTable(blocks: seq<ScaledBlock>, distStep: Step, durStep: Step)
    requires |blocks| > 0
    requires SummarizeClusters(blocks, distStep, durStep).Success?
    ensures var t := GroupTable(blocks, ByDistanceAndDuration(distStep, durStep), LePair, ClusterRowOf);
            t.Success? && SummarizeClusters(blocks, distStep, durStep).value == Sort(t.value, LePattern)
  {
  }

  /** Sorting the rows keeps their counts. */
  lemma SortKeepsCounts(rows: seq<ClusterRow>, blocks: seq<ScaledBlock>, key: ScaledBlock -> (int, int))
    requires SumBy(rows, ClusterRowCount) == |blocks|
    requires forall i :: 0 <= i < |rows| ==> rows[i].count == CountKey(blocks, key, ClusterRowKey(rows[i])) > 0
    ensures var sorted := Sort(rows, LePattern);
            && SumBy(sorted, ClusterRowCount) == |blocks|
            && forall i :: 0 <= i < |sorted| ==> sorted[i].count == CountKey(blocks, key, ClusterRowKey(sorted[i])) > 0
  {
    SumBySort(rows, LePattern, ClusterRowCount);
    SortKeepsProperty(rows, LePattern, (row: ClusterRow) => row.count == CountKey(blocks, key, ClusterRowKey(row)) > 0);
  }

  /** Some row shows the key `k`. */
  predicate ShowsKey(rows: seq<ClusterRow>, k: (int, int))
  {
    exists j :: 0 <= j < |rows| && ClusterRowKey(rows[j]) == k
  }

  lemma SortKeepsKey(rows: seq<ClusterRow>, k: (int, int))
    requires ShowsKey(rows, k)
    ensures ShowsKey(Sort(rows, LePattern), k)
  {
    var sorted := Sort(rows, LePattern);
    var j :| 0 <= j < |rows| && ClusterRowKey(rows[j]) == k;
    assert rows[j] in multiset(rows);
    assert rows[j] in multiset(sorted);
    var i :| 0 <= i < |sorted| && sorted[i] == rows[j];
    assert ClusterRowKey(sorted[i]) == k;
  }

  /** The unsorted group table counts every block once, in the row of its
      key. */
  lemma TableCounts(blocks: seq<ScaledBlock>, distStep: Step, durStep: Step)
    requires GroupTable(blocks, ByDistanceAndDuration(distStep, durStep), LePair, ClusterRowOf).Success?
    ensures var key := ByDistanceAndDuration(distStep, durStep);
            var rows := GroupTable(blocks, key, LePair, ClusterRowOf).value;
            && SumBy(rows, ClusterRowCount) == |blocks|
            && forall i :: 0 <= i < |rows| ==> rows[i].count == CountKey(blocks, key, ClusterRowKey(rows[i])) > 0
  {
    ClusterRowRecordsGroup();
    GroupTableCounts(blocks, ByDistanceAndDuration(distStep, durStep), LePair, ClusterRowOf, ClusterRowKey, ClusterRowCount);
  }

  /** The unsorted group table shows every block's key. */
  lemma TableKeys(blocks: seq<ScaledBlock>, key: ScaledBlock -> (int, int))
    requires GroupTable(blocks, key, LePair, ClusterRowOf).Success?
    ensures var rows := GroupTable(blocks, key, LePair, ClusterRowOf).value;
            forall i :: 0 <= i < |blocks| ==> ShowsKey(rows, key(blocks[i]))
  {
    ClusterRowRecordsGroup();
    GroupTableCovers(blocks, key, LePair, ClusterRowOf, ClusterRowKey, ClusterRowCount);
  }

  /** The rows partition the blocks: each row counts exactly the blocks
      with its key, and the counts add up to the number of blocks. */
  predicate CountsBlocks(rows: seq<ClusterRow>, blocks: seq<ScaledBlock>, key: ScaledBlock -> (int, int))
  {
    && SumBy(rows, ClusterRowCount) == |blocks|
    && forall i :: 0 <= i < |rows| ==> rows[i].count == CountKey(blocks, key, ClusterRowKey(rows[i])) > 0
  }

  /** The rows of the multi-scale summary partition the blocks: each row
      counts exactly the blocks with its rounded distance and duration, and
      the counts add up to the number of blocks. */
  lemma SummarizeClustersCounts(blocks: seq<ScaledBlock>, distStep: Step, durStep: Step)
    ensures var r := SummarizeClusters(blocks, distStep, durStep);
            r.Success? ==> CountsBlocks(r.value, blocks, ByDistanceAndDuration(distStep, durStep))
  {
    var r := SummarizeClusters(blocks, distStep, durStep);
    if r.Success? && |blocks| > 0 {
      ClustersAreSortedTable(blocks, distStep, durStep);
      SortedTableCounts(blocks, distStep, durStep);
    }
  }

  /** Sorting the group table by pattern keeps its counts. */
  lemma SortedTableCounts(blocks: seq<ScaledBlock>, distStep: Step, durStep: Step)
    requires GroupTable(blocks, ByDistanceAndDuration(distStep, durStep), LePair, ClusterRowOf).Success?
    ensures var key := ByDistanceAndDuration(distStep, durStep);
            CountsBlocks(Sort(GroupTable(blocks, key, LePair, ClusterRowOf).value, LePattern), blocks, key)
  {
    var key := ByDistanceAndDuration(distStep, durStep);
    TableCounts(blocks, distStep, durStep);
    SortKeepsCounts(GroupTable(blocks, key, LePair, ClusterRowOf).value, blocks, key);
  }

  /** Sorting the group table by pattern keeps every block's key shown. */
  lemma SortedTableKeys(blocks: seq<ScaledBlock>, key: ScaledBlock -> (int, int))
    requires GroupTable(blocks, key, LePair, ClusterRowOf).Success?
    ensures var rows := GroupTable(blocks, key, LePair, ClusterRowOf).value;
            forall i :: 0 <= i < |blocks| ==> ShowsKey(Sort(rows, LePattern), key(blocks[i]))
  {
    var rows := GroupTable(blocks, key, LePair, ClusterRowOf).value;
    TableKeys(blocks, key);
    forall i | 0 <= i < |blocks|
      ensures ShowsKey(Sort(rows, LePattern), key(blocks[i]))
    {
      SortKeepsKey(rows, key(blocks[i]));
    }
  }

  /** Every block is counted in the row of its rounded distance and
      duration. */
  lemma SummarizeClustersCover(blocks: seq<ScaledBlock>, distStep: Step, durStep: Step)
    ensures var r := SummarizeClusters(blocks, distStep, durStep);
            r.Success? ==>
              forall i :: 0 <= i < |blocks| ==> ShowsKey(r.value, ClusterKey(distStep, durStep, blocks[i]))
  {
    var r := SummarizeClusters(blocks, distStep, durStep);
    if r.Success? && |blocks| > 0 {
      var key := ByDistanceAndDuration(distStep, durStep);
      ClustersAreSortedTable(blocks, distStep, durStep);
      SortedTableKeys(blocks, key);
      forall i | 0 <= i < |blocks|
        ensures ShowsKey(r.value, ClusterKey(distStep, durStep, blocks[i]))
      {
        assert key(blocks[i]) == ClusterKey(distStep, durStep, blocks[i]);
      }
    }
  }

  /** The multi-scale summary fails exactly when some block's group has a
      zero mean speed. */
  lemma SummarizeClustersFails(blocks: seq<ScaledBlock>, distStep: Step, durStep: Step)
    ensures SummarizeClusters(blocks, distStep, durStep).Failure? <==>
              exists i :: 0 <= i < |blocks| &&
                !HasPace(Unscaled(GroupOf(KeyedBy(blocks, ByDistanceAndDuration(distStep, durStep)),
                                          ClusterKey(distStep, durStep, blocks[i]))))
  {
    var key := ByDistanceAndDuration(distStep, durStep);
    GroupTableFails(blocks, key, LePair, ClusterRowOf);
    forall i | 0 <= i < |blocks|
      ensures key(blocks[i]) == ClusterKey(distStep, durStep, blocks[i])
    {
    }
  }
}

=== FILE: conditioning.dfy ===
/** Preparing a stream table for detection: gap imputation by forward then
    backward fill, and the smoothing window each profile gets. The smoother
    itself (Savitzky-Golay, "interp" edges) is a parameter. */
module Conditioning {
  import opened Results
  import opened Sessions
  import Streams

  predicate HasValue(xs: seq<Option<real>>)
  {
    exists i :: 0 <= i < |xs| && xs[i].Some?
  }

  /** The last index at or before `i` that holds a value. */
  function LastValueAt(xs: seq<Option<real>>, i: nat): (r: Option<nat>)
    requires i < |xs|
    ensures r.Some? ==> r.value <= i && xs[r.value].Some?
                        && forall m :: r.value < m <= i ==> xs[m].None?
    ensures r.None? ==> forall m :: 0 <= m <= i ==> xs[m].None?
  {
    if xs[i].Some? then Some(i) else if i == 0 then None else LastValueAt(xs, i - 1)
  }

  /** The first index at or after `i` that holds a value. */
  function NextValueAt(xs: seq<Option<real>>, i: nat): (r: Option<nat>)
    requires i < |xs|
    ensures r.Some? ==> i <= r.value < |xs| && xs[r.value].Some?
                        && forall m :: i <= m < r.value ==> xs[m].None?
    ensures r.None? ==> forall m :: i <= m < |xs| ==> xs[m].None?
    decreases |xs| - i
  {
    if xs[i].Some? then Some(i) else if i == |xs| - 1 then None else NextValueAt(xs, i + 1)
  }

  /** `Series.ffill()`: each gap takes the closest value before it. */
  function FFill(xs: seq<Option<real>>): (r: seq<Option<real>>)
    ensures |r| == |xs|
    ensures forall i :: 0 <= i < |xs| && xs[i].Some? ==> r[i] == xs[i]
  {
    seq(|xs|, i requires 0 <= i < |xs| =>
      match LastValueAt(xs, i)
      case Some(j) => xs[j]
      case None => None)
  }

  /** `Series.bfill()`: each gap takes the closest value after it. */
  function BFill(xs: seq<Option<real>>): (r: seq<Option<real>>)
    ensures |r| == |xs|
    ensures forall i :: 0 <= i < |xs| && xs[i].Some? ==> r[i] == xs[i]
  {
    seq(|xs|, i requires 0 <= i < |xs| =>
      match NextValueAt(xs, i)
      case Some(j) => xs[j]
      case None => None)
  }

  /** `.ffill().bfill()`: observed values stay, and a column with at least
      one value has no gap left; every filled value was observed. */
  function FillGaps(xs: seq<Option<real>>): (r: seq<Option<real>>)
    ensures |r| == |xs|
    ensures forall i :: 0 <= i < |xs| && xs[i].Some? ==> r[i] == xs[i]
    ensures HasValue(xs) ==> forall i :: 0 <= i < |r| ==> r[i].Some?
    ensures !HasValue(xs) ==> r == xs
    ensures forall i :: 0 <= i < |r| && r[i].Some? ==> r[i] in xs
  {
    var f := FFill(xs);
    var r := BFill(f);
    FillGapsComplete(xs, f, r);
    r
  }

  /** A gap is filled from the nearest earlier value if there is one, and
      otherwise from the first value of the column. */
  lemma FillGapsNearest(xs: seq<Option<real>>, i: nat)
    requires i < |xs|
    ensures LastValueAt(xs, i).Some? ==> FillGaps(xs)[i] == xs[LastValueAt(xs, i).value]
    ensures LastValueAt(xs, i).None? && NextValueAt(xs, 0).Some? ==>
              FillGaps(xs)[i] == xs[NextValueAt(xs, 0).value]
  {
    var f := FFill(xs);
    if LastValueAt(xs, i).None? && NextValueAt(xs, 0).Some? {
      var k := NextValueAt(xs, 0).value;
      assert k > i;
      assert f[k] == xs[k];
      var j := NextValueAt(f, i).value;
      assert forall m :: 0 <= m <= i ==> f[m].None?;
      assert j == k;
    }
  }

  lemma FillGapsComplete(xs: seq<Option<real>>, f: seq<Option<real>>, r: seq<Option<real>>)
    requires f == FFill(xs) && r == BFill(f)
    ensures HasValue(xs) ==> forall i :: 0 <= i < |r| ==> r[i].Some?
    ensures !HasValue(xs) ==> r == xs
    ensures forall i :: 0 <= i < |r| && r[i].Some? ==> r[i] in xs
  {
    if HasValue(xs) {
      var j :| 0 <= j < |xs| && xs[j].Some?;
      forall i | 0 <= i < |r|
        ensures r[i].Some?
      {
        if i <= j {
          assert f[j].Some?;
          assert NextValueAt(f, i).Some?;
        } else {
          assert LastValueAt(xs, i).Some?;
        }
      }
    } else {
      forall i | 0 <= i < |xs|
        ensures f[i] == xs[i] && r[i] == xs[i]
      {
        assert LastValueAt(xs, i).None?;
        assert forall m :: 0 <= m < |f| ==> f[m].None?;
        assert NextValueAt(f, i).None?;
      }
    }
    forall i | 0 <= i < |r| && r[i].Some?
      ensures r[i] in xs
    {
      var j := NextValueAt(f, i).value;
      var k := LastValueAt(xs, j).value;
      assert r[i] == f[j] == xs[k];
    }
  }

  /** A gap-free column as plain reals; `None` when the whole column is
      missing (it stays NaN in the source, which reals cannot carry). */
  function Values(xs: seq<Option<real>>): (r: Option<seq<real>>)
    ensures r.Some? <==> forall i :: 0 <= i < |xs| ==> xs[i].Some?
    ensures r.Some? ==> |r.value| == |xs| && forall i :: 0 <= i < |xs| ==> xs[i] == Some(r.value[i])
  {
    if forall i :: 0 <= i < |xs| ==> xs[i].Some? then
      Some(seq(|xs|, i requires 0 <= i < |xs| => xs[i].value))
    else None
  }

  /** After filling, a non-empty column is gap-free exactly when it had a
      value, and it keeps every observed value. */
  lemma FilledValues(xs: seq<Option<real>>)
    ensures |xs| > 0 ==> (Values(FillGaps(xs)).Some? <==> HasValue(xs))
    ensures Values(FillGaps(xs)).Some? ==>
      forall i :: 0 <= i < |xs| && xs[i].Some? ==> Values(FillGaps(xs)).value[i] == xs[i].value
  {
    var r := FillGaps(xs);
    if |xs| > 0 && !HasValue(xs) {
      assert r[0].None?;
    }
  }

  // ----- smoothing window -----

  /** The window expression of the loader, as written: the profile window
      when the stream is longer, otherwise `(len // 2) * 2 + 1`. */
  function SmoothWindow(len: nat, w: nat): int
  {
    if len > w then
      var oddBelow := len - (1 - len % 2);
      if oddBelow < w then oddBelow else w
    else (len / 2) * 2 + 1
  }

  lemma SmoothWindowProperties(len: nat, w: nat)
    requires w % 2 == 1
    ensures SmoothWindow(len, w) % 2 == 1
    ensures len > w ==> SmoothWindow(len, w) == w
    ensures len <= w && len % 2 == 1 ==> SmoothWindow(len, w) == len
    ensures len <= w && len % 2 == 0 ==> SmoothWindow(len, w) == len + 1
  {
  }

  /** An even-length stream no longer than the profile window gets a
      window one sample longer than the stream, which a Savitzky-Golay
      filter in "interp" mode refuses. */
  lemma SmoothWindowOvershoots()
    ensures SmoothWindow(10, ProfileOf(Short).window) == 11
    ensures forall len: nat :: 0 < len <= 11 && len % 2 == 0 ==> SmoothWindow(len, 11) > len
  {
  }

  /** The intended window: the largest odd length that fits both the
      stream and the profile; none for an empty stream. */
  function ClampWindow(len: nat, w: nat): (r: Option<nat>)
    ensures r.None? <==> len == 0 || w == 0
    ensures r.Some? ==> r.value % 2 == 1 && r.value <= len && r.value <= w
    ensures r.Some? ==> forall v: nat :: r.value < v <= len && v <= w ==> v % 2 == 0 && v == r.value + 1
    ensures len > w && w % 2 == 1 ==> r == Some(w)
    ensures 0 < len <= w && len % 2 == 1 ==> r == Some(len)
  {
    var m := if len < w then len else w;
    if m == 0 then None
    else if m % 2 == 1 then Some(m)
    else Some(m - 1)
  }

  /** Profile windows are odd, and an odd window is kept whenever the
      stream is long enough for it: the fix changes only the short-stream
      case. */
  lemma ClampAgreesOnLongStreams(len: nat, s: Scale)
    requires len > ProfileOf(s).window
    ensures ClampWindow(len, ProfileOf(s).window) == Some(SmoothWindow(len, ProfileOf(s).window))
  {
  }

  /** Heart rate is smoothed with order at least 2. */
  function BpmPoly(p: nat): nat
  {
    if p < 2 then 2 else p
  }

  type Smoother = (seq<real>, nat, nat) -> seq<real>

  ghost predicate KeepsLength(smooth: Smoother)
  {
    forall xs, w, p :: |smooth(xs, w, p)| == |xs|
  }

  function ChannelsFor(speed: seq<real>, bpm: seq<real>, smooth: Smoother, s: Scale, win: nat): ScaleChannels
  {
    var p := ProfileOf(s).poly;
    ScaleChannels(smooth(speed, win, p), Some(smooth(bpm, win, BpmPoly(p))))
  }

  /** The loader: fill the gaps of speed and heart rate, then add one
      smoothed speed and heart-rate channel per scale, each with the
      clamped window. `None` when the table is empty or a channel has no
      value at all. */
  function LoadSession(t: Streams.StreamTable, smooth: Smoother): (r: Option<Session>)
    requires KeepsLength(smooth)
    requires |t.speedKmh| == |t.bpm| == t.Rows()
    ensures r.Some? ==> r.value.Valid() && r.value.time == t.time
    ensures r.Some? ==> forall i :: 0 <= i < t.Rows() && t.bpm[i].Some? ==> r.value.bpm[i] == t.bpm[i].value
    ensures r.Some? <==> t.Rows() > 0 && HasValue(t.speedKmh) && HasValue(t.bpm)
    ensures r.Some? ==> && Values(FillGaps(t.speedKmh)).Some? && Values(FillGaps(t.bpm)).Some?
                        && r.value.bpm == Values(FillGaps(t.bpm)).value
    ensures r.Some? ==> forall sc: Scale ::
              && ClampWindow(t.Rows(), ProfileOf(sc).window).Some?
              && r.value.Channels(sc) == ChannelsFor(Values(FillGaps(t.speedKmh)).value, r.value.bpm, smooth, sc,
                                                     ClampWindow(t.Rows(), ProfileOf(sc).window).value)
  {
    var speed := Values(FillGaps(t.speedKmh));
    var bpm := Values(FillGaps(t.bpm));
    FilledValues(t.speedKmh);
    FilledValues(t.bpm);
    if t.Rows() == 0 || speed.None? || bpm.None? then None
    else Some(SmoothedSession(t.time, speed.value, bpm.value, smooth))
  }

  /** The session of gap-free columns: per scale, speed and heart rate
      smoothed with that scale's clamped window. */
  function SmoothedSession(time: seq<real>, speed: seq<real>, bpm: seq<real>, smooth: Smoother): (s: Session)
    requires KeepsLength(smooth)
    requires |time| > 0 && |speed| == |bpm| == |time|
    ensures s.Valid() && s.time == time && s.bpm == bpm
    ensures forall sc: Scale ::
              && ClampWindow(|time|, ProfileOf(sc).window).Some?
              && s.Channels(sc) == ChannelsFor(speed, bpm, smooth, sc, ClampWindow(|time|, ProfileOf(sc).window).value)
  {
    var n := |time|;
    var s := Session(time, bpm,
                     ChannelsFor(speed, bpm, smooth, Short, ClampWindow(n, ProfileOf(Short).window).value),
                     ChannelsFor(speed, bpm, smooth, Medium, ClampWindow(n, ProfileOf(Medium).window).value),
                     ChannelsFor(speed, bpm, smooth, Long, ClampWindow(n, ProfileOf(Long).window).value));
    assert forall sc: Scale :: |s.Channels(sc).speed| == n;
    s
  }
}

=== FILE: detection.dfy ===
/** The effort detector shared by the three analysis scripts: a hysteresis
    scan over the smoothed speed that opens an effort when the speed
    reaches a threshold and closes it after too many consecutive samples
    below it. The scripts differ only in the conventions gathered in
    `Conventions` and in how the threshold is computed (`ThresholdRule`). */
module Detection {
  import opened Results
  import opened Numbers
  import opened Seqs
  import opened Sessions

  /** When an open effort ends: after more than `maxPause` consecutive
      samples below the threshold (the multi-scale script), or as soon as
      the below-counter reaches `hold` (the single-scale scripts). */
  datatype CloseRule = PauseExceeds(maxPause: int) | BelowReaches(hold: int)

  /** `strictEntry`: an effort opens on `speed > threshold` rather than
      `speed >= threshold`. `emitOpenAtEnd`: an effort still open when the
      stream ends is closed at the last timestamp and kept. */
  datatype Conventions = Conventions(strictEntry: bool, close: CloseRule,
                                     emitOpenAtEnd: bool, minDur: real)

  /** Conventions of `_find_efforts` for one scale profile. */
  function MultiScaleConventions(p: Profile): Conventions
  {
    Conventions(false, PauseExceeds(p.maxPause), true, p.minDur)
  }

  /** Conventions of `detect_intervals` (both single-scale scripts). */
  function SingleScaleConventions(minDuration: real, holdBelow: int): Conventions
  {
    Conventions(true, BelowReaches(holdBelow), false, minDuration)
  }

  /** The threshold the script derives from the speed channel. */
  datatype ThresholdRule =
    | MaxOrMean(rel: real)        // max(rel * max, 1.15 * mean)
    | FractionOfMax(f: real)      // f * max
    | SessionMean                 // the session mean

  /** Python's `max` of two numbers. */
  function Larger(a: real, b: real): (r: real)
    ensures r >= a && r >= b
    ensures r == a || r == b
  {
    if a >= b then a else b
  }

  /** `max(rel * nanmax(s), 1.15 * nanmean(s))` for a channel whose maximum
      is `mx` and mean `mean`: at least both bounds, and equal to one of
      them. */
  function MaxOrMeanThreshold(rel: real, mx: real, mean: real): (r: real)
    ensures r >= rel * mx && r >= 1.15 * mean
    ensures r == rel * mx || r == 1.15 * mean
  {
    Larger(rel * mx, 1.15 * mean)
  }

  /** The effective threshold; none for an empty channel, where numpy's
      `nanmax` raises. */
  function Threshold(rule: ThresholdRule, speeds: seq<real>): (r: Option<real>)
    ensures r.None? <==> |speeds| == 0
    ensures |speeds| > 0 && rule.MaxOrMean? ==> r.Some? && r.value == MaxOrMeanThreshold(rule.rel, Max(speeds), Mean(speeds))
    ensures |speeds| > 0 && rule.FractionOfMax? ==> r.Some? && r.value == rule.f * Max(speeds)
    ensures |speeds| > 0 && rule.SessionMean? ==> r.Some? && r.value == Mean(speeds)
  {
    if |speeds| == 0 then None
    else
      match rule
      case MaxOrMean(rel) => Some(MaxOrMeanThreshold(rel, Max(speeds), Mean(speeds)))
      case FractionOfMax(f) => Some(f * Max(speeds))
      case SessionMean => Some(Mean(speeds))
  }

  // ----- the scan -----

  /** Outside an effort, or inside one opened at sample `entry` with
      `below` consecutive samples under the threshold so far. */
  datatype State = Outside | Inside(entry: nat, below: int)

  /** An emitted effort, as the sample indices of its start and end. */
  datatype Hit = Hit(entry: nat, exit: nat)

  datatype Scan = Scan(state: State, hits: seq<Hit>)

  /** An effort as the scripts return it: `(start_s, end_s)`. */
  datatype Span = Span(start: real, end: real)

  predicate Enters(c: Conventions, thr: real, v: real)
  {
    if c.strictEntry then v > thr else v >= thr
  }

  predicate Closes(c: Conventions, isBelow: bool, below: int)
  {
    match c.close
    case PauseExceeds(m) => isBelow && below > m
    case BelowReaches(h) => below >= h
  }

  /** One loop iteration, on sample `i`. */
  function Step(c: Conventions, thr: real, times: seq<real>, speeds: seq<real>, i: nat, sc: Scan): Scan
    requires |times| == |speeds| && i < |times|
    requires sc.state.Inside? ==> sc.state.entry < i
  {
    match sc.state
    case Outside =>
      if Enters(c, thr, speeds[i]) then Scan(Inside(i, 0), sc.hits) else sc
    case Inside(e, b) =>
      var isBelow := speeds[i] < thr;
      var below := if isBelow then b + 1 else 0;
      if Closes(c, isBelow, below) then
        Scan(Outside, if times[i] - times[e] >= c.minDur then sc.hits + [Hit(e, i)] else sc.hits)
      else
        Scan(Inside(e, below), sc.hits)
  }

  /** The loop run over the first `n` samples. */
  function ScanPrefix(c: Conventions, thr: real, times: seq<real>, speeds: seq<real>, n: nat): (sc: Scan)
    requires |times| == |speeds| && n <= |times|
    ensures sc.state.Inside? ==> sc.state.entry < n
  {
    if n == 0 then Scan(Outside, [])
    else Step(c, thr, times, speeds, n - 1, ScanPrefix(c, thr, times, speeds, n - 1))
  }

  /** After the loop: an effort still open is closed at the last sample
      when the conventions say so and it lasted long enough. */
  function Finish(c: Conventions, times: seq<real>, sc: Scan): seq<Hit>
    requires sc.state.Inside? ==> sc.state.entry < |times|
  {
    match sc.state
    case Inside(e, _) =>
      if c.emitOpenAtEnd && times[|times| - 1] - times[e] >= c.minDur
      then sc.hits + [Hit(e, |times| - 1)]
      else sc.hits
    case Outside => sc.hits
  }

  // ----- invariants of the scan -----

  /** Hits lie inside the first `n` samples, start on a sample that opens
      an effort, last at least the minimum duration, and each ends before
      the next one starts. */
  ghost predicate HitsValid(c: Conventions, thr: real, times: seq<real>, speeds: seq<real>,
                            hits: seq<Hit>, n: nat)
    requires |times| == |speeds| && n <= |times|
  {
    && (forall k :: 0 <= k < |hits| ==>
          && hits[k].entry <= hits[k].exit < n
          && Enters(c, thr, speeds[hits[k].entry])
          && times[hits[k].exit] - times[hits[k].entry] >= c.minDur)
    && (forall k :: 0 <= k < |hits| - 1 ==> hits[k].exit < hits[k + 1].entry)
  }

  /** Inside an effort the counter is the length of the trailing run of
      below-threshold samples since the entry, and stays within the close
      rule. */
  ghost predicate CounterIsTrailingRun(c: Conventions, thr: real, speeds: seq<real>, n: nat, e: nat, b: int)
    requires n <= |speeds|
  {
    && 0 <= b && e + b < n
    && (forall m :: n - b <= m < n ==> speeds[m] < thr)
    && (n - b - 1 == e || speeds[n - b - 1] >= thr)
    && (match c.close
        case PauseExceeds(mp) => b <= mp || b == 0
        case BelowReaches(h) => b < h || b == 0)
  }

  ghost predicate ScanValid(c: Conventions, thr: real, times: seq<real>, speeds: seq<real>, sc: Scan, n: nat)
    requires |times| == |speeds| && n <= |times|
  {
    && HitsValid(c, thr, times, speeds, sc.hits, n)
    && (sc.state.Inside? ==>
          && sc.state.entry < n
          && Enters(c, thr, speeds[sc.state.entry])
          && (|sc.hits| > 0 ==> sc.hits[|sc.hits| - 1].exit < sc.state.entry)
          && CounterIsTrailingRun(c, thr, speeds, n, sc.state.entry, sc.state.below))
  }

  lemma StepValid(c: Conventions, thr: real, times: seq<real>, speeds: seq<real>, n: nat, sc: Scan)
    requires |times| == |speeds| && 0 < n <= |times|
    requires sc.state.Inside? ==> sc.state.entry < n - 1
    requires ScanValid(c, thr, times, speeds, sc, n - 1)
    ensures ScanValid(c, thr, times, speeds, Step(c, thr, times, speeds, n - 1, sc), n)
  {
    var i := n - 1;
    var r := Step(c, thr, times, speeds, i, sc);
    match sc.state
    case Outside =>
    case Inside(e, b) =>
      var isBelow := speeds[i] < thr;
      var below := if isBelow then b + 1 else 0;
      if Closes(c, isBelow, below) {
        if times[i] - times[e] >= c.minDur {
          HitAppendedValid(c, thr, times, speeds, sc.hits, Hit(e, i), n);
        }
      } else {
        assert r.state == Inside(e, below);
        if isBelow {
          assert n - below == i - b;
        }
      }
  }

  /** Closing the open effort at sample `n - 1` keeps the hits valid. */
  lemma HitAppendedValid(c: Conventions, thr: real, times: seq<real>, speeds: seq<real>,
                         hits: seq<Hit>, h: Hit, n: nat)
    requires |times| == |speeds| && 0 < n <= |times|
    requires HitsValid(c, thr, times, speeds, hits, n - 1)
    requires h.entry <= h.exit == n - 1 && Enters(c, thr, speeds[h.entry])
    requires times[h.exit] - times[h.entry] >= c.minDur
    requires |hits| > 0 ==> hits[|hits| - 1].exit < h.entry
    ensures HitsValid(c, thr, times, speeds, hits + [h], n)
  {
    var hs := hits + [h];
    assert hs[|hs| - 1] == h;
    assert forall k :: 0 <= k < |hits| ==> hs[k] == hits[k];
  }

  /** The loop invariant, by induction on the number of samples read. */
  lemma {:induction false} ScanPrefixValid(c: Conventions, thr: real, times: seq<real>, speeds: seq<real>, n: nat)
    requires |times| == |speeds| && n <= |times|
    ensures ScanValid(c, thr, times, speeds, ScanPrefix(c, thr, times, speeds, n), n)
  {
    if n > 0 {
      ScanPrefixValid(c, thr, times, speeds, n - 1);
      StepValid(c, thr, times, speeds, n, ScanPrefix(c, thr, times, speeds, n - 1));
    }
  }

  /** The emitted efforts as sample indices: valid hits, and exactly the
      efforts `SpecHits` describes without the scan. */
  function FindHits(c: Conventions, thr: real, times: seq<real>, speeds: seq<real>): (hits: seq<Hit>)
    requires |times| == |speeds|
    ensures HitsValid(c, thr, times, speeds, hits, |times|)
    ensures hits == SpecHits(c, thr, times, speeds, 0)
  {
    FinishedScan(c, thr, times, speeds);
    Finish(c, times, ScanPrefix(c, thr, times, speeds, |times|))
  }

  lemma FinishedScan(c: Conventions, thr: real, times: seq<real>, speeds: seq<real>)
    requires |times| == |speeds|
    ensures var hits := Finish(c, times, ScanPrefix(c, thr, times, speeds, |times|));
            && HitsValid(c, thr, times, speeds, hits, |times|)
            && hits == SpecHits(c, thr, times, speeds, 0)
  {
    ScanPrefixValid(c, thr, times, speeds, |times|);
    FinishValid(c, thr, times, speeds, ScanPrefix(c, thr, times, speeds, |times|));
    ScanMatchesSpec(c, thr, times, speeds);
  }

  /** Closing an effort still open at the end keeps the hits valid. */
  lemma FinishValid(c: Conventions, thr: real, times: seq<real>, speeds: seq<real>, sc: Scan)
    requires |times| == |speeds|
    requires ScanValid(c, thr, times, speeds, sc, |times|)
    ensures HitsValid(c, thr, times, speeds, Finish(c, times, sc), |times|)
  {
    var hits := Finish(c, times, sc);
    assert forall k :: 0 <= k < |sc.hits| ==> hits[k] == sc.hits[k];
  }

  // ----- the efforts, specified without the scan -----

  /** How many consecutive below-threshold samples close an open effort:
      more than `maxPause` of them (and at least one), or `hold` of them. */
  function CloseRun(c: Conventions): nat
  {
    match c.close
    case PauseExceeds(m) => if m + 1 >= 1 then m + 1 else 1
    case BelowReaches(h) => if h >= 0 then h else 0
  }

  /** An effort opened at sample `e` may close at sample `k > e`: the last
      `CloseRun(c)` samples up to and including `k` come after the entry
      and are all below the threshold. */
  predicate ClosesAt(c: Conventions, thr: real, speeds: seq<real>, e: nat, k: nat)
  {
    && e < k < |speeds|
    && k - e >= CloseRun(c)
    && forall j :: k - CloseRun(c) < j <= k ==> speeds[j] < thr
  }

  /** The first sample from `i` on that opens an effort, or `|speeds|`. */
  function FirstEntry(c: Conventions, thr: real, speeds: seq<real>, i: nat): (j: nat)
    requires i <= |speeds|
    ensures i <= j <= |speeds|
    ensures j < |speeds| ==> Enters(c, thr, speeds[j])
    ensures forall m :: i <= m < j ==> !Enters(c, thr, speeds[m])
    decreases |speeds| - i
  {
    if i == |speeds| || Enters(c, thr, speeds[i]) then i else FirstEntry(c, thr, speeds, i + 1)
  }

  /** The first sample from `k` on where the effort opened at `e` closes,
      or `|speeds|`. */
  function FirstClose(c: Conventions, thr: real, speeds: seq<real>, e: nat, k: nat): (j: nat)
    requires e < k <= |speeds|
    ensures k <= j <= |speeds|
    ensures j < |speeds| ==> ClosesAt(c, thr, speeds, e, j)
    ensures forall m :: k <= m < j ==> !ClosesAt(c, thr, speeds, e, m)
    decreases |speeds| - k
  {
    if k == |speeds| || ClosesAt(c, thr, speeds, e, k) then k else FirstClose(c, thr, speeds, e, k + 1)
  }

  /** The effort opened at `e` and closed at `k`, kept when it lasted the
      minimum duration. */
  function KeptHit(c: Conventions, times: seq<real>, e: nat, k: nat): seq<Hit>
    requires e < |times| && k < |times|
  {
    if times[k] - times[e] >= c.minDur then [Hit(e, k)] else []
  }

  /** The effort opened at `e` and still open when the stream ends: kept up
      to the last sample only under `emitOpenAtEnd`. */
  function KeptOpenHit(c: Conventions, times: seq<real>, e: nat): seq<Hit>
    requires e < |times|
  {
    if c.emitOpenAtEnd && times[|times| - 1] - times[e] >= c.minDur then [Hit(e, |times| - 1)] else []
  }

  /** The efforts from sample `i` on: the first entry opens one, the first
      close point after it ends it, and the search resumes after the close
      point. */
  function SpecHits(c: Conventions, thr: real, times: seq<real>, speeds: seq<real>, i: nat): seq<Hit>
    requires |times| == |speeds| && i <= |speeds|
    decreases |speeds| - i, 2
  {
    SpecFromEntry(c, thr, times, speeds, FirstEntry(c, thr, speeds, i))
  }

  /** The efforts from an entry at `e`, or none when `e` is past the end. */
  function SpecFromEntry(c: Conventions, thr: real, times: seq<real>, speeds: seq<real>, e: nat): seq<Hit>
    requires |times| == |speeds| && e <= |speeds|
    decreases |speeds| - e, 1
  {
    if e == |speeds| then [] else SpecFromClose(c, thr, times, speeds, e, FirstClose(c, thr, speeds, e, e + 1))
  }

  /** The efforts from an entry at `e` whose first close point is `k`
      (`|speeds|` when it never closes). */
  function SpecFromClose(c: Conventions, thr: real, times: seq<real>, speeds: seq<real>, e: nat, k: nat): seq<Hit>
    requires |times| == |speeds| && e < k <= |speeds|
    decreases |speeds| - e, 0
  {
    if k == |speeds| then KeptOpenHit(c, times, e)
    else KeptHit(c, times, e, k) + SpecHits(c, thr, times, speeds, k + 1)
  }

  // ----- the scan meets the specification -----

  /** Outside an effort the scan keeps its hits until the first sample that
      opens one. */
  lemma {:induction false} ScanWaitsForEntry(c: Conventions, thr: real, times: seq<real>, speeds: seq<real>,
                                             i: nat, j: nat, hits: seq<Hit>)
    requires |times| == |speeds| && i <= |speeds|
    requires i <= j <= FirstEntry(c, thr, speeds, i)
    requires ScanPrefix(c, thr, times, speeds, i) == Scan(Outside, hits)
    ensures ScanPrefix(c, thr, times, speeds, j) == Scan(Outside, hits)
    decreases j
  {
    if j > i {
      ScanWaitsForEntry(c, thr, times, speeds, i, j - 1, hits);
      assert !Enters(c, thr, speeds[j - 1]);
    }
  }

  /** Inside an effort, the close rule of one step is `ClosesAt`. */
  lemma StepClosesAt(c: Conventions, thr: real, speeds: seq<real>, i: nat, e: nat, b: int)
    requires e < i < |speeds|
    requires CounterIsTrailingRun(c, thr, speeds, i, e, b)
    ensures Closes(c, speeds[i] < thr, if speeds[i] < thr then b + 1 else 0)
            <==> ClosesAt(c, thr, speeds, e, i)
  {
    var r := if speeds[i] < thr then b + 1 else 0;
    var need := CloseRun(c);
    assert i - r >= e;
    assert forall j :: i - r < j <= i ==> speeds[j] < thr;
    assert i - r == e || speeds[i - r] >= thr;
    assert Closes(c, speeds[i] < thr, r) <==> r >= need;
    if r >= need {
      assert ClosesAt(c, thr, speeds, e, i);
    } else if i - r == e {
      assert i - e < need;
    } else {
      assert i - need < i - r <= i && !(speeds[i - r] < thr);
    }
  }

  /** Once opened at `e`, the scan stays inside that effort with the same
      hits up to its first close point. */
  lemma {:induction false} ScanStaysOpen(c: Conventions, thr: real, times: seq<real>, speeds: seq<real>,
                                         e: nat, j: nat, hits: seq<Hit>)
    requires |times| == |speeds| && e < |speeds|
    requires ScanPrefix(c, thr, times, speeds, e + 1) == Scan(Inside(e, 0), hits)
    requires e + 1 <= j <= FirstClose(c, thr, speeds, e, e + 1)
    ensures var sc := ScanPrefix(c, thr, times, speeds, j);
            sc.state.Inside? && sc.state.entry == e && sc.hits == hits
    decreases j
  {
    if j > e + 1 {
      ScanStaysOpen(c, thr, times, speeds, e, j - 1, hits);
      var sc := ScanPrefix(c, thr, times, speeds, j - 1);
      ScanPrefixValid(c, thr, times, speeds, j - 1);
      StepClosesAt(c, thr, speeds, j - 1, e, sc.state.below);
      assert !ClosesAt(c, thr, speeds, e, j - 1);
    }
  }

  /** At its first close point the effort opened at `e` is closed and
      kept if it lasted the minimum duration. */
  lemma ScanCloses(c: Conventions, thr: real, times: seq<real>, speeds: seq<real>, e: nat, hits: seq<Hit>)
    requires |times| == |speeds| && e < |speeds|
    requires ScanPrefix(c, thr, times, speeds, e + 1) == Scan(Inside(e, 0), hits)
    requires FirstClose(c, thr, speeds, e, e + 1) < |speeds|
    ensures var k := FirstClose(c, thr, speeds, e, e + 1);
            ScanPrefix(c, thr, times, speeds, k + 1) == Scan(Outside, hits + KeptHit(c, times, e, k))
  {
    var k := FirstClose(c, thr, speeds, e, e + 1);
    ScanStaysOpen(c, thr, times, speeds, e, k, hits);
    var sc := ScanPrefix(c, thr, times, speeds, k);
    ScanPrefixValid(c, thr, times, speeds, k);
    StepClosesAt(c, thr, speeds, k, e, sc.state.below);
    assert hits + [] == hits;
  }

  /** From any point where the scan is outside an effort, the rest of the
      run emits exactly `SpecHits`. */
  lemma {:induction false} ScanMatchesSpecFrom(c: Conventions, thr: real, times: seq<real>, speeds: seq<real>,
                                               i: nat, hits: seq<Hit>)
    requires |times| == |speeds| && i <= |speeds|
    requires ScanPrefix(c, thr, times, speeds, i) == Scan(Outside, hits)
    ensures Finish(c, times, ScanPrefix(c, thr, times, speeds, |times|)) == hits + SpecHits(c, thr, times, speeds, i)
    decreases |speeds| - i
  {
    var e := FirstEntry(c, thr, speeds, i);
    if e == |speeds| {
      ScanEndsOutside(c, thr, times, speeds, i, hits);
      SpecNoEntry(c, thr, times, speeds, i, e);
      assert hits + [] == hits;
    } else {
      var k := FirstClose(c, thr, speeds, e, e + 1);
      if k == |speeds| {
        ScanEndsInside(c, thr, times, speeds, i, e, hits);
        SpecOpenToEnd(c, thr, times, speeds, i, e);
      } else {
        ScanClosesFrom(c, thr, times, speeds, i, e, k, hits);
        ScanMatchesSpecFrom(c, thr, times, speeds, k + 1, hits + KeptHit(c, times, e, k));
        SpecClosedAt(c, thr, times, speeds, i, e, k);
        Regroup(Finish(c, times, ScanPrefix(c, thr, times, speeds, |times|)), hits, KeptHit(c, times, e, k),
                SpecHits(c, thr, times, speeds, k + 1), SpecHits(c, thr, times, speeds, i));
      }
    }
  }

  lemma Regroup<T>(out: seq<T>, a: seq<T>, b: seq<T>, rest: seq<T>, whole: seq<T>)
    requires out == (a + b) + rest && whole == b + rest
    ensures out == a + whole
  {
  }

  /** No effort opens from `i` on: the scan ends outside with its hits. */
  lemma ScanEndsOutside(c: Conventions, thr: real, times: seq<real>, speeds: seq<real>, i: nat, hits: seq<Hit>)
    requires |times| == |speeds| && i <= |speeds|
    requires ScanPrefix(c, thr, times, speeds, i) == Scan(Outside, hits)
    requires FirstEntry(c, thr, speeds, i) == |speeds|
    ensures Finish(c, times, ScanPrefix(c, thr, times, speeds, |times|)) == hits
  {
    ScanWaitsForEntry(c, thr, times, speeds, i, |speeds|, hits);
  }

  /** The effort opened at `e` never closes: the scan ends inside it. */
  lemma ScanEndsInside(c: Conventions, thr: real, times: seq<real>, speeds: seq<real>, i: nat, e: nat, hits: seq<Hit>)
    requires |times| == |speeds| && i <= |speeds|
    requires ScanPrefix(c, thr, times, speeds, i) == Scan(Outside, hits)
    requires e == FirstEntry(c, thr, speeds, i) && e < |speeds|
    requires FirstClose(c, thr, speeds, e, e + 1) == |speeds|
    ensures Finish(c, times, ScanPrefix(c, thr, times, speeds, |times|)) == hits + KeptOpenHit(c, times, e)
  {
    ScanWaitsForEntry(c, thr, times, speeds, i, e, hits);
    assert ScanPrefix(c, thr, times, speeds, e + 1) == Scan(Inside(e, 0), hits);
    ScanStaysOpen(c, thr, times, speeds, e, |speeds|, hits);
    assert hits + [] == hits;
  }

  /** The effort opened at `e` closes at `k`: the scan is outside again
      after `k`, with the effort kept if it lasted long enough. */
  lemma ScanClosesFrom(c: Conventions, thr: real, times: seq<real>, speeds: seq<real>,
                       i: nat, e: nat, k: nat, hits: seq<Hit>)
    requires |times| == |speeds| && i <= |speeds|
    requires ScanPrefix(c, thr, times, speeds, i) == Scan(Outside, hits)
    requires e == FirstEntry(c, thr, speeds, i) && e < |speeds|
    requires k == FirstClose(c, thr, speeds, e, e + 1) && k < |speeds|
    ensures ScanPrefix(c, thr, times, speeds, k + 1) == Scan(Outside, hits + KeptHit(c, times, e, k))
  {
    ScanWaitsForEntry(c, thr, times, speeds, i, e, hits);
    ScanCloses(c, thr, times, speeds, e, hits);
  }

  lemma SpecNoEntry(c: Conventions, thr: real, times: seq<real>, speeds: seq<real>, i: nat, e: nat)
    requires |times| == |speeds| && i <= |speeds|
    requires e == FirstEntry(c, thr, speeds, i) && e == |speeds|
    ensures SpecHits(c, thr, times, speeds, i) == []
  {
    assert SpecHits(c, thr, times, speeds, i) == SpecFromEntry(c, thr, times, speeds, e);
  }

  lemma SpecOpenToEnd(c: Conventions, thr: real, times: seq<real>, speeds: seq<real>, i: nat, e: nat)
    requires |times| == |speeds| && i <= |speeds|
    requires e == FirstEntry(c, thr, speeds, i) && e < |speeds|
    requires FirstClose(c, thr, speeds, e, e + 1) == |speeds|
    ensures SpecHits(c, thr, times, speeds, i) == KeptOpenHit(c, times, e)
  {
    assert SpecHits(c, thr, times, speeds, i) == SpecFromEntry(c, thr, times, speeds, e);
    assert SpecFromEntry(c, thr, times, speeds, e) == SpecFromClose(c, thr, times, speeds, e, |speeds|);
  }

  lemma SpecClosedAt(c: Conventions, thr: real, times: seq<real>, speeds: seq<real>, i: nat, e: nat, k: nat)
    requires |times| == |speeds| && i <= |speeds|
    requires e == FirstEntry(c, thr, speeds, i) && e < |speeds|
    requires k == FirstClose(c, thr, speeds, e, e + 1) && k < |speeds|
    ensures SpecHits(c, thr, times, speeds, i) == KeptHit(c, times, e, k) + SpecHits(c, thr, times, speeds, k + 1)
  {
    assert SpecHits(c, thr, times, speeds, i) == SpecFromEntry(c, thr, times, speeds, e);
    assert SpecFromEntry(c, thr, times, speeds, e) == SpecFromClose(c, thr, times, speeds, e, k);
  }

  /** The scan and the specification agree on the whole stream. */
  lemma ScanMatchesSpec(c: Conventions, thr: real, times: seq<real>, speeds: seq<real>)
    requires |times| == |speeds|
    ensures Finish(c, times, ScanPrefix(c, thr, times, speeds, |times|)) == SpecHits(c, thr, times, speeds, 0)
  {
    ScanMatchesSpecFrom(c, thr, times, speeds, 0, []);
    assert [] + SpecHits(c, thr, times, speeds, 0) == SpecHits(c, thr, times, speeds, 0);
  }

  // ----- what the specification promises -----

  /** A hit starts on a sample that opens an effort and ends at the first
      close point after it, or, under `emitOpenAtEnd`, on the last sample
      of a stream where it never closes. */
  ghost predicate EndsAtFirstClose(c: Conventions, thr: real, speeds: seq<real>, h: Hit)
  {
    && h.entry <= h.exit < |speeds|
    && Enters(c, thr, speeds[h.entry])
    && (forall m :: h.entry < m < h.exit ==> !ClosesAt(c, thr, speeds, h.entry, m))
    && (ClosesAt(c, thr, speeds, h.entry, h.exit) || (c.emitOpenAtEnd && h.exit == |speeds| - 1))
  }

  lemma {:induction false} SpecHitsEndAtFirstClose(c: Conventions, thr: real, times: seq<real>, speeds: seq<real>, i: nat)
    requires |times| == |speeds| && i <= |speeds|
    ensures forall h :: h in SpecHits(c, thr, times, speeds, i) ==> EndsAtFirstClose(c, thr, speeds, h)
    decreases |speeds| - i
  {
    var e := FirstEntry(c, thr, speeds, i);
    if e == |speeds| {
      SpecNoEntry(c, thr, times, speeds, i, e);
    } else {
      var k := FirstClose(c, thr, speeds, e, e + 1);
      if k == |speeds| {
        SpecOpenToEnd(c, thr, times, speeds, i, e);
      } else {
        SpecClosedAt(c, thr, times, speeds, i, e, k);
        SpecHitsEndAtFirstClose(c, thr, times, speeds, k + 1);
        assert KeptHit(c, times, e, k) == [] || KeptHit(c, times, e, k) == [Hit(e, k)];
      }
    }
  }

  /** The close rule, for every emitted effort: an effort closes at the
      first sample where the run of below-threshold samples since its
      entry reaches `CloseRun(c)`, and at no earlier sample. */
  lemma EmittedEffortsCloseAtFirstChance(c: Conventions, thr: real, times: seq<real>, speeds: seq<real>)
    requires |times| == |speeds|
    ensures var hits := FindHits(c, thr, times, speeds);
            forall k :: 0 <= k < |hits| ==> EndsAtFirstClose(c, thr, speeds, hits[k])
  {
    SpecHitsEndAtFirstClose(c, thr, times, speeds, 0);
  }

  /** Completeness: the first sample that opens an effort starts the first
      emitted effort as soon as the effort lasts the minimum duration up
      to its first close point. */
  lemma FirstEffortFound(c: Conventions, thr: real, times: seq<real>, speeds: seq<real>, e: nat, k: nat)
    requires |times| == |speeds|
    requires e < |speeds| && Enters(c, thr, speeds[e])
    requires forall j :: 0 <= j < e ==> !Enters(c, thr, speeds[j])
    requires ClosesAt(c, thr, speeds, e, k)
    requires forall m :: e < m < k ==> !ClosesAt(c, thr, speeds, e, m)
    requires times[k] - times[e] >= c.minDur
    ensures var hits := FindHits(c, thr, times, speeds);
            |hits| > 0 && hits[0] == Hit(e, k)
  {
    var e' := FirstEntry(c, thr, speeds, 0);
    assert e' == e;
    var k' := FirstClose(c, thr, speeds, e, e + 1);
    assert k' == k;
    SpecClosedAt(c, thr, times, speeds, 0, e, k);
  }

  /** Completeness for an effort never closed: under `emitOpenAtEnd`, the
      first entering sample yields the first effort, ending on the last
      sample, when it lasts the minimum duration. */
  lemma OpenEffortFound(c: Conventions, thr: real, times: seq<real>, speeds: seq<real>, e: nat)
    requires |times| == |speeds|
    requires e < |speeds| && Enters(c, thr, speeds[e])
    requires forall j :: 0 <= j < e ==> !Enters(c, thr, speeds[j])
    requires forall m :: e < m < |speeds| ==> !ClosesAt(c, thr, speeds, e, m)
    requires c.emitOpenAtEnd && times[|times| - 1] - times[e] >= c.minDur
    ensures FindHits(c, thr, times, speeds) == [Hit(e, |times| - 1)]
  {
    var e' := FirstEntry(c, thr, speeds, 0);
    assert e' == e;
    SpecOpenToEnd(c, thr, times, speeds, 0, e);
  }

  /** `spans` are the efforts of `SpecHits`, read off as times. */
  ghost predicate SpecifiedEfforts(c: Conventions, thr: real, times: seq<real>, speeds: seq<real>, spans: seq<Span>)
    requires |times| == |speeds|
  {
    var hs := SpecHits(c, thr, times, speeds, 0);
    && |spans| == |hs|
    && forall k :: 0 <= k < |hs| ==>
         && hs[k].entry < |times| && hs[k].exit < |times|
         && spans[k] == Span(times[hs[k].entry], times[hs[k].exit])
  }

  /** `_find_efforts` / the loop of `detect_intervals`: the efforts as
      `(start, end)` times. Each starts on a sample that opens an effort,
      ends on a sample, and lasts at least the minimum duration; on a
      strictly increasing clock they come in time order and do not
      touch. */
  function FindEfforts(c: Conventions, thr: real, times: seq<real>, speeds: seq<real>): (spans: seq<Span>)
    requires |times| == |speeds|
    ensures |spans| == |FindHits(c, thr, times, speeds)|
    ensures forall k :: 0 <= k < |spans| ==>
              var h := FindHits(c, thr, times, speeds)[k];
              && spans[k].start == times[h.entry] && Enters(c, thr, speeds[h.entry])
              && spans[k].end == times[h.exit]
    ensures forall k :: 0 <= k < |spans| ==> spans[k].end - spans[k].start >= c.minDur
    ensures StrictlyIncreasing(times) ==>
              && (forall k :: 0 <= k < |spans| ==> spans[k].start <= spans[k].end)
              && (forall k :: 0 <= k < |spans| - 1 ==> spans[k].end < spans[k + 1].start)
    ensures SpecifiedEfforts(c, thr, times, speeds, spans)
  {
    var hits := FindHits(c, thr, times, speeds);
    SpansOfValidHits(c, thr, times, speeds, hits);
    SpansOf(times, hits)
  }

  /** The `(start, end)` times of hits within the stream. */
  function SpansOf(times: seq<real>, hits: seq<Hit>): (spans: seq<Span>)
    requires forall k :: 0 <= k < |hits| ==> hits[k].entry < |times| && hits[k].exit < |times|
  {
    seq(|hits|, k requires 0 <= k < |hits| => Span(times[hits[k].entry], times[hits[k].exit]))
  }

  lemma SpansOfValidHits(c: Conventions, thr: real, times: seq<real>, speeds: seq<real>, hits: seq<Hit>)
    requires |times| == |speeds|
    requires HitsValid(c, thr, times, speeds, hits, |times|)
    requires hits == SpecHits(c, thr, times, speeds, 0)
    ensures var spans := SpansOf(times, hits);
            && |spans| == |hits|
            && (forall k :: 0 <= k < |spans| ==>
                  && spans[k].start == times[hits[k].entry] && Enters(c, thr, speeds[hits[k].entry])
                  && spans[k].end == times[hits[k].exit])
            && (forall k :: 0 <= k < |spans| ==> spans[k].end - spans[k].start >= c.minDur)
            && (StrictlyIncreasing(times) ==>
                  && (forall k :: 0 <= k < |spans| ==> spans[k].start <= spans[k].end)
                  && (forall k :: 0 <= k < |spans| - 1 ==> spans[k].end < spans[k + 1].start))
            && SpecifiedEfforts(c, thr, times, speeds, spans)
  {
  }

  // ----- the counter and the end of the stream -----

  /** While inside an effort, the below-counter equals the number of
      consecutive below-threshold samples just read; a sample at or above
      the threshold therefore resets it. Under `PauseExceeds` it never
      exceeds the tolerated pause, under `BelowReaches` it stays under the
      hold count. */
  lemma BelowCounterIsTrailingRun(c: Conventions, thr: real, times: seq<real>, speeds: seq<real>, n: nat)
    requires |times| == |speeds| && n <= |times|
    requires ScanPrefix(c, thr, times, speeds, n).state.Inside?
    ensures var st := ScanPrefix(c, thr, times, speeds, n).state;
            CounterIsTrailingRun(c, thr, speeds, n, st.entry, st.below)
  {
    ScanPrefixValid(c, thr, times, speeds, n);
  }

  /** With `emitOpenAtEnd`, an effort still open at the end of the stream
      becomes the last hit, ending on the last sample, exactly when it is
      long enough; without it, the open effort is dropped. */
  lemma OpenEffortAtEnd(c: Conventions, thr: real, times: seq<real>, speeds: seq<real>)
    requires |times| == |speeds|
    requires ScanPrefix(c, thr, times, speeds, |times|).state.Inside?
    ensures var sc := ScanPrefix(c, thr, times, speeds, |times|);
            var e := sc.state.entry;
            var hits := FindHits(c, thr, times, speeds);
            && (c.emitOpenAtEnd && times[|times| - 1] - times[e] >= c.minDur ==>
                  hits == sc.hits + [Hit(e, |times| - 1)])
            && (!(c.emitOpenAtEnd && times[|times| - 1] - times[e] >= c.minDur) ==>
                  hits == sc.hits)
  {
  }

  /** A stream where no sample opens an effort yields none. */
  lemma {:induction false} NoEntryNoScan(c: Conventions, thr: real, times: seq<real>, speeds: seq<real>, n: nat)
    requires |times| == |speeds| && n <= |times|
    requires forall i :: 0 <= i < n ==> !Enters(c, thr, speeds[i])
    ensures ScanPrefix(c, thr, times, speeds, n) == Scan(Outside, [])
  {
    if n > 0 {
      NoEntryNoScan(c, thr, times, speeds, n - 1);
    }
  }

  lemma NoEntryNoEfforts(c: Conventions, thr: real, times: seq<real>, speeds: seq<real>)
    requires |times| == |speeds|
    requires forall i :: 0 <= i < |speeds| ==> !Enters(c, thr, speeds[i])
    ensures FindEfforts(c, thr, times, speeds) == []
  {
    NoEntryNoScan(c, thr, times, speeds, |times|);
  }

  /** The stricter-of-both threshold guards flat sessions: at a constant
      positive speed the mean-based bound sits 15% above every sample, so
      the multi-scale detector finds nothing. */
  lemma FlatSessionHasNoEfforts(p: Profile, times: seq<real>, speeds: seq<real>, v: real)
    requires |times| == |speeds| > 0 && v > 0.0
    requires forall i :: 0 <= i < |speeds| ==> speeds[i] == v
    ensures FindEfforts(MultiScaleConventions(p), Threshold(MaxOrMean(p.seuilRel), speeds).value, times, speeds) == []
  {
    MeanConstant(speeds, v);
    var thr := Threshold(MaxOrMean(p.seuilRel), speeds).value;
    assert thr >= 1.15 * v;
    NoEntryNoEfforts(MultiScaleConventions(p), thr, times, speeds);
  }

  /** Entry on the session mean is strict: a flat session never opens an
      effort in the single-scale detector either. */
  lemma FlatSessionNeverEntersAtMean(minDuration: real, holdBelow: int, times: seq<real>, speeds: seq<real>, v: real)
    requires |times| == |speeds| > 0
    requires forall i :: 0 <= i < |speeds| ==> speeds[i] == v
    ensures FindEfforts(SingleScaleConventions(minDuration, holdBelow), Threshold(SessionMean, speeds).value, times, speeds) == []
  {
    MeanConstant(speeds, v);
    NoEntryNoEfforts(SingleScaleConventions(minDuration, holdBelow), v, times, speeds);
  }
}

=== FILE: filters.dfy ===
/** The block filters of the single-scale analysis: `filter_relative`
    drops the blocks whose mean speed strays from the median of their
    distance group, `filter_by_cardio` flags or drops the blocks that do
    not load the heart enough. */
module Filters {
  import opened Results
  import opened Numbers
  import opened Seqs
  import opened Grouping
  import opened Blocks
  import opened Clusters

  // ----- median -----

  predicate LeReal(a: real, b: real) { a <= b }

  lemma LeRealIsTotalPreorder()
    ensures TotalPreorder(LeReal)
  {
  }

  /** pandas `Series.median()`: the middle value of the sorted column, or
      the mean of the two middle values when the count is even. */
  function Median(xs: seq<real>): real
    requires |xs| > 0
  {
    var s := Sort(xs, LeReal);
    var n := |s|;
    if n % 2 == 1 then s[n / 2] else (s[n / 2 - 1] + s[n / 2]) / 2.0
  }

  /** The median lies between two values of the column: at or above one of
      them and at or below one of them. */
  lemma MedianWithinRange(xs: seq<real>)
    requires |xs| > 0
    ensures exists i :: 0 <= i < |xs| && xs[i] <= Median(xs)
    ensures exists j :: 0 <= j < |xs| && Median(xs) <= xs[j]
  {
    var s := Sort(xs, LeReal);
    var n := |s|;
    var lo := if n % 2 == 1 then n / 2 else n / 2 - 1;
    var hi := n / 2;
    assert s[lo] <= s[hi] by {
      LeRealIsTotalPreorder();
      SortSorted(xs, LeReal);
      if lo < hi {
        assert LeReal(s[lo], s[hi]);
      }
    }
    assert s[lo] <= Median(xs) <= s[hi];
    assert s[lo] in multiset(xs) && s[hi] in multiset(xs);
    var i :| 0 <= i < |xs| && xs[i] == s[lo];
    var j :| 0 <= j < |xs| && xs[j] == s[hi];
  }

  // ----- filter_relative -----

  /** Distances are grouped to the nearest 50 m. */
  const RelativeStep: Step := 50

  /** The speed band `[median * (1 - tol), median * (1 + tol)]`. */
  predicate InBand(v: real, median: real, tol: real)
  {
    median * (1.0 - tol) <= v <= median * (1.0 + tol)
  }

  /** Block `b` of group `g` is kept: the group has at least `minReps`
      blocks and `b`'s mean speed is within the band around the group's
      median mean speed. */
  predicate Passes(tol: real, minReps: int, g: seq<Block>, b: Block)
  {
    && b in g
    && |g| >= minReps
    && InBand(b.meanSpeed, Median(MapSeq(g, SpeedColumn)), tol)
  }

  /** The cleaned group: empty for a group with fewer than `minReps`
      blocks, otherwise the blocks inside the band, in group order. */
  function KeepGroup(tol: real, minReps: int, g: seq<Block>): (r: seq<Block>)
    ensures multiset(r) <= multiset(g)
    ensures forall b :: b in r <==> Passes(tol, minReps, g, b)
  {
    if |g| == 0 || |g| < minReps then []
    else
      var median := Median(MapSeq(g, SpeedColumn));
      var r := Filter(g, (b: Block) => InBand(b.meanSpeed, median, tol));
      assert forall b :: b in r <==> b in g && InBand(b.meanSpeed, median, tol) by {
        forall b
          ensures b in r <==> b in g && InBand(b.meanSpeed, median, tol)
        {
          if b in r {
            var i :| 0 <= i < |r| && r[i] == b;
          }
          if b in g {
            var i :| 0 <= i < |g| && g[i] == b;
          }
        }
      }
      r
  }

  function Keeper(tol: real, minReps: int): (int, seq<Block>) -> seq<Block>
  {
    (k, g) => KeepGroup(tol, minReps, g)
  }

  /** `filter_relative(blocks, tolerance, min_reps)`: the cleaned groups
      concatenated in ascending distance order. */
  function FilterRelative(blocks: seq<Block>, tol: real, minReps: int): seq<Block>
  {
    if |blocks| == 0 then blocks
    else
      var kx := KeyedBy(blocks, ByDistance(RelativeStep));
      ConcatGroups(kx, SortedKeys(kx, LeInt), Keeper(tol, minReps))
  }

  /** A block survives `filter_relative` exactly when its distance group
      has at least `minReps` blocks and its mean speed lies in the band
      around the group's median; no block is duplicated. */
  lemma FilterRelativeKeeps(blocks: seq<Block>, tol: real, minReps: int)
    ensures multiset(FilterRelative(blocks, tol, minReps)) <= multiset(blocks)
    ensures forall b :: b in FilterRelative(blocks, tol, minReps) <==>
              b in blocks && Passes(tol, minReps, DistanceGroup(blocks, RelativeStep, DistanceKey(RelativeStep, b)), b)
  {
    if |blocks| > 0 {
      var key := ByDistance(RelativeStep);
      var kx := KeyedBy(blocks, key);
      var ks := SortedKeys(kx, LeInt);
      var f := Keeper(tol, minReps);
      assert multiset(ConcatGroups(kx, ks, f)) <= multiset(blocks) by {
        ConcatSelects(kx, ks, f);
        GroupsPartition(kx, ks);
        ItemsOfKeyedBy(blocks, key);
      }
      forall b
        ensures b in ConcatGroups(kx, ks, f) <==>
                b in blocks && Passes(tol, minReps, DistanceGroup(blocks, RelativeStep, DistanceKey(RelativeStep, b)), b)
      {
        MemberOfConcat(kx, ks, f, b);
        MemberOfGroup(blocks, key, key(b), b);
        if b in ConcatGroups(kx, ks, f) {
          var i :| 0 <= i < |ks| && b in f(ks[i], GroupOf(kx, ks[i]));
          MemberOfGroup(blocks, key, ks[i], b);
        }
        if b in blocks && Passes(tol, minReps, DistanceGroup(blocks, RelativeStep, DistanceKey(RelativeStep, b)), b) {
          var j :| 0 <= j < |blocks| && blocks[j] == b;
          KeyOccurs(blocks, key, key(b));
          var i :| 0 <= i < |ks| && ks[i] == key(b);
          assert b in f(ks[i], GroupOf(kx, ks[i]));
        }
      }
    }
  }

  // ----- filter_by_cardio -----

  /** The blocks table as `filter_by_cardio` sees it: its rows and whether
      the `effort_cardio` and `mean_bpm` columns exist. */
  datatype BlockTable = BlockTable(rows: seq<Block>, hasCardio: bool, hasMeanBpm: bool)

  /** A row with its `valid_cardio` flag. */
  datatype CardioRow = CardioRow(block: Block, valid: bool)

  predicate CardioValid(b: Block, minEffort: real, minBpm: real)
  {
    b.cardio >= minEffort && b.meanBpm >= minBpm
  }

  function Flagged(rows: seq<Block>, minEffort: real, minBpm: real): (r: seq<CardioRow>)
    ensures |r| == |rows|
    ensures forall i :: 0 <= i < |rows| ==> r[i] == CardioRow(rows[i], CardioValid(rows[i], minEffort, minBpm))
  {
    seq(|rows|, i requires 0 <= i < |rows| => CardioRow(rows[i], CardioValid(rows[i], minEffort, minBpm)))
  }

  predicate IsValid(r: CardioRow) { r.valid }

  /** `filter_by_cardio(blocks, min_effort_cardio, min_mean_bpm, keep_all)`:
      an empty table is returned as is; a table lacking either column
      raises; otherwise every row is flagged, and without `keep_all` only
      the valid rows remain. */
  function FilterByCardio(t: BlockTable, minEffort: real, minBpm: real, keepAll: bool): (r: Result<seq<CardioRow>>)
    ensures |t.rows| == 0 ==> r == Success([])
    ensures |t.rows| > 0 ==> (r.Failure? <==> !(t.hasCardio && t.hasMeanBpm))
    ensures r.Success? ==> forall i :: 0 <= i < |r.value| ==>
              r.value[i].valid == CardioValid(r.value[i].block, minEffort, minBpm)
    ensures r.Success? && keepAll ==> |r.value| == |t.rows|
                                      && forall i :: 0 <= i < |t.rows| ==> r.value[i].block == t.rows[i]
    ensures r.Success? && !keepAll ==> forall i :: 0 <= i < |r.value| ==> r.value[i].valid && r.value[i].block in t.rows
    ensures r.Success? && !keepAll ==> forall i :: 0 <= i < |t.rows| && CardioValid(t.rows[i], minEffort, minBpm) ==>
              CardioRow(t.rows[i], true) in r.value
    ensures r.Success? && !keepAll ==> BlocksOf(r.value) == Filter(t.rows, CardioMask(minEffort, minBpm))
  {
    if |t.rows| == 0 then Success([])
    else if !(t.hasCardio && t.hasMeanBpm) then Failure(MissingColumns)
    else
      var flagged := Flagged(t.rows, minEffort, minBpm);
      if keepAll then Success(flagged)
      else
        var kept := Filter(flagged, IsValid);
        ValidRowsKept(t.rows, minEffort, minBpm, kept);
        Success(kept)
  }

  /** What keeping the valid flagged rows gives: valid rows of the table,
      each valid row, and the valid blocks in table order. */
  lemma ValidRowsKept(rows: seq<Block>, minEffort: real, minBpm: real, kept: seq<CardioRow>)
    requires kept == Filter(Flagged(rows, minEffort, minBpm), IsValid)
    ensures forall i :: 0 <= i < |kept| ==> kept[i].valid == CardioValid(kept[i].block, minEffort, minBpm)
    ensures forall i :: 0 <= i < |kept| ==> kept[i].valid && kept[i].block in rows
    ensures forall i :: 0 <= i < |rows| && CardioValid(rows[i], minEffort, minBpm) ==> CardioRow(rows[i], true) in kept
    ensures BlocksOf(kept) == Filter(rows, CardioMask(minEffort, minBpm))
  {
    var flagged := Flagged(rows, minEffort, minBpm);
    assert forall i :: 0 <= i < |kept| ==> kept[i] in flagged;
    FlaggedThenFiltered(rows, minEffort, minBpm);
  }

  /** The `valid_cardio` mask as a predicate on blocks. */
  function CardioMask(minEffort: real, minBpm: real): Block -> bool
  {
    (b: Block) => CardioValid(b, minEffort, minBpm)
  }

  /** Flagging every row and keeping the valid ones selects, in order,
      exactly the blocks the mask accepts. */
  lemma {:induction false} FlaggedThenFiltered(rows: seq<Block>, minEffort: real, minBpm: real)
    ensures BlocksOf(Filter(Flagged(rows, minEffort, minBpm), IsValid)) == Filter(rows, CardioMask(minEffort, minBpm))
  {
    if |rows| > 0 {
      var flagged := Flagged(rows, minEffort, minBpm);
      FlaggedThenFiltered(rows[1..], minEffort, minBpm);
      assert flagged[1..] == Flagged(rows[1..], minEffort, minBpm);
      FilterUnfolds(flagged, IsValid);
      FilterUnfolds(rows, CardioMask(minEffort, minBpm));
      var rest := Filter(flagged[1..], IsValid);
      BlocksOfCons(flagged[0], rest);
    }
  }

  lemma BlocksOfCons(x: CardioRow, rest: seq<CardioRow>)
    ensures BlocksOf([x] + rest) == [x.block] + BlocksOf(rest)
  {
    assert BlocksOf([x] + rest)[0] == x.block;
    forall i | 1 <= i < |rest| + 1
      ensures BlocksOf([x] + rest)[i] == BlocksOf(rest)[i - 1]
    {
      assert ([x] + rest)[i] == rest[i - 1];
    }
  }

  /** The blocks of the rows, without their flags. */
  function BlocksOf(rows: seq<CardioRow>): seq<Block>
  {
    MapSeq(rows, (r: CardioRow) => r.block)
  }

  /** Filtering the kept blocks a second time keeps all of them. */
  lemma FilterByCardioIdempotent(t: BlockTable, minEffort: real, minBpm: real)
    requires FilterByCardio(t, minEffort, minBpm, false).Success?
    ensures var kept := FilterByCardio(t, minEffort, minBpm, false).value;
            FilterByCardio(BlockTable(BlocksOf(kept), true, true), minEffort, minBpm, false) == Success(kept)
  {
    var kept := FilterByCardio(t, minEffort, minBpm, false).value;
    var again := Flagged(BlocksOf(kept), minEffort, minBpm);
    assert again == kept;
    if |kept| > 0 {
      FilterKeepsAll(again, IsValid);
    }
  }
}

=== FILE: grouping.dfy ===
/** pandas `groupby` over rows tagged with their grouping key: keys are
    visited in sorted order and every group keeps the rows' original
    order. */
module Grouping {
  import opened Results
  import opened Seqs

  function KeysOf<K, T>(xs: seq<(K, T)>): (ks: seq<K>)
    ensures |ks| == |xs|
    ensures forall i :: 0 <= i < |xs| ==> ks[i] == xs[i].0
  {
    seq(|xs|, i requires 0 <= i < |xs| => xs[i].0)
  }

  function ItemsOf<K, T>(xs: seq<(K, T)>): (ts: seq<T>)
    ensures |ts| == |xs|
    ensures forall i :: 0 <= i < |xs| ==> ts[i] == xs[i].1
  {
    seq(|xs|, i requires 0 <= i < |xs| => xs[i].1)
  }

  /** The keys that occur, each once, in order of first appearance. */
  function DistinctKeys<K(==,!new), T>(xs: seq<(K, T)>): (ks: seq<K>)
    ensures Distinct(ks)
    ensures forall k :: k in ks <==> k in KeysOf(xs)
  {
    if |xs| == 0 then []
    else
      var init := xs[..|xs| - 1];
      var k := xs[|xs| - 1].0;
      var ks := DistinctKeys(init);
      assert forall j :: j in KeysOf(init) <==> j in KeysOf(xs)[..|xs| - 1];
      assert KeysOf(xs) == KeysOf(xs)[..|xs| - 1] + [k];
      if k in ks then ks
      else
        assert multiset(ks)[k] == 0;
        assert multiset(ks + [k]) == multiset(ks) + multiset{k};
        ks + [k]
  }

  /** The rows of the group with key `k`, in their original order. */
  function GroupOf<K(==), T>(xs: seq<(K, T)>, k: K): (g: seq<T>)
    ensures |g| <= |xs|
    ensures k !in KeysOf(xs) ==> g == []
    ensures forall t :: t in g ==> (k, t) in xs
    ensures forall i :: 0 <= i < |xs| && xs[i].0 == k ==> xs[i].1 in g
  {
    if |xs| == 0 then []
    else
      var head := if xs[0].0 == k then [xs[0].1] else [];
      var rest := GroupOf(xs[1..], k);
      GroupOfStep(xs, k, head, rest);
      head + rest
  }

  lemma GroupOfStep<K, T>(xs: seq<(K, T)>, k: K, head: seq<T>, rest: seq<T>)
    requires |xs| > 0
    requires head == if xs[0].0 == k then [xs[0].1] else []
    requires |rest| <= |xs| - 1
    requires k !in KeysOf(xs[1..]) ==> rest == []
    requires forall t :: t in rest ==> (k, t) in xs[1..]
    requires forall i :: 0 <= i < |xs| - 1 && xs[1..][i].0 == k ==> xs[1..][i].1 in rest
    ensures |head + rest| <= |xs|
    ensures k !in KeysOf(xs) ==> head + rest == []
    ensures forall t :: t in head + rest ==> (k, t) in xs
    ensures forall i :: 0 <= i < |xs| && xs[i].0 == k ==> xs[i].1 in head + rest
  {
    if k !in KeysOf(xs) {
      assert xs[0].0 == KeysOf(xs)[0];
      assert forall j :: 0 <= j < |xs| - 1 ==> KeysOf(xs[1..])[j] == KeysOf(xs)[j + 1];
    }
    forall t | t in head + rest
      ensures (k, t) in xs
    {
      if t in head {
        assert xs[0] == (k, t);
      } else {
        assert (k, t) in xs[1..];
      }
    }
    forall i | 0 <= i < |xs| && xs[i].0 == k
      ensures xs[i].1 in head + rest
    {
      if i > 0 {
        assert xs[1..][i - 1] == xs[i];
      }
    }
  }

  /** Rows whose key is one of `ks`. */
  function ItemsKeyedIn<K(==), T>(xs: seq<(K, T)>, ks: seq<K>): seq<T>
  {
    if |xs| == 0 then []
    else (if xs[0].0 in ks then [xs[0].1] else []) + ItemsKeyedIn(xs[1..], ks)
  }

  /** The groups of `ks`, laid end to end. */
  function Flatten<K(==), T>(xs: seq<(K, T)>, ks: seq<K>): seq<T>
  {
    if |ks| == 0 then [] else GroupOf(xs, ks[0]) + Flatten(xs, ks[1..])
  }

  lemma {:induction false} SplitOffKey<K, T>(xs: seq<(K, T)>, k: K, ks: seq<K>)
    requires k !in ks
    ensures multiset(ItemsKeyedIn(xs, [k] + ks))
         == multiset(GroupOf(xs, k)) + multiset(ItemsKeyedIn(xs, ks))
  {
    if |xs| > 0 {
      SplitOffKey(xs[1..], k, ks);
    }
  }

  lemma {:induction false} FlattenIsKeyedItems<K(!new), T>(xs: seq<(K, T)>, ks: seq<K>)
    requires Distinct(ks)
    ensures multiset(Flatten(xs, ks)) == multiset(ItemsKeyedIn(xs, ks))
  {
    if |ks| == 0 {
      EmptyKeys(xs, ks);
    } else {
      DistinctTail(ks);
      FlattenIsKeyedItems(xs, ks[1..]);
      SplitOffKey(xs, ks[0], ks[1..]);
      assert [ks[0]] + ks[1..] == ks;
    }
  }

  lemma {:induction false} EmptyKeys<K, T>(xs: seq<(K, T)>, ks: seq<K>)
    requires |ks| == 0
    ensures ItemsKeyedIn(xs, ks) == []
  {
    if |xs| > 0 {
      EmptyKeys(xs[1..], ks);
    }
  }

  lemma {:induction false} AllKeyedIn<K, T>(xs: seq<(K, T)>, ks: seq<K>)
    requires forall i :: 0 <= i < |xs| ==> xs[i].0 in ks
    ensures ItemsKeyedIn(xs, ks) == ItemsOf(xs)
  {
    if |xs| > 0 {
      AllKeyedIn(xs[1..], ks);
      assert ItemsOf(xs) == [xs[0].1] + ItemsOf(xs[1..]);
    }
  }

  /** Groups over a complete, repetition-free list of keys partition the
      rows: every row lands in exactly one group. */
  lemma GroupsPartition<K(!new), T>(xs: seq<(K, T)>, ks: seq<K>)
    requires Distinct(ks)
    requires forall k :: k in KeysOf(xs) ==> k in ks
    ensures multiset(Flatten(xs, ks)) == multiset(ItemsOf(xs))
    ensures |Flatten(xs, ks)| == |xs|
  {
    forall i | 0 <= i < |xs|
      ensures xs[i].0 in ks
    {
      assert KeysOf(xs)[i] == xs[i].0;
    }
    FlattenIsKeyedItems(xs, ks);
    AllKeyedIn(xs, ks);
    assert |multiset(Flatten(xs, ks))| == |multiset(ItemsOf(xs))|;
  }

  /** `groupby(...)` keys: the distinct keys in ascending order. */
  function SortedKeys<K(==,!new), T>(xs: seq<(K, T)>, le: (K, K) -> bool): (ks: seq<K>)
    ensures Distinct(ks)
    ensures forall k :: k in ks <==> k in KeysOf(xs)
  {
    var d := DistinctKeys(xs);
    var ks := Sort(d, le);
    assert forall k :: k in ks <==> k in multiset(d);
    ks
  }

  /** Keys that occur have non-empty groups. */
  lemma {:induction false} OccurringKeyHasMembers<K, T>(xs: seq<(K, T)>, k: K)
    requires k in KeysOf(xs)
    ensures |GroupOf(xs, k)| > 0
  {
    assert KeysOf(xs) == [xs[0].0] + KeysOf(xs[1..]);
    if xs[0].0 != k {
      OccurringKeyHasMembers(xs[1..], k);
    }
  }

  // ----- rows keyed by a function of the row -----

  /** Each row paired with its grouping key. */
  function KeyedBy<K, T>(xs: seq<T>, key: T -> K): (kx: seq<(K, T)>)
    ensures |kx| == |xs|
    ensures forall i :: 0 <= i < |xs| ==> kx[i] == (key(xs[i]), xs[i])
  {
    seq(|xs|, i requires 0 <= i < |xs| => (key(xs[i]), xs[i]))
  }

  lemma ItemsOfKeyedBy<K, T>(xs: seq<T>, key: T -> K)
    ensures ItemsOf(KeyedBy(xs, key)) == xs
  {
  }

  /** A row belongs to the group of `k` exactly when its key is `k`. */
  lemma MemberOfGroup<K, T>(xs: seq<T>, key: T -> K, k: K, t: T)
    ensures t in GroupOf(KeyedBy(xs, key), k) <==> t in xs && key(t) == k
  {
    var kx := KeyedBy(xs, key);
    if t in xs && key(t) == k {
      var i :| 0 <= i < |xs| && xs[i] == t;
      assert kx[i].0 == k;
    }
    if t in GroupOf(kx, k) {
      assert (k, t) in kx;
      var i :| 0 <= i < |kx| && kx[i] == (k, t);
    }
  }

  /** A row lands in the concatenated groups of `ks` exactly when its key
      is one of `ks`. */
  lemma {:induction false} MemberOfFlatten<K, T>(xs: seq<T>, key: T -> K, ks: seq<K>, t: T)
    ensures t in Flatten(KeyedBy(xs, key), ks) <==> t in xs && key(t) in ks
  {
    if |ks| > 0 {
      MemberOfGroup(xs, key, ks[0], t);
      MemberOfFlatten(xs, key, ks[1..], t);
      assert ks == [ks[0]] + ks[1..];
    }
  }

  /** Number of rows whose key is `k`: a reference count independent of
      the grouping. */
  function CountKey<K(==), T>(xs: seq<T>, key: T -> K, k: K): nat
  {
    if |xs| == 0 then 0 else (if key(xs[0]) == k then 1 else 0) + CountKey(xs[1..], key, k)
  }

  /** A group holds exactly the rows carrying its key. */
  lemma {:induction false} GroupSizeIsCount<K, T>(xs: seq<T>, key: T -> K, k: K)
    ensures |GroupOf(KeyedBy(xs, key), k)| == CountKey(xs, key, k)
  {
    if |xs| > 0 {
      GroupSizeIsCount(xs[1..], key, k);
      assert KeyedBy(xs, key)[1..] == KeyedBy(xs[1..], key);
    }
  }

  /** A key occurs exactly when some row carries it. */
  lemma KeyOccurs<K, T>(xs: seq<T>, key: T -> K, k: K)
    ensures k in KeysOf(KeyedBy(xs, key)) <==> exists i :: 0 <= i < |xs| && key(xs[i]) == k
  {
    var kx := KeyedBy(xs, key);
    if k in KeysOf(kx) {
      var i :| 0 <= i < |kx| && KeysOf(kx)[i] == k;
      assert key(xs[i]) == k;
    }
    if exists i :: 0 <= i < |xs| && key(xs[i]) == k {
      var i :| 0 <= i < |xs| && key(xs[i]) == k;
      assert KeysOf(kx)[i] == k;
    }
  }

  /** One output row per key, built from the key and its group; the first
      group whose row fails makes the whole table fail. */
  function MapGroups<K(==), T, R>(xs: seq<(K, T)>, ks: seq<K>, rowOf: (K, seq<T>) -> Result<R>): (r: Result<seq<R>>)
    ensures r.Success? ==> |r.value| == |ks|
    ensures r.Success? ==> forall i :: 0 <= i < |ks| ==> rowOf(ks[i], GroupOf(xs, ks[i])) == Success(r.value[i])
    ensures r.Failure? <==> exists i :: 0 <= i < |ks| && rowOf(ks[i], GroupOf(xs, ks[i])).Failure?
  {
    if |ks| == 0 then Success([])
    else
      var head := rowOf(ks[0], GroupOf(xs, ks[0]));
      var rest := MapGroups(xs, ks[1..], rowOf);
      assert forall i :: 1 <= i < |ks| ==> ks[i] == ks[1..][i - 1];
      if head.Failure? then Failure(head.error)
      else if rest.Failure? then
        var j :| 0 <= j < |ks| - 1 && rowOf(ks[1..][j], GroupOf(xs, ks[1..][j])).Failure?;
        assert ks[j + 1] == ks[1..][j];
        Failure(rest.error)
      else Success([head.value] + rest.value)
  }

  /** Row counts equal to the group sizes add up to the number of grouped
      rows. */
  lemma {:induction false} SumOfGroupSizes<K, T, R>(xs: seq<(K, T)>, ks: seq<K>, rows: seq<R>, count: R -> int)
    requires |rows| == |ks|
    requires forall i :: 0 <= i < |ks| ==> count(rows[i]) == |GroupOf(xs, ks[i])|
    ensures SumBy(rows, count) == |Flatten(xs, ks)|
  {
    if |ks| > 0 {
      assert forall i :: 1 <= i < |ks| ==> ks[i] == ks[1..][i - 1] && rows[i] == rows[1..][i - 1];
      SumOfGroupSizes(xs, ks[1..], rows[1..], count);
    }
  }

  lemma SortedKeysAscending<K(!new), T>(xs: seq<(K, T)>, le: (K, K) -> bool)
    requires TotalPreorder(le)
    ensures SortedBy(SortedKeys(xs, le), le)
  {
    SortSorted(DistinctKeys(xs), le);
  }

  // ----- one row per group -----

  /** `for key, grp in df.groupby(key)`: one row per occurring key, keys in
      `le` order. */
  function GroupTable<K(==,!new), T, R>(xs: seq<T>, key: T -> K, le: (K, K) -> bool,
                                        rowOf: (K, seq<T>) -> Result<R>): Result<seq<R>>
  {
    var kx := KeyedBy(xs, key);
    MapGroups(kx, SortedKeys(kx, le), rowOf)
  }

  /** A row builder that records the group's key and size. */
  ghost predicate RecordsGroup<K(!new), T(!new), R>(rowOf: (K, seq<T>) -> Result<R>, rowKey: R -> K, count: R -> int)
  {
    forall k, g :: rowOf(k, g).Success? ==> rowKey(rowOf(k, g).value) == k && count(rowOf(k, g).value) == |g|
  }

  /** The table fails exactly when the group of some row fails to
      summarise. */
  lemma GroupTableFails<K(!new), T, R>(xs: seq<T>, key: T -> K, le: (K, K) -> bool,
                                       rowOf: (K, seq<T>) -> Result<R>)
    ensures GroupTable(xs, key, le, rowOf).Failure?
        <==> exists i :: 0 <= i < |xs| && rowOf(key(xs[i]), GroupOf(KeyedBy(xs, key), key(xs[i]))).Failure?
  {
    var kx := KeyedBy(xs, key);
    var ks := SortedKeys(kx, le);
    if GroupTable(xs, key, le, rowOf).Failure? {
      var j :| 0 <= j < |ks| && rowOf(ks[j], GroupOf(kx, ks[j])).Failure?;
      KeyOccurs(xs, key, ks[j]);
    }
    if exists i :: 0 <= i < |xs| && rowOf(key(xs[i]), GroupOf(kx, key(xs[i]))).Failure? {
      var i :| 0 <= i < |xs| && rowOf(key(xs[i]), GroupOf(kx, key(xs[i]))).Failure?;
      KeyOccurs(xs, key, key(xs[i]));
      var j :| 0 <= j < |ks| && ks[j] == key(xs[i]);
    }
  }

  /** Each row of a table stands for a key that occurs, counts exactly the
      rows carrying that key, and the counts add up to the number of
      rows. */
  lemma GroupTableCounts<K(!new), T(!new), R>(xs: seq<T>, key: T -> K, le: (K, K) -> bool,
                                              rowOf: (K, seq<T>) -> Result<R>, rowKey: R -> K, count: R -> int)
    requires RecordsGroup(rowOf, rowKey, count)
    ensures var r := GroupTable(xs, key, le, rowOf);
            r.Success? ==>
              && SumBy(r.value, count) == |xs|
              && forall i :: 0 <= i < |r.value| ==>
                   count(r.value[i]) == CountKey(xs, key, rowKey(r.value[i])) > 0
  {
    var kx := KeyedBy(xs, key);
    var ks := SortedKeys(kx, le);
    var r := GroupTable(xs, key, le, rowOf);
    if r.Success? {
      var rows := r.value;
      forall i | 0 <= i < |ks|
        ensures rowKey(rows[i]) == ks[i] && count(rows[i]) == |GroupOf(kx, ks[i])|
      {
        assert rowOf(ks[i], GroupOf(kx, ks[i])) == Success(rows[i]);
      }
      SumOfGroupSizes(kx, ks, rows, count);
      GroupsPartition(kx, ks);
      forall i | 0 <= i < |rows|
        ensures count(rows[i]) == CountKey(xs, key, rowKey(rows[i])) > 0
      {
        GroupSizeIsCount(xs, key, ks[i]);
        OccurringKeyHasMembers(kx, ks[i]);
      }
    }
  }

  /** Every item's key is represented by a row. */
  lemma GroupTableCovers<K(!new), T(!new), R>(xs: seq<T>, key: T -> K, le: (K, K) -> bool,
                                              rowOf: (K, seq<T>) -> Result<R>, rowKey: R -> K, count: R -> int)
    requires RecordsGroup(rowOf, rowKey, count)
    ensures var r := GroupTable(xs, key, le, rowOf);
            r.Success? ==> forall i :: 0 <= i < |xs| ==> exists j :: 0 <= j < |r.value| && rowKey(r.value[j]) == key(xs[i])
  {
    var kx := KeyedBy(xs, key);
    var ks := SortedKeys(kx, le);
    var r := GroupTable(xs, key, le, rowOf);
    if r.Success? {
      var rows := r.value;
      forall i | 0 <= i < |xs|
        ensures exists j :: 0 <= j < |rows| && rowKey(rows[j]) == key(xs[i])
      {
        KeyOccurs(xs, key, key(xs[i]));
        var j :| 0 <= j < |ks| && ks[j] == key(xs[i]);
        assert rowOf(ks[j], GroupOf(kx, ks[j])) == Success(rows[j]);
      }
    }
  }

  /** The rows' keys are distinct and ascending. */
  lemma GroupTableOrder<K(!new), T(!new), R>(xs: seq<T>, key: T -> K, le: (K, K) -> bool,
                                             rowOf: (K, seq<T>) -> Result<R>, rowKey: R -> K, count: R -> int)
    requires RecordsGroup(rowOf, rowKey, count)
    requires TotalPreorder(le)
    ensures var r := GroupTable(xs, key, le, rowOf);
            r.Success? ==> forall i, j :: 0 <= i < j < |r.value| ==>
                             le(rowKey(r.value[i]), rowKey(r.value[j])) && rowKey(r.value[i]) != rowKey(r.value[j])
  {
    var kx := KeyedBy(xs, key);
    var ks := SortedKeys(kx, le);
    var r := GroupTable(xs, key, le, rowOf);
    if r.Success? {
      var rows := r.value;
      forall i | 0 <= i < |ks|
        ensures rowKey(rows[i]) == ks[i]
      {
        assert rowOf(ks[i], GroupOf(kx, ks[i])) == Success(rows[i]);
      }
      SortedKeysAscending(kx, le);
      forall i, j | 0 <= i < j < |rows|
        ensures rowKey(rows[i]) != rowKey(rows[j])
      {
        DistinctIndices(ks, i, j);
      }
    }
  }

  /** Every item's key is represented by a row, and the rows' keys are
      distinct and ascending. */
  lemma GroupTableKeys<K(!new), T(!new), R>(xs: seq<T>, key: T -> K, le: (K, K) -> bool,
                                            rowOf: (K, seq<T>) -> Result<R>, rowKey: R -> K, count: R -> int)
    requires RecordsGroup(rowOf, rowKey, count)
    requires TotalPreorder(le)
    ensures var r := GroupTable(xs, key, le, rowOf);
            r.Success? ==>
              && (forall i :: 0 <= i < |xs| ==> exists j :: 0 <= j < |r.value| && rowKey(r.value[j]) == key(xs[i]))
              && (forall i, j :: 0 <= i < j < |r.value| ==>
                    le(rowKey(r.value[i]), rowKey(r.value[j])) && rowKey(r.value[i]) != rowKey(r.value[j]))
  {
    GroupTableCovers(xs, key, le, rowOf, rowKey, count);
    GroupTableOrder(xs, key, le, rowOf, rowKey, count);
  }

  // ----- groups transformed and laid end to end -----

  /** `pd.concat` of the per-group outputs `f(key, group)` over the keys
      `ks`. */
  function ConcatGroups<K(==), T>(xs: seq<(K, T)>, ks: seq<K>, f: (K, seq<T>) -> seq<T>): seq<T>
  {
    if |ks| == 0 then [] else f(ks[0], GroupOf(xs, ks[0])) + ConcatGroups(xs, ks[1..], f)
  }

  /** An item is in the concatenation exactly when one of the per-group
      outputs holds it. */
  lemma {:induction false} MemberOfConcat<K, T>(xs: seq<(K, T)>, ks: seq<K>, f: (K, seq<T>) -> seq<T>, t: T)
    ensures t in ConcatGroups(xs, ks, f) <==> exists i :: 0 <= i < |ks| && t in f(ks[i], GroupOf(xs, ks[i]))
  {
    if |ks| > 0 {
      MemberOfConcat(xs, ks[1..], f, t);
      assert forall i :: 1 <= i < |ks| ==> ks[i] == ks[1..][i - 1];
      if exists i :: 0 <= i < |ks| && t in f(ks[i], GroupOf(xs, ks[i])) {
        var i :| 0 <= i < |ks| && t in f(ks[i], GroupOf(xs, ks[i]));
        if i > 0 {
          assert ks[1..][i - 1] == ks[i];
        }
      }
    }
  }

  /** Per-group outputs that only select from their group select from the
      grouped rows without repeating any. */
  lemma {:induction false} ConcatSelects<K, T>(xs: seq<(K, T)>, ks: seq<K>, f: (K, seq<T>) -> seq<T>)
    requires forall i :: 0 <= i < |ks| ==> multiset(f(ks[i], GroupOf(xs, ks[i]))) <= multiset(GroupOf(xs, ks[i]))
    ensures multiset(ConcatGroups(xs, ks, f)) <= multiset(Flatten(xs, ks))
  {
    if |ks| > 0 {
      assert forall i :: 1 <= i < |ks| ==> ks[i] == ks[1..][i - 1];
      ConcatSelects(xs, ks[1..], f);
    }
  }
}

=== FILE: multiscale.dfy ===
/** The multi-scale pipeline: efforts are detected on the smoothed speed of
    each scale, merged across scales, their ends refined, and each becomes
    a row of the blocks table tagged with its scale. */
module MultiScale {
  import opened Results
  import opened Numbers
  import opened Seqs
  import opened Sessions
  import opened Detection
  import opened Overlap
  import opened Blocks

  // ----- detection -----

  /** `_find_efforts` on the `speed_<scale>` channel, with the threshold
      `max(seuil_rel * max, 1.15 * mean)` and the scale's profile. */
  function ScaleEfforts(s: Session, sc: Scale): (r: seq<Span>)
    requires s.Valid() && |s.time| > 0
    ensures forall k :: 0 <= k < |r| ==> r[k].end - r[k].start >= ProfileOf(sc).minDur
    ensures SpecifiedEfforts(MultiScaleConventions(ProfileOf(sc)),
                             MaxOrMeanThreshold(ProfileOf(sc).seuilRel, Max(s.SpeedOf(sc)), Mean(s.SpeedOf(sc))),
                             s.time, s.SpeedOf(sc), r)
  {
    var speeds := s.SpeedOf(sc);
    FindEfforts(MultiScaleConventions(ProfileOf(sc)),
                Threshold(MaxOrMean(ProfileOf(sc).seuilRel), speeds).value, s.time, speeds)
  }

  /** `[(st, en, name) for (st, en) in intervals]`. */
  function TagAll(spans: seq<Span>, sc: Scale): (r: seq<Tagged>)
    ensures |r| == |spans|
    ensures forall k :: 0 <= k < |r| ==> r[k] == Tagged(spans[k].start, spans[k].end, sc)
  {
    seq(|spans|, k requires 0 <= k < |spans| => Tagged(spans[k].start, spans[k].end, sc))
  }

  /** The efforts of the three scales, in profile order, before merging. */
  function Candidates(s: Session): seq<Tagged>
    requires s.Valid() && |s.time| > 0
  {
    TagAll(ScaleEfforts(s, Short), Short)
    + TagAll(ScaleEfforts(s, Medium), Medium)
    + TagAll(ScaleEfforts(s, Long), Long)
  }

  /** `x` is an effort the detector of its own scale reported. */
  predicate FoundAtScale(s: Session, x: Tagged)
    requires s.Valid() && |s.time| > 0
  {
    Span(x.start, x.end) in ScaleEfforts(s, x.scale)
  }

  lemma CandidateFoundAtScale(s: Session, x: Tagged)
    requires s.Valid() && |s.time| > 0
    requires x in Candidates(s)
    ensures FoundAtScale(s, x)
  {
    var a, b, c := TagAll(ScaleEfforts(s, Short), Short), TagAll(ScaleEfforts(s, Medium), Medium),
                   TagAll(ScaleEfforts(s, Long), Long);
    assert x in a || x in b || x in c;
  }

  /** `detect_intervals_multiscale`: fails on an empty session, where
      `nanmax` raises; otherwise every interval kept after merging is an
      effort found at its own scale, lasting at least that scale's minimum
      duration, and merging never adds intervals. */
  function DetectIntervalsMultiscale(s: Session): (r: Result<seq<Tagged>>)
    requires s.Valid()
    ensures r.Failure? <==> |s.time| == 0
    ensures r.Failure? ==> r.error == EmptySeries
    ensures r.Success? ==> |r.value| <= |Candidates(s)|
    ensures r.Success? ==> (|r.value| > 0 <==> |Candidates(s)| > 0)
    ensures r.Success? ==> forall x :: x in r.value ==>
              FoundAtScale(s, x) && x.end - x.start >= ProfileOf(x.scale).minDur
  {
    if |s.time| == 0 then Failure(EmptySeries)
    else
      var merged := MergeOverlaps(Candidates(s), IouThreshold);
      forall x | x in merged
        ensures FoundAtScale(s, x) && x.end - x.start >= ProfileOf(x.scale).minDur
      {
        CandidateFoundAtScale(s, x);
        var spans := ScaleEfforts(s, x.scale);
        var k :| 0 <= k < |spans| && spans[k] == Span(x.start, x.end);
      }
      Success(merged)
  }

  // ----- refinement -----

  /** `refine_intervals` for one interval: dropped when no sample falls in
      it, otherwise its end is pulled back onto the sustained part. */
  function RefineOne(s: Session, iv: Tagged): (r: Option<Tagged>)
    requires s.Valid()
    ensures r.None? <==> forall k :: !InWindow(s.time, iv.start, iv.end, k)
    ensures r.Some? ==> && r.value.start == iv.start && r.value.scale == iv.scale
                        && iv.start <= r.value.end <= iv.end
  {
    match RefineEnd(s.time, s.SpeedOf(iv.scale), iv.start, iv.end)
    case None => None
    case Some(e) => Some(Tagged(iv.start, e, iv.scale))
  }

  function Refiner(s: Session): Tagged -> Option<Tagged>
    requires s.Valid()
  {
    (iv: Tagged) => RefineOne(s, iv)
  }

  /** `x` keeps the start and scale of one of `ivs` and ends within it. */
  ghost predicate TightenedFrom(ivs: seq<Tagged>, x: Tagged)
  {
    exists i :: && 0 <= i < |ivs| && ivs[i].start == x.start && ivs[i].scale == x.scale
                && ivs[i].start <= x.end <= ivs[i].end
  }

  /** The interval has at least one sample. */
  ghost predicate HasSample(times: seq<real>, iv: Tagged)
  {
    exists k :: InWindow(times, iv.start, iv.end, k)
  }

  /** `refine_intervals`: one interval per input that has samples, each a
      tightening of its input, in input order. */
  function RefineIntervals(s: Session, ivs: seq<Tagged>): (r: seq<Tagged>)
    requires s.Valid()
    ensures |r| <= |ivs|
    ensures forall k :: 0 <= k < |r| ==> TightenedFrom(ivs, r[k])
    ensures (forall i :: 0 <= i < |ivs| ==> HasSample(s.time, ivs[i])) ==> |r| == |ivs|
    ensures forall i :: 0 <= i < |ivs| && HasSample(s.time, ivs[i]) ==> RefineOne(s, ivs[i]).value in r
    ensures var idx := Accepted(ivs, Refiner(s));
            && |r| == |idx|
            && (forall k :: 0 <= k < |r| ==> RefineOne(s, ivs[idx[k]]) == Some(r[k]))
            && (forall i :: 0 <= i < |ivs| ==> (i in idx <==> HasSample(s.time, ivs[i])))
  {
    var r := FilterMap(ivs, Refiner(s));
    forall k | 0 <= k < |r|
      ensures TightenedFrom(ivs, r[k])
    {
      var i :| 0 <= i < |ivs| && Refiner(s)(ivs[i]) == Some(r[k]);
      RefinedIsTightened(s, ivs, i, r[k]);
    }
    SampledAreRefined(s, ivs);
    RefinedInOrder(s, ivs, r);
    r
  }

  /** The refined intervals are the outputs of the accepted inputs, one
      each, and an input is accepted exactly when it has samples. */
  lemma RefinedInOrder(s: Session, ivs: seq<Tagged>, r: seq<Tagged>)
    requires s.Valid()
    requires Selected(ivs, Refiner(s), r)
    requires forall i :: 0 <= i < |ivs| && Refiner(s)(ivs[i]).Some? ==> Refiner(s)(ivs[i]).value in r
    ensures forall i :: 0 <= i < |ivs| && HasSample(s.time, ivs[i]) ==> RefineOne(s, ivs[i]).value in r
    ensures var idx := Accepted(ivs, Refiner(s));
            && |r| == |idx|
            && (forall k :: 0 <= k < |r| ==> RefineOne(s, ivs[idx[k]]) == Some(r[k]))
            && (forall i :: 0 <= i < |ivs| ==> (i in idx <==> HasSample(s.time, ivs[i])))
  {
    var idx := Accepted(ivs, Refiner(s));
    forall i | 0 <= i < |ivs|
      ensures i in idx <==> HasSample(s.time, ivs[i])
      ensures HasSample(s.time, ivs[i]) ==> RefineOne(s, ivs[i]).value in r
    {
      if i in idx {
        var k :| 0 <= k < |idx| && idx[k] == i;
        assert Refiner(s)(ivs[i]).Some?;
      }
      if HasSample(s.time, ivs[i]) {
        var j :| InWindow(s.time, ivs[i].start, ivs[i].end, j);
        assert Refiner(s)(ivs[i]).Some?;
      }
    }
  }

  lemma RefinedIsTightened(s: Session, ivs: seq<Tagged>, i: int, x: Tagged)
    requires s.Valid() && 0 <= i < |ivs|
    requires RefineOne(s, ivs[i]) == Some(x)
    ensures TightenedFrom(ivs, x)
  {
  }

  lemma SampledAreRefined(s: Session, ivs: seq<Tagged>)
    requires s.Valid()
    ensures (forall i :: 0 <= i < |ivs| ==> HasSample(s.time, ivs[i])) ==>
              forall i :: 0 <= i < |ivs| ==> Refiner(s)(ivs[i]).Some?
  {
    if forall i :: 0 <= i < |ivs| ==> HasSample(s.time, ivs[i]) {
      forall i | 0 <= i < |ivs|
        ensures Refiner(s)(ivs[i]).Some?
      {
        var k :| InWindow(s.time, ivs[i].start, ivs[i].end, k);
      }
    }
  }

  // ----- extraction -----

  /** Windows shorter than this many seconds yield no block. */
  const MinBlockSeconds: real := 8.0

  /** The block of interval `iv` measured on its scale's channels. */
  ghost predicate MeasuresInterval(s: Session, iv: Tagged, b: ScaledBlock)
    requires s.Valid()
  {
    && b.scale == iv.scale
    && MeasuresWindow(s.time, s.SpeedOf(iv.scale), s.BpmOf(iv.scale), iv.start, iv.end, b.block)
  }

  /** `b` is the block of one of `ivs`, measured on its scale's channels. */
  ghost predicate MeasuredOnOneOf(s: Session, ivs: seq<Tagged>, b: ScaledBlock)
    requires s.Valid()
  {
    exists i :: 0 <= i < |ivs| && MeasuresInterval(s, ivs[i], b)
  }

  /** `extract_blocks` for one interval, read on its scale's channels: a
      block exactly when the samples of the interval span at least the
      minimum. */
  function ExtractOne(s: Session, iv: Tagged): (r: Option<ScaledBlock>)
    requires s.Valid()
    ensures r.Some? <==> LongEnough(s.time, iv.start, iv.end, MinBlockSeconds)
    ensures r.Some? ==> MeasuresInterval(s, iv, r.value)
    ensures r.Some? ==> && r.value.scale == iv.scale
                        && iv.start <= r.value.block.start && r.value.block.end <= iv.end
                        && r.value.block.duration == r.value.block.end - r.value.block.start >= MinBlockSeconds
    ensures (forall k :: !InWindow(s.time, iv.start, iv.end, k)) ==> r.None?
  {
    match ExtractBlock(s.time, s.SpeedOf(iv.scale), s.BpmOf(iv.scale), iv.start, iv.end, MinBlockSeconds)
    case None => None
    case Some(b) => Some(ScaledBlock(iv.scale, b))
  }

  function Extractor(s: Session): Tagged -> Option<ScaledBlock>
    requires s.Valid()
  {
    (iv: Tagged) => ExtractOne(s, iv)
  }

  /** `b` lies inside one of `ivs` of its own scale and lasts at least the
      minimum block duration. */
  ghost predicate InsideOneOf(ivs: seq<Tagged>, b: ScaledBlock)
  {
    && b.block.duration >= MinBlockSeconds
    && exists i :: && 0 <= i < |ivs| && ivs[i].scale == b.scale
                   && ivs[i].start <= b.block.start && b.block.end <= ivs[i].end
  }

  /** `extract_blocks`: at most one block per interval, each inside its
      interval and measured on its samples, and one for every interval whose
      samples span at least the minimum. The blocks follow the intervals:
      the `k`-th block is the one of the `k`-th interval that yields a
      block. */
  function ExtractBlocks(s: Session, ivs: seq<Tagged>): (r: seq<ScaledBlock>)
    requires s.Valid()
    ensures |r| <= |ivs|
    ensures forall k :: 0 <= k < |r| ==> InsideOneOf(ivs, r[k])
    ensures forall k :: 0 <= k < |r| ==> MeasuredOnOneOf(s, ivs, r[k])
    ensures forall i :: 0 <= i < |ivs| && LongEnough(s.time, ivs[i].start, ivs[i].end, MinBlockSeconds) ==>
              exists k :: 0 <= k < |r| && MeasuresInterval(s, ivs[i], r[k])
    ensures var idx := Accepted(ivs, Extractor(s));
            && |r| == |idx|
            && (forall k :: 0 <= k < |r| ==> ExtractOne(s, ivs[idx[k]]) == Some(r[k]))
            && (forall i :: 0 <= i < |ivs| ==>
                  (i in idx <==> LongEnough(s.time, ivs[i].start, ivs[i].end, MinBlockSeconds)))
  {
    var r := FilterMap(ivs, Extractor(s));
    ExtractedAreMeasured(s, ivs, r);
    LongIntervalsExtracted(s, ivs, r);
    ExtractedInOrder(s, ivs, r);
    r
  }

  /** The blocks are the outputs of the accepted intervals, one each, and
      an interval is accepted exactly when it is long enough. */
  lemma ExtractedInOrder(s: Session, ivs: seq<Tagged>, r: seq<ScaledBlock>)
    requires s.Valid()
    requires Selected(ivs, Extractor(s), r)
    ensures var idx := Accepted(ivs, Extractor(s));
            && |r| == |idx|
            && (forall k :: 0 <= k < |r| ==> ExtractOne(s, ivs[idx[k]]) == Some(r[k]))
            && (forall i :: 0 <= i < |ivs| ==>
                  (i in idx <==> LongEnough(s.time, ivs[i].start, ivs[i].end, MinBlockSeconds)))
  {
    var idx := Accepted(ivs, Extractor(s));
    forall i | 0 <= i < |ivs|
      ensures i in idx <==> LongEnough(s.time, ivs[i].start, ivs[i].end, MinBlockSeconds)
    {
      if i in idx {
        var k :| 0 <= k < |idx| && idx[k] == i;
        assert Extractor(s)(ivs[i]).Some?;
      }
    }
  }

  lemma ExtractedAreMeasured(s: Session, ivs: seq<Tagged>, r: seq<ScaledBlock>)
    requires s.Valid()
    requires forall k :: 0 <= k < |r| ==> Produces(ivs, Extractor(s), r[k])
    ensures forall k :: 0 <= k < |r| ==> InsideOneOf(ivs, r[k])
    ensures forall k :: 0 <= k < |r| ==> MeasuredOnOneOf(s, ivs, r[k])
  {
    forall k | 0 <= k < |r|
      ensures InsideOneOf(ivs, r[k]) && MeasuredOnOneOf(s, ivs, r[k])
    {
      var i :| 0 <= i < |ivs| && Extractor(s)(ivs[i]) == Some(r[k]);
      assert MeasuresInterval(s, ivs[i], r[k]);
    }
  }

  lemma LongIntervalsExtracted(s: Session, ivs: seq<Tagged>, r: seq<ScaledBlock>)
    requires s.Valid()
    requires forall i :: 0 <= i < |ivs| && Extractor(s)(ivs[i]).Some? ==> Extractor(s)(ivs[i]).value in r
    ensures forall i :: 0 <= i < |ivs| && LongEnough(s.time, ivs[i].start, ivs[i].end, MinBlockSeconds) ==>
              exists k :: 0 <= k < |r| && MeasuresInterval(s, ivs[i], r[k])
  {
    forall i | 0 <= i < |ivs| && LongEnough(s.time, ivs[i].start, ivs[i].end, MinBlockSeconds)
      ensures exists k :: 0 <= k < |r| && MeasuresInterval(s, ivs[i], r[k])
    {
      var b := Extractor(s)(ivs[i]).value;
      var k :| 0 <= k < |r| && r[k] == b;
    }
  }


  // ----- the whole chain -----

  /** `b` lies inside an effort the detector of its own scale reported. */
  ghost predicate InsideFoundEffort(s: Session, b: ScaledBlock)
    requires s.Valid() && |s.time| > 0
  {
    exists sp :: sp in ScaleEfforts(s, b.scale) && sp.start <= b.block.start && b.block.end <= sp.end
  }

  /** Detection, refinement and extraction as the script's `main` chains
      them: fails only on an empty session; every block lasts at least the
      minimum and lies inside an effort found at its own scale. */
  function MultiScaleBlocks(s: Session): (r: Result<seq<ScaledBlock>>)
    requires s.Valid()
    ensures r.Failure? <==> |s.time| == 0
    ensures r.Success? ==> forall k :: 0 <= k < |r.value| ==>
              r.value[k].block.duration >= MinBlockSeconds && InsideFoundEffort(s, r.value[k])
  {
    var raw :- DetectIntervalsMultiscale(s);
    var refined := RefineIntervals(s, raw);
    var blocks := ExtractBlocks(s, refined);
    BlocksInsideEfforts(s, raw, refined, blocks);
    Success(blocks)
  }

  lemma BlocksInsideEfforts(s: Session, raw: seq<Tagged>, refined: seq<Tagged>, blocks: seq<ScaledBlock>)
    requires s.Valid() && |s.time| > 0
    requires forall x :: x in raw ==> FoundAtScale(s, x)
    requires forall k :: 0 <= k < |refined| ==> TightenedFrom(raw, refined[k])
    requires forall k :: 0 <= k < |blocks| ==> InsideOneOf(refined, blocks[k])
    ensures forall k :: 0 <= k < |blocks| ==>
              blocks[k].block.duration >= MinBlockSeconds && InsideFoundEffort(s, blocks[k])
  {
    forall k | 0 <= k < |blocks|
      ensures InsideFoundEffort(s, blocks[k])
    {
      BlockInsideEffort(s, raw, refined, blocks[k]);
    }
  }

  lemma BlockInsideEffort(s: Session, raw: seq<Tagged>, refined: seq<Tagged>, b: ScaledBlock)
    requires s.Valid() && |s.time| > 0
    requires forall x :: x in raw ==> FoundAtScale(s, x)
    requires forall k :: 0 <= k < |refined| ==> TightenedFrom(raw, refined[k])
    requires InsideOneOf(refined, b)
    ensures InsideFoundEffort(s, b)
  {
    var i :| && 0 <= i < |refined| && refined[i].scale == b.scale
             && refined[i].start <= b.block.start && b.block.end <= refined[i].end;
    var j :| && 0 <= j < |raw| && raw[j].start == refined[i].start && raw[j].scale == refined[i].scale
             && raw[j].start <= refined[i].end <= raw[j].end;
    assert raw[j] in raw;
    var sp := Span(raw[j].start, raw[j].end);
    assert sp in ScaleEfforts(s, b.scale);
  }
}

=== FILE: numbers.dfy ===
/** Exact-real arithmetic used by the analysis: sums, means, maxima and the
    integer conversions Python applies to floats (`int()`, `round()`). */
module Numbers {

  function Sum(xs: seq<real>): real
  {
    if |xs| == 0 then 0.0 else xs[0] + Sum(xs[1..])
  }

  lemma {:induction false} SumAppend(a: seq<real>, b: seq<real>)
    ensures Sum(a + b) == Sum(a) + Sum(b)
  {
    if |a| == 0 {
      assert a + b == b;
    } else {
      assert (a + b)[1..] == a[1..] + b;
      SumAppend(a[1..], b);
    }
  }

  /** A sum of non-negative terms is non-negative. */
  lemma {:induction false} SumNonNegative(xs: seq<real>)
    requires forall i :: 0 <= i < |xs| ==> xs[i] >= 0.0
    ensures Sum(xs) >= 0.0
  {
    if |xs| > 0 {
      SumNonNegative(xs[1..]);
    }
  }

  /** Terms all strictly below `c` sum to strictly less than `|xs| * c`. */
  lemma {:induction false} SumBelow(xs: seq<real>, c: real)
    requires |xs| > 0
    requires forall i :: 0 <= i < |xs| ==> xs[i] < c
    ensures Sum(xs) < |xs| as real * c
  {
    if |xs| > 1 {
      SumBelow(xs[1..], c);
    }
  }

  /** A constant series sums to its length times the constant. */
  lemma {:induction false} SumConstant(xs: seq<real>, v: real)
    requires forall i :: 0 <= i < |xs| ==> xs[i] == v
    ensures Sum(xs) == |xs| as real * v
  {
    if |xs| > 0 {
      SumConstant(xs[1..], v);
    }
  }

  /** pandas `Series.mean()` of a non-empty column. */
  function Mean(xs: seq<real>): real
    requires |xs| > 0
  {
    Sum(xs) / |xs| as real
  }

  /** Some term of a non-empty series reaches its mean. */
  lemma MeanIsReached(xs: seq<real>) returns (i: nat)
    requires |xs| > 0
    ensures i < |xs| && xs[i] >= Mean(xs)
  {
    if forall k :: 0 <= k < |xs| ==> xs[k] < Mean(xs) {
      SumBelow(xs, Mean(xs));
      assert false;
    }
    i :| 0 <= i < |xs| && xs[i] >= Mean(xs);
  }

  lemma MeanNonNegative(xs: seq<real>)
    requires |xs| > 0
    requires forall i :: 0 <= i < |xs| ==> xs[i] >= 0.0
    ensures Mean(xs) >= 0.0
  {
    SumNonNegative(xs);
  }

  lemma MeanConstant(xs: seq<real>, v: real)
    requires |xs| > 0
    requires forall i :: 0 <= i < |xs| ==> xs[i] == v
    ensures Mean(xs) == v
  {
    SumConstant(xs, v);
  }

  /** `max()` of a non-empty series: an upper bound that is one of its terms. */
  function Max(xs: seq<real>): (m: real)
    requires |xs| > 0
    ensures forall i :: 0 <= i < |xs| ==> xs[i] <= m
    ensures m in xs
  {
    if |xs| == 1 then xs[0]
    else
      var rest := Max(xs[1..]);
      assert forall i :: 1 <= i < |xs| ==> xs[i] == xs[1..][i - 1];
      if xs[0] >= rest then xs[0] else rest
  }

  /** Python `int(x)` on a float: truncation toward zero. */
  function Trunc(x: real): (r: int)
    ensures x >= 0.0 ==> r as real <= x < r as real + 1.0
    ensures x < 0.0 ==> r as real - 1.0 < x <= r as real
  {
    if x >= 0.0 then x.Floor else -((-x).Floor)
  }

  /** Python's one-argument `round()` (and numpy's `.round()`): nearest
      integer, ties to the even neighbour. */
  function RoundHalfEven(x: real): (r: int)
    ensures -0.5 <= x - r as real <= 0.5
    ensures (x - r as real == 0.5 || x - r as real == -0.5) ==> r % 2 == 0
  {
    var f := x.Floor;
    var d := x - f as real;
    if d < 0.5 then f
    else if d > 0.5 then f + 1
    else if f % 2 == 0 then f
    else f + 1
  }

  /** The two properties above pin the rounded value down: no other integer
      has them. */
  lemma RoundHalfEvenUnique(x: real, n: int)
    requires -0.5 <= x - n as real <= 0.5
    requires (x - n as real == 0.5 || x - n as real == -0.5) ==> n % 2 == 0
    ensures n == RoundHalfEven(x)
  {
  }

  /** Shifting by an even integer commutes with rounding half to even. */
  lemma RoundShiftEven(x: real, k: int)
    requires k % 2 == 0
    ensures RoundHalfEven(x + k as real) == RoundHalfEven(x) + k
  {
    var r := RoundHalfEven(x);
    assert (r + k) % 2 == 0 <==> r % 2 == 0;
    RoundHalfEvenUnique(x + k as real, r + k);
  }

  /** Python `round(x, 1)`, taken on exact decimals. */
  function Round1(x: real): (r: real)
    ensures -0.05 <= x - r <= 0.05
  {
    RoundHalfEven(x * 10.0) as real / 10.0
  }

  /** A rounding step: a positive number of metres or seconds. */
  type Step = s: int | s > 0 witness 1

  /** `(x / step).round() * step`: the nearest multiple of `step`. */
  function RoundToStep(x: real, step: int): (r: int)
    requires step > 0
    ensures r % step == 0
    ensures -(step as real) / 2.0 <= x - r as real <= step as real / 2.0
  {
    var q := RoundHalfEven(x / step as real);
    ScaleDeviation(x, q, step);
    MultipleMod(q, step);
    q * step
  }

  lemma ScaleDeviation(x: real, q: int, step: int)
    requires step > 0
    requires -0.5 <= x / step as real - q as real <= 0.5
    ensures -(step as real) / 2.0 <= x - (q * step) as real <= step as real / 2.0
  {
    var s := step as real;
    var a := x / s - q as real;
    assert x == (x / s) * s;
    assert (q * step) as real == q as real * s;
    assert x - (q * step) as real == a * s;
    NonNegativeProduct(a + 0.5, s);
    NonNegativeProduct(0.5 - a, s);
  }

  lemma NonNegativeProduct(a: real, b: real)
    requires a >= 0.0 && b >= 0.0
    ensures a * b >= 0.0
  {
  }

  lemma MultipleMod(q: int, step: int)
    requires step > 0
    ensures (q * step) % step == 0
  {
    var r := (q * step) % step;
    var d := (q * step) / step;
    assert step * (q - d) == r;
    if q - d != 0 {
      ProductAwayFromZero(q - d, step);
      assert false;
    }
  }

  lemma {:induction false} ProductAwayFromZero(k: int, step: int)
    requires step > 0 && k != 0
    ensures step * k >= step || step * k <= -step
    decreases if k < 0 then -k else k
  {
    if k > 1 {
      ProductAwayFromZero(k - 1, step);
      assert step * k == step * (k - 1) + step;
    } else if k < -1 {
      ProductAwayFromZero(k + 1, step);
      assert step * k == step * (k + 1) - step;
    }
  }
}

=== FILE: overlap.dfy ===
/** Merging the efforts found at different scales: intervals sorted by
    `(start, end)` are folded into a kept list; an interval whose temporal
    IoU with a kept one reaches the threshold replaces it when strictly
    longer and is dropped otherwise. */
module Overlap {
  import opened Seqs
  import opened Sessions

  /** `(start, end, scale)`: an effort tagged with the scale that found it. */
  datatype Tagged = Tagged(start: real, end: real, scale: Scale)

  function Length(t: Tagged): real
  {
    t.end - t.start
  }

  /** Intersection over union of the two time spans; 0 when the union is
      not positive. */
  function Iou(a: Tagged, b: Tagged): real
  {
    var lo := if a.start >= b.start then a.start else b.start;
    var hi := if a.end <= b.end then a.end else b.end;
    var inter := if hi - lo > 0.0 then hi - lo else 0.0;
    var union := Length(a) + Length(b) - inter;
    if union > 0.0 then inter / union else 0.0
  }

  lemma IouSymmetric(a: Tagged, b: Tagged)
    ensures Iou(a, b) == Iou(b, a)
  {
  }

  /** The default merge threshold. */
  const IouThreshold: real := 0.5

  /** The sort key `(start, end)`, compared as a tuple. */
  predicate LeStartEnd(a: Tagged, b: Tagged)
  {
    a.start < b.start || (a.start == b.start && a.end <= b.end)
  }

  lemma LeStartEndIsTotalPreorder()
    ensures TotalPreorder(LeStartEnd)
  {
  }

  /** The first kept interval overlapping `iv` enough, if any. */
  function FirstOverlap(kept: seq<Tagged>, iv: Tagged, thr: real): (j: nat)
    ensures j <= |kept|
    ensures forall i :: 0 <= i < j ==> Iou(iv, kept[i]) < thr
    ensures j < |kept| ==> Iou(iv, kept[j]) >= thr
  {
    if |kept| == 0 then 0
    else if Iou(iv, kept[0]) >= thr then 0
    else 1 + FirstOverlap(kept[1..], iv, thr)
  }

  /** One step of the merge loop. */
  function Absorb(kept: seq<Tagged>, iv: Tagged, thr: real): (r: seq<Tagged>)
    ensures (forall j :: 0 <= j < |kept| ==> Iou(iv, kept[j]) < thr) ==> r == kept + [iv]
    ensures forall j :: 0 <= j < |kept| && Iou(iv, kept[j]) >= thr
                        && (forall i :: 0 <= i < j ==> Iou(iv, kept[i]) < thr) ==>
              r == (if Length(iv) > Length(kept[j]) then kept[j := iv] else kept)
  {
    var j := FirstOverlap(kept, iv, thr);
    if j == |kept| then kept + [iv]
    else if Length(iv) > Length(kept[j]) then kept[j := iv]
    else kept
  }

  /** A kept slot is only ever replaced by a strictly longer interval, and
      the list grows by at most one. */
  lemma AbsorbOnlyLengthens(kept: seq<Tagged>, iv: Tagged, thr: real)
    ensures var r := Absorb(kept, iv, thr);
            && |kept| <= |r| <= |kept| + 1
            && (forall j :: 0 <= j < |kept| ==> r[j] == kept[j] || (r[j] == iv && Length(iv) > Length(kept[j])))
            && (|r| == |kept| + 1 ==> r[|kept|] == iv)
  {
  }

  /** The merge loop over already sorted intervals. */
  function MergeSorted(ivs: seq<Tagged>, thr: real): (r: seq<Tagged>)
    ensures |r| <= |ivs|
    ensures forall x :: x in r ==> x in ivs
    ensures |ivs| > 0 ==> |r| > 0
  {
    if |ivs| == 0 then []
    else
      var init := ivs[..|ivs| - 1];
      var kept := MergeSorted(init, thr);
      var r := Absorb(kept, ivs[|ivs| - 1], thr);
      assert forall x :: x in init ==> x in ivs;
      r
  }

  /** `_merge_overlaps`: empty input gives empty output; otherwise the
      result is a selection of the inputs, no longer than the input. */
  function MergeOverlaps(ivs: seq<Tagged>, thr: real): (r: seq<Tagged>)
    ensures |ivs| == 0 <==> r == []
    ensures |r| <= |ivs|
    ensures forall x :: x in r ==> x in ivs
  {
    if |ivs| == 0 then []
    else
      var sorted := Sort(ivs, LeStartEnd);
      assert forall x :: x in sorted ==> x in multiset(ivs);
      MergeSorted(sorted, thr)
  }

  lemma SortPair(a: Tagged, b: Tagged)
    ensures Sort([a, b], LeStartEnd) == (if LeStartEnd(a, b) then [a, b] else [b, a])
  {
    assert [a, b][..1] == [a];
    assert Sort([a], LeStartEnd) == Insert([], a, LeStartEnd);
  }

  lemma MergeSortedSingle(x: Tagged, thr: real)
    ensures MergeSorted([x], thr) == [x]
  {
    assert [x][..0] == [];
    assert FirstOverlap([], x, thr) == 0;
  }

  lemma MergeSortedPair(x: Tagged, y: Tagged, thr: real)
    ensures MergeSorted([x, y], thr) == Absorb([x], y, thr)
  {
    var s := [x, y];
    assert s[..|s| - 1] == [x];
    assert MergeSorted(s, thr) == Absorb(MergeSorted(s[..|s| - 1], thr), s[|s| - 1], thr);
    MergeSortedSingle(x, thr);
  }

  lemma AbsorbSingle(x: Tagged, y: Tagged, thr: real)
    ensures Iou(y, x) >= thr ==> Absorb([x], y, thr) == [if Length(y) > Length(x) then y else x]
    ensures Iou(y, x) < thr ==> Absorb([x], y, thr) == [x, y]
  {
    var k := [x];
    assert k[0] == x;
    if Iou(y, x) >= thr {
      assert FirstOverlap(k, y, thr) == 0;
      assert k[0 := y] == [y];
    } else {
      assert FirstOverlap(k, y, thr) == 1;
    }
  }

  /** Of two overlapping intervals in sorted order, the one the merge
      keeps: the second only when strictly longer. */
  function Survivor(first: Tagged, second: Tagged): Tagged
  {
    if Length(second) > Length(first) then second else first
  }

  lemma MergeOfOverlappingSorted(first: Tagged, second: Tagged, thr: real)
    requires Iou(first, second) >= thr
    ensures MergeSorted([first, second], thr) == [Survivor(first, second)]
  {
    IouSymmetric(first, second);
    MergeSortedPair(first, second, thr);
    AbsorbSingle(first, second, thr);
  }

  lemma MergeOfSeparateSorted(first: Tagged, second: Tagged, thr: real)
    requires Iou(first, second) < thr
    ensures MergeSorted([first, second], thr) == [first, second]
  {
    IouSymmetric(first, second);
    MergeSortedPair(first, second, thr);
    AbsorbSingle(first, second, thr);
  }

  /** Two intervals overlapping enough merge into exactly one: the
      strictly longer one, or on equal lengths the one sorted first. */
  lemma MergeOfOverlappingPair(a: Tagged, b: Tagged, thr: real)
    requires Iou(a, b) >= thr
    ensures LeStartEnd(a, b) ==> MergeOverlaps([a, b], thr) == [Survivor(a, b)]
    ensures !LeStartEnd(a, b) ==> MergeOverlaps([a, b], thr) == [Survivor(b, a)]
  {
    if LeStartEnd(a, b) {
      MergeInOrder(a, b, thr);
      MergeOfOverlappingSorted(a, b, thr);
    } else {
      OverlapBothWays(a, b, thr);
      MergeSwapped(a, b, thr);
      MergeOfOverlappingSorted(b, a, thr);
    }
  }

  /** Two intervals overlapping too little are both kept, in sorted
      order. */
  lemma MergeOfSeparatePair(a: Tagged, b: Tagged, thr: real)
    requires Iou(a, b) < thr
    ensures LeStartEnd(a, b) ==> MergeOverlaps([a, b], thr) == [a, b]
    ensures !LeStartEnd(a, b) ==> MergeOverlaps([a, b], thr) == [b, a]
  {
    if LeStartEnd(a, b) {
      MergeInOrder(a, b, thr);
      MergeOfSeparateSorted(a, b, thr);
    } else {
      OverlapBothWays(a, b, thr);
      MergeSwapped(a, b, thr);
      MergeOfSeparateSorted(b, a, thr);
    }
  }

  /** Whether two intervals overlap enough does not depend on their
      order. */
  lemma OverlapBothWays(a: Tagged, b: Tagged, thr: real)
    ensures Iou(a, b) >= thr <==> Iou(b, a) >= thr
  {
    IouSymmetric(a, b);
  }

  /** Two intervals already in `(start, end)` order are merged as they
      come. */
  lemma MergeInOrder(a: Tagged, b: Tagged, thr: real)
    requires LeStartEnd(a, b)
    ensures MergeOverlaps([a, b], thr) == MergeSorted([a, b], thr)
  {
    SortPair(a, b);
  }

  /** Two intervals out of order are swapped before merging. */
  lemma MergeSwapped(a: Tagged, b: Tagged, thr: real)
    requires !LeStartEnd(a, b)
    ensures MergeOverlaps([a, b], thr) == MergeSorted([b, a], thr)
  {
    SortPair(a, b);
  }
}

=== FILE: pace.dfy ===
/** Pace and clock strings: `format_allure` (minutes per km shown as
    `m:ss min/km`), its parser inside `is_fractionne`, `format_time`
    (`mm:ss`), and the fast-pace test of `is_fractionne`. */
module Pace {
  import opened Results
  import opened Numbers
  import opened Text

  const PaceUnit: string := " min/km"

  /** The seconds field `format_allure` prints: the fractional minute
      rounded to whole seconds after the minutes were truncated. */
  function AllureSeconds(minPerKm: real): int
  {
    RoundHalfEven((minPerKm - Trunc(minPerKm) as real) * 60.0)
  }

  /** `format_allure` as written. */
  function FormatAllure(minPerKm: real): string
  {
    IntToString(Trunc(minPerKm)) + ":" + Pad2(AllureSeconds(minPerKm)) + PaceUnit
  }

  /** A pace just under five minutes per km is printed with a seconds field
      of 60: 4.995 min/km is 4 min 59.7 s, and rounding the 59.7 after
      truncating the 4 gives `4:60 min/km` instead of `5:00 min/km`. */
  lemma AllureShowsSixtySeconds()
    ensures AllureSeconds(4.995) == 60
    ensures FormatAllure(4.995) == "4:60 min/km"
  {
    assert Trunc(4.995) == 4;
    assert (4.995 - 4.0) * 60.0 == 59.7;
    assert RoundHalfEven(59.7) == 60;
    assert IntToString(4) == "4";
    assert Pad2(60) == "60" by {
      assert NatToString(60) == NatToString(6) + [DigitChar(0)];
    }
  }

  /** The corrected format: round the whole pace to seconds first, then
      split it into minutes and a seconds field in `[0, 59]`. */
  function FormatPace(minPerKm: real): (s: string)
  {
    var total := RoundHalfEven(minPerKm * 60.0);
    IntToString(total / 60) + ":" + Pad2(total % 60) + PaceUnit
  }

  // ----- parsing a pace back -----

  /** `allure_to_sec` in `is_fractionne`: drop the unit, split on `:` and
      read minutes and seconds; fewer than two fields or a field `int()`
      rejects raise. */
  function AllureToSec(allure: string): (r: Result<int>)
    ensures r.Success? <==>
              var parts := Split(ReplaceAll(allure, PaceUnit, ""), ':');
              |parts| >= 2 && ParseInt(parts[0]).Some? && ParseInt(parts[1]).Some?
    ensures r.Success? ==>
              var parts := Split(ReplaceAll(allure, PaceUnit, ""), ':');
              r.value == ParseInt(parts[0]).value * 60 + ParseInt(parts[1]).value
  {
    var parts := Split(ReplaceAll(allure, PaceUnit, ""), ':');
    if |parts| < 2 then Failure(BadPace)
    else
      match (ParseInt(parts[0]), ParseInt(parts[1]))
      case (Some(m), Some(s)) => Success(m * 60 + s)
      case _ => Failure(BadPace)
  }

  /** A string `m:ss min/km` built from two integers parses back to
      `m * 60 + ss`. */
  lemma ParseMinutesSeconds(m: int, sec: int, head: string, tail: string)
    requires head == IntToString(m) && tail == Pad2(sec)
    ensures AllureToSec(head + ":" + tail + PaceUnit) == Success(m * 60 + sec)
  {
    var a := head + ":" + tail;
    FieldsHaveNoSpace(m, sec, head, tail);
    ReplaceDropsSuffix(a, PaceUnit);
    FieldsSplit(m, sec, head, tail);
    ParseIntToString(m);
    ParsePad2(sec);
    AllureOfFields(a + PaceUnit, head, tail, m, sec);
    assert head + ":" + tail + PaceUnit == a + PaceUnit;
  }

  /** A pace string whose two fields parse reads back as minutes and
      seconds. */
  lemma AllureOfFields(allure: string, head: string, tail: string, m: int, sec: int)
    requires Split(ReplaceAll(allure, PaceUnit, ""), ':') == [head, tail]
    requires ParseInt(head) == Some(m) && ParseInt(tail) == Some(sec)
    ensures AllureToSec(allure) == Success(m * 60 + sec)
  {
  }

  lemma FieldsHaveNoSpace(m: int, sec: int, head: string, tail: string)
    requires head == IntToString(m) && tail == Pad2(sec)
    ensures ' ' !in head + ":" + tail
  {
    var a := head + ":" + tail;
    IntToStringHasNoColonOrSpace(m);
    Pad2HasNoColonOrSpace(sec);
    forall i | 0 <= i < |a|
      ensures a[i] != ' '
    {
      if i < |head| {
        assert a[i] == head[i];
      } else if i > |head| {
        assert a[i] == tail[i - |head| - 1];
      }
    }
  }

  lemma FieldsSplit(m: int, sec: int, head: string, tail: string)
    requires head == IntToString(m) && tail == Pad2(sec)
    ensures Split(head + ":" + tail, ':') == [head, tail]
  {
    IntToStringHasNoColonOrSpace(m);
    Pad2HasNoColonOrSpace(sec);
    SplitFirst(head, ':', tail);
    SplitWithout(tail, ':');
  }

  /** What `is_fractionne` reads back from `format_allure`: whole minutes
      times 60 plus the rounded seconds field. */
  lemma AllureRoundTrip(minPerKm: real)
    ensures AllureToSec(FormatAllure(minPerKm))
         == Success(Trunc(minPerKm) * 60 + AllureSeconds(minPerKm))
  {
    ParseMinutesSeconds(Trunc(minPerKm), AllureSeconds(minPerKm),
                        IntToString(Trunc(minPerKm)), Pad2(AllureSeconds(minPerKm)));
  }

  /** The value read back from `format_allure` is the pace rounded to whole
      seconds: the printed `4:60` still means 300 s. */
  lemma AllureReadsRoundedSeconds(minPerKm: real)
    ensures AllureToSec(FormatAllure(minPerKm)) == Success(RoundHalfEven(minPerKm * 60.0))
  {
    var t := Trunc(minPerKm);
    var frac := (minPerKm - t as real) * 60.0;
    assert RoundHalfEven(minPerKm * 60.0) == t * 60 + AllureSeconds(minPerKm) by {
      SixtyTimesIsEven(t);
      RoundShiftEven(frac, t * 60);
      assert frac + (t * 60) as real == minPerKm * 60.0;
    }
    AllureRoundTrip(minPerKm);
  }

  lemma SixtyTimesIsEven(t: int)
    ensures (t * 60) % 2 == 0
  {
    assert t * 60 == 2 * (t * 30);
  }

  /** The corrected format shows a seconds field in `[0, 59]` and reads back
      to the same number of seconds as `format_allure`. */
  lemma FormatPaceFields(minPerKm: real)
    ensures var total := RoundHalfEven(minPerKm * 60.0);
            && 0 <= total % 60 <= 59
            && AllureToSec(FormatPace(minPerKm)) == Success(total)
            && AllureToSec(FormatPace(minPerKm)) == AllureToSec(FormatAllure(minPerKm))
  {
    FormatPaceReadsBack(minPerKm);
    AllureReadsRoundedSeconds(minPerKm);
  }

  /** The corrected format reads back as the pace rounded to whole
      seconds. */
  lemma FormatPaceReadsBack(minPerKm: real)
    ensures AllureToSec(FormatPace(minPerKm)) == Success(RoundHalfEven(minPerKm * 60.0))
  {
    var total := RoundHalfEven(minPerKm * 60.0);
    var m, sec := total / 60, total % 60;
    assert m * 60 + sec == total;
    ParseMinutesSeconds(m, sec, IntToString(m), Pad2(sec));
    assert FormatPace(minPerKm) == IntToString(m) + ":" + Pad2(sec) + PaceUnit;
  }

  /** The pace shown for a mean speed `v` km/h reads back as `3600 / v`
      seconds per km, rounded. */
  lemma PaceOfSpeed(v: real)
    requires v != 0.0
    ensures AllureToSec(FormatPace(60.0 / v)) == Success(RoundHalfEven(3600.0 / v))
  {
    MinutesToSeconds(v);
    PaceReadsBackAt(60.0 / v, 3600.0 / v);
  }

  /** `FormatPaceReadsBack` with the seconds named. */
  lemma PaceReadsBackAt(minPerKm: real, seconds: real)
    requires minPerKm * 60.0 == seconds
    ensures AllureToSec(FormatPace(minPerKm)) == Success(RoundHalfEven(seconds))
  {
    FormatPaceReadsBack(minPerKm);
  }

  lemma MinutesToSeconds(v: real)
    requires v != 0.0
    ensures (60.0 / v) * 60.0 == 3600.0 / v
  {
  }

  lemma FormatPaceFixesSixty()
    ensures FormatPace(4.995) == "5:00 min/km"
  {
    assert 4.995 * 60.0 == 299.7;
    assert RoundHalfEven(299.7) == 300;
    assert IntToString(5) == "5";
    assert Pad2(0) == "00";
  }

  // ----- mm:ss -----

  /** `format_time`: whole minutes by floor division and whole seconds of
      the remainder, each zero padded to two digits. */
  function ClockFields(seconds: real): (r: (int, int))
    ensures 0 <= r.1 <= 59
    ensures r.0 * 60 + r.1 == seconds.Floor
  {
    var minutes := (seconds / 60.0).Floor;
    var rest := seconds - (minutes * 60) as real;
    assert 0.0 <= rest < 60.0;
    var sec := Trunc(rest);
    assert seconds == (minutes * 60) as real + rest;
    FloorShift(rest, minutes * 60);
    (minutes, sec)
  }

  lemma FloorShift(x: real, k: int)
    requires x >= 0.0
    ensures (x + k as real).Floor == x.Floor + k
  {
  }

  function FormatTime(seconds: real): string
  {
    var f := ClockFields(seconds);
    Pad2(f.0) + ":" + Pad2(f.1)
  }

  /** `format_time` reads back to the whole seconds it was given. */
  lemma FormatTimeRoundTrip(seconds: real)
    ensures var parts := Split(FormatTime(seconds), ':');
            && |parts| == 2
            && ParseInt(parts[0]).Some? && ParseInt(parts[1]).Some?
            && 0 <= ParseInt(parts[1]).value <= 59
            && ParseInt(parts[0]).value * 60 + ParseInt(parts[1]).value == seconds.Floor
  {
    var f := ClockFields(seconds);
    Pad2HasNoColonOrSpace(f.0);
    Pad2HasNoColonOrSpace(f.1);
    SplitFirst(Pad2(f.0), ':', Pad2(f.1));
    SplitWithout(Pad2(f.1), ':');
    ParsePad2(f.0);
    ParsePad2(f.1);
  }

  // ----- is_fractionne -----

  /** The threshold `"m:ss"`: exactly two fields, both integers. */
  function ThresholdSeconds(threshold: string): (r: Result<int>)
    ensures r.Success? <==>
              var parts := Split(threshold, ':');
              |parts| == 2 && ParseInt(parts[0]).Some? && ParseInt(parts[1]).Some?
    ensures r.Success? ==>
              var parts := Split(threshold, ':');
              r.value == ParseInt(parts[0]).value * 60 + ParseInt(parts[1]).value
  {
    var parts := Split(threshold, ':');
    if |parts| != 2 then Failure(BadPace)
    else
      match (ParseInt(parts[0]), ParseInt(parts[1]))
      case (Some(m), Some(s)) => Success(m * 60 + s)
      case _ => Failure(BadPace)
  }

  /** Every pace of the column read back, or the first failure. */
  function AllPaces(allures: seq<string>): (r: Result<seq<int>>)
    ensures r.Success? <==> forall i :: 0 <= i < |allures| ==> AllureToSec(allures[i]).Success?
    ensures r.Success? ==> |r.value| == |allures|
    ensures r.Success? ==> forall i :: 0 <= i < |allures| ==> r.value[i] == AllureToSec(allures[i]).value
  {
    if |allures| == 0 then Success([])
    else
      var head := AllureToSec(allures[0]);
      if head.Failure? then Failure(head.error)
      else
        var rest := AllPaces(allures[1..]);
        if rest.Failure? then
          assert forall i :: 1 <= i < |allures| ==> allures[i] == allures[1..][i - 1];
          Failure(rest.error)
        else
          assert forall i :: 1 <= i < |allures| ==> allures[i] == allures[1..][i - 1];
          Success([head.value] + rest.value)
  }

  function MinInt(xs: seq<int>): (m: int)
    requires |xs| > 0
    ensures forall i :: 0 <= i < |xs| ==> m <= xs[i]
    ensures m in xs
  {
    if |xs| == 1 then xs[0]
    else
      var rest := MinInt(xs[1..]);
      assert forall i :: 1 <= i < |xs| ==> xs[i] == xs[1..][i - 1];
      if xs[0] <= rest then xs[0] else rest
  }

  /** `is_fractionne`: false for an empty summary; otherwise whether the
      fastest pace (fewest seconds per km) is at or under the threshold. */
  function IsFractionne(allures: seq<string>, threshold: string): (r: Result<bool>)
    ensures |allures| == 0 ==> r == Success(false)
    ensures |allures| > 0 ==>
              (r.Success? <==> ThresholdSeconds(threshold).Success?
                               && forall i :: 0 <= i < |allures| ==> AllureToSec(allures[i]).Success?)
    ensures |allures| > 0 && r.Success? ==>
              (r.value <==> exists i :: 0 <= i < |allures|
                                        && AllureToSec(allures[i]).value <= ThresholdSeconds(threshold).value)
  {
    if |allures| == 0 then Success(false)
    else
      var limit :- ThresholdSeconds(threshold);
      var paces :- AllPaces(allures);
      var fastest := MinInt(paces);
      Success(fastest <= limit)
  }

  /** The default threshold `"4:15"` is 255 s per km. */
  lemma DefaultThreshold()
    ensures ThresholdSeconds("4:15") == Success(255)
  {
    SplitFirst("4", ':', "15");
    assert "4" + [':'] + "15" == "4:15";
    SplitWithout("15", ':');
    assert DigitsValue("15") == 15 by {
      assert "15"[..1] == "1";
    }
  }

  /** `is_fractionne` on paces already known to read back as `secs`. */
  lemma FractionneOnReadPaces(allures: seq<string>, secs: seq<int>, threshold: string, t: int)
    requires |allures| == |secs| > 0
    requires forall i :: 0 <= i < |allures| ==> AllureToSec(allures[i]) == Success(secs[i])
    requires ThresholdSeconds(threshold) == Success(t)
    ensures IsFractionne(allures, threshold) == Success(exists i :: 0 <= i < |secs| && secs[i] <= t)
  {
  }

  /** Every pace printed by `format_allure` reads back rounded. */
  lemma FormattedPacesReadBack(paces: seq<real>, allures: seq<string>, secs: seq<int>)
    requires |allures| == |secs| == |paces|
    requires forall i :: 0 <= i < |paces| ==> allures[i] == FormatAllure(paces[i])
    requires forall i :: 0 <= i < |paces| ==> secs[i] == RoundHalfEven(paces[i] * 60.0)
    ensures forall i :: 0 <= i < |allures| ==> AllureToSec(allures[i]) == Success(secs[i])
  {
    forall i | 0 <= i < |paces|
      ensures AllureToSec(allures[i]) == Success(secs[i])
    {
      FormattedPaceReadsBack(paces[i], allures[i], secs[i]);
    }
  }

  lemma FormattedPaceReadsBack(x: real, a: string, sec: int)
    requires a == FormatAllure(x) && sec == RoundHalfEven(x * 60.0)
    ensures AllureToSec(a) == Success(sec)
  {
    AllureReadsRoundedSeconds(x);
  }

  /** On a summary whose paces come from `format_allure`, the session is
      interval training exactly when some group's pace, rounded to whole
      seconds, is at or under 255 s per km. */
  lemma FractionneOnFormattedPaces(paces: seq<real>)
    requires |paces| > 0
    ensures var allures := seq(|paces|, i requires 0 <= i < |paces| => FormatAllure(paces[i]));
            IsFractionne(allures, "4:15")
            == Success(exists i :: 0 <= i < |paces| && RoundHalfEven(paces[i] * 60.0) <= 255)
  {
    var allures := seq(|paces|, i requires 0 <= i < |paces| => FormatAllure(paces[i]));
    var secs := seq(|paces|, i requires 0 <= i < |paces| => RoundHalfEven(paces[i] * 60.0));
    FormattedPacesReadBack(paces, allures, secs);
    DefaultThreshold();
    FractionneOnReadPaces(allures, secs, "4:15", 255);
    assert (exists i :: 0 <= i < |secs| && secs[i] <= 255)
       == (exists i :: 0 <= i < |paces| && RoundHalfEven(paces[i] * 60.0) <= 255);
  }
}

=== FILE: pattern.dfy ===
/** The closing heuristic of the multi-scale analysis: among the blocks
    found at the long scale, the most frequent duration rounded to 15 s
    signals a probable 4 × 4 min session when it is about four minutes and
    repeats at least three times. */
module Pattern {
  import opened Numbers
  import opened Seqs
  import opened Sessions
  import opened Blocks
  import opened Results

  /** Durations are rounded to 15 s. */
  const PatternStep: Step := 15

  /** `longs["dur_round"]`: the rounded durations of the long-scale blocks,
      in table order. */
  function LongDurations(blocks: seq<ScaledBlock>): (r: seq<int>)
    ensures |r| == |Filter(blocks, (b: ScaledBlock) => b.scale == Long)|
    ensures forall k :: 0 <= k < |r| ==> r[k] % 15 == 0
  {
    var longs := Filter(blocks, (b: ScaledBlock) => b.scale == Long);
    seq(|longs|, k requires 0 <= k < |longs| => RoundToStep(longs[k].block.duration, PatternStep))
  }

  /** `a` is preferred to `b` as the mode of `xs`: more frequent, or as
      frequent and smaller. */
  predicate Prefer(xs: seq<int>, a: int, b: int)
  {
    Count(xs, a) > Count(xs, b) || (Count(xs, a) == Count(xs, b) && a <= b)
  }

  /** The preferred value among `cands`. */
  function BestOf(xs: seq<int>, cands: seq<int>): (m: int)
    requires |cands| > 0
    ensures m in cands
    ensures forall k :: 0 <= k < |cands| ==> Prefer(xs, m, cands[k])
  {
    if |cands| == 1 then cands[0]
    else
      var b := BestOf(xs, cands[1..]);
      assert forall k :: 1 <= k < |cands| ==> cands[k] == cands[1..][k - 1];
      if Prefer(xs, cands[0], b) then cands[0] else b
  }

  /** `Series.mode()[0]`: the smallest of the most frequent values. */
  function Mode(xs: seq<int>): (m: int)
    requires |xs| > 0
    ensures m in xs
    ensures forall k :: 0 <= k < |xs| ==> Count(xs, xs[k]) <= Count(xs, m)
    ensures forall k :: 0 <= k < |xs| && Count(xs, xs[k]) == Count(xs, m) ==> m <= xs[k]
  {
    BestOf(xs, xs)
  }

  /** The repetition count and rounded duration of a detected pattern. */
  datatype Detected = Detected(reps: nat, duration: int)

  /** The heuristic: `Some` exactly when the mode of the long durations
      lies in `[210, 270]` and occurs at least three times; on a tie the
      mode is the shorter duration. */
  function FourByFour(blocks: seq<ScaledBlock>): (r: Option<Detected>)
    ensures r.Some? ==>
              var ds := LongDurations(blocks);
              && r.value.reps >= 3 && 210 <= r.value.duration <= 270
              && r.value.reps == Count(ds, r.value.duration)
              && forall k :: 0 <= k < |ds| ==> Count(ds, ds[k]) <= r.value.reps
    ensures (forall k :: 0 <= k < |LongDurations(blocks)| ==>
               Count(LongDurations(blocks), LongDurations(blocks)[k]) < 3) ==> r.None?
    ensures r.Some? ==> |LongDurations(blocks)| > 0 && r.value.duration == Mode(LongDurations(blocks))
    ensures var ds := LongDurations(blocks);
            |ds| > 0 && Count(ds, Mode(ds)) >= 3 && 210 <= Mode(ds) <= 270 ==> r.Some?
  {
    var ds := LongDurations(blocks);
    if |ds| == 0 then None
    else
      var best := Mode(ds);
      var nrep := Count(ds, best);
      if nrep >= 3 && 210 <= best <= 270 then Some(Detected(nrep, best)) else None
  }

  /** A duration of about four minutes that repeats at least three times
      and strictly more often than any other long duration is detected. */
  lemma DominantFourMinutesDetected(blocks: seq<ScaledBlock>, d: int)
    requires var ds := LongDurations(blocks);
             && Count(ds, d) >= 3 && 210 <= d <= 270
             && forall k :: 0 <= k < |ds| && ds[k] != d ==> Count(ds, ds[k]) < Count(ds, d)
    ensures FourByFour(blocks) == Some(Detected(Count(LongDurations(blocks), d), d))
  {
    var ds := LongDurations(blocks);
    CountIsMultiplicity(ds, d);
    assert d in ds;
    var m := Mode(ds);
    var i :| 0 <= i < |ds| && ds[i] == d;
    assert Count(ds, d) <= Count(ds, m);
  }

  /** On a tie the shorter duration is the one reported: a duration of
      about four minutes, repeated at least three times, as frequent as any
      other and shorter than every other as frequent one, is detected. */
  lemma ShortestMostFrequentDetected(blocks: seq<ScaledBlock>, d: int)
    requires var ds := LongDurations(blocks);
             && Count(ds, d) >= 3 && 210 <= d <= 270
             && (forall k :: 0 <= k < |ds| ==> Count(ds, ds[k]) <= Count(ds, d))
             && (forall k :: 0 <= k < |ds| && Count(ds, ds[k]) == Count(ds, d) ==> d <= ds[k])
    ensures FourByFour(blocks) == Some(Detected(Count(LongDurations(blocks), d), d))
  {
    ModeIsShortestMostFrequent(LongDurations(blocks), d);
  }

  /** The mode is the shortest of the most frequent values. */
  lemma ModeIsShortestMostFrequent(ds: seq<int>, d: int)
    requires Count(ds, d) > 0
    requires forall k :: 0 <= k < |ds| ==> Count(ds, ds[k]) <= Count(ds, d)
    requires forall k :: 0 <= k < |ds| && Count(ds, ds[k]) == Count(ds, d) ==> d <= ds[k]
    ensures |ds| > 0 && Mode(ds) == d
  {
    CountIsMultiplicity(ds, d);
    assert d in ds;
    var m := Mode(ds);
    var i :| 0 <= i < |ds| && ds[i] == d;
    var j :| 0 <= j < |ds| && ds[j] == m;
    assert Count(ds, d) <= Count(ds, m) && Count(ds, m) <= Count(ds, d);
  }

  /** A most frequent long duration outside `[210, 270]` rules the pattern
      out, however often it repeats. */
  lemma OffTargetModeNotDetected(blocks: seq<ScaledBlock>, d: int)
    requires var ds := LongDurations(blocks);
             && d in ds && (d < 210 || d > 270)
             && forall k :: 0 <= k < |ds| && ds[k] != d ==> Count(ds, ds[k]) < Count(ds, d)
    ensures FourByFour(blocks) == None
  {
    var ds := LongDurations(blocks);
    var m := Mode(ds);
    var i :| 0 <= i < |ds| && ds[i] == d;
    assert Count(ds, d) <= Count(ds, m);
  }
}

=== FILE: recovery.dfy ===
/** The recovery tables (`analyze_recups` of both analysis scripts): the
    blocks are put in start order, and for every two neighbours of the same
    kind the samples between the end of the first and the start of the
    second give one recovery row. */
module Recovery {
  import opened Results
  import opened Numbers
  import opened Seqs
  import opened Text
  import opened Sessions
  import opened Blocks
  import opened Pace

  /** One row of a recovery table: a title (`entre` or `type`), the
      `durée`, `allure` and `bpm moyen` cells. */
  datatype Recovery = Recovery(title: string, duration: string, pace: string, meanBpm: real)

  // ----- the scan over neighbours -----

  /** `v` is what `row` makes of some pair of neighbours of `xs`. */
  ghost predicate FromNeighbours<T, R>(xs: seq<T>, row: (T, T) -> Option<R>, v: R)
  {
    exists i :: 0 <= i < |xs| - 1 && row(xs[i], xs[i + 1]) == Some(v)
  }

  /** What `row` makes of the pair at position `i`. */
  function PairRow<T, R>(xs: seq<T>, row: (T, T) -> Option<R>, i: nat): Option<R>
    requires i < |xs| - 1
  {
    row(xs[i], xs[i + 1])
  }

  /** The positions `i` whose pair `(xs[i], xs[i + 1])` yields a row, in
      increasing order: each listed position yields one, and every position
      that yields one is listed. */
  ghost function Paired<T, R>(xs: seq<T>, row: (T, T) -> Option<R>): (idx: seq<nat>)
    ensures forall k :: 0 <= k < |idx| ==> idx[k] < |xs| - 1 && PairRow(xs, row, idx[k]).Some?
    ensures forall k, l :: 0 <= k < l < |idx| ==> idx[k] < idx[l]
    ensures forall i: nat :: i < |xs| - 1 && PairRow(xs, row, i).Some? ==> i in idx
    ensures |xs| <= 1 ==> idx == []
    ensures |xs| > 1 ==> |idx| <= |xs| - 1
  {
    if |xs| <= 1 then []
    else
      var rest := Paired(xs[..|xs| - 1], row);
      PairedOfPrefix(xs, row, rest);
      if PairRow(xs, row, |xs| - 2).Some? then rest + [|xs| - 2] else rest
  }

  /** A pair of the prefix without the last element is the same pair of
      the whole sequence. */
  lemma PairOfPrefix<T, R>(xs: seq<T>, row: (T, T) -> Option<R>, i: nat)
    requires i < |xs| - 2
    ensures PairRow(xs[..|xs| - 1], row, i) == PairRow(xs, row, i)
  {
    assert xs[..|xs| - 1][i] == xs[i] && xs[..|xs| - 1][i + 1] == xs[i + 1];
  }

  lemma PairedOfPrefix<T, R>(xs: seq<T>, row: (T, T) -> Option<R>, rest: seq<nat>)
    requires |xs| > 1
    requires forall k :: 0 <= k < |rest| ==> rest[k] < |xs| - 2 && PairRow(xs[..|xs| - 1], row, rest[k]).Some?
    ensures forall k :: 0 <= k < |rest| ==> rest[k] < |xs| - 2 && PairRow(xs, row, rest[k]).Some?
  {
    forall k | 0 <= k < |rest|
      ensures PairRow(xs, row, rest[k]).Some?
    {
      PairOfPrefix(xs, row, rest[k]);
    }
  }

  /** `r` holds one row per pair that yields one, in pair order. */
  ghost predicate RowPerPair<T, R>(xs: seq<T>, row: (T, T) -> Option<R>, r: seq<R>)
  {
    && |r| == |Paired(xs, row)|
    && forall k :: 0 <= k < |r| ==> PairRow(xs, row, Paired(xs, row)[k]) == Some(r[k])
  }

  /** `for i in range(len(tmp) - 1)` over the pairs `(tmp[i], tmp[i + 1])`,
      appending a row whenever `row` yields one. */
  function NeighbourRows<T, R>(xs: seq<T>, row: (T, T) -> Option<R>): (r: seq<R>)
    ensures |xs| <= 1 ==> r == []
    ensures |xs| > 1 ==> |r| <= |xs| - 1
    ensures forall k :: 0 <= k < |r| ==> FromNeighbours(xs, row, r[k])
    ensures forall i :: 0 <= i < |xs| - 1 && row(xs[i], xs[i + 1]).Some? ==> row(xs[i], xs[i + 1]).value in r
    ensures RowPerPair(xs, row, r)
  {
    if |xs| <= 1 then []
    else
      var rest := NeighbourRows(xs[..|xs| - 1], row);
      var r := if PairRow(xs, row, |xs| - 2).Some? then rest + [PairRow(xs, row, |xs| - 2).value] else rest;
      RowPerPairStep(xs, row, rest, r);
      RowPerPairRows(xs, row, r);
      r
  }

  /** What one row per yielding pair, in order, implies: every row comes
      from a pair of neighbours, and every yielding pair's row is there. */
  lemma RowPerPairRows<T, R>(xs: seq<T>, row: (T, T) -> Option<R>, r: seq<R>)
    requires RowPerPair(xs, row, r)
    ensures |xs| <= 1 ==> r == []
    ensures |xs| > 1 ==> |r| <= |xs| - 1
    ensures forall k :: 0 <= k < |r| ==> FromNeighbours(xs, row, r[k])
    ensures forall i :: 0 <= i < |xs| - 1 && row(xs[i], xs[i + 1]).Some? ==> row(xs[i], xs[i + 1]).value in r
  {
    var idx := Paired(xs, row);
    forall k | 0 <= k < |r|
      ensures FromNeighbours(xs, row, r[k])
    {
      assert PairRow(xs, row, idx[k]) == Some(r[k]);
    }
    forall i | 0 <= i < |xs| - 1 && row(xs[i], xs[i + 1]).Some?
      ensures row(xs[i], xs[i + 1]).value in r
    {
      assert PairRow(xs, row, i).Some?;
      var k :| 0 <= k < |idx| && idx[k] == i;
      assert PairRow(xs, row, idx[k]) == Some(r[k]);
    }
  }

  /** One step of `NeighbourRows`: the rows of the prefix, followed by the
      last pair's row when it yields one. */
  lemma RowPerPairStep<T, R>(xs: seq<T>, row: (T, T) -> Option<R>, rest: seq<R>, r: seq<R>)
    requires |xs| > 1
    requires RowPerPair(xs[..|xs| - 1], row, rest)
    requires r == if PairRow(xs, row, |xs| - 2).Some? then rest + [PairRow(xs, row, |xs| - 2).value] else rest
    ensures RowPerPair(xs, row, r)
  {
    var idx := Paired(xs[..|xs| - 1], row);
    var all := Paired(xs, row);
    assert all == if PairRow(xs, row, |xs| - 2).Some? then idx + [|xs| - 2] else idx;
    forall k | 0 <= k < |r|
      ensures PairRow(xs, row, all[k]) == Some(r[k])
    {
      if k < |rest| {
        assert all[k] == idx[k] && r[k] == rest[k];
        PairOfPrefix(xs, row, idx[k]);
      } else {
        assert all[k] == |xs| - 2;
      }
    }
  }

  // ----- the recovery segment -----

  /** The `allure` cell: the pace of a positive mean speed, `N/A`
      otherwise. */
  function PaceText(v: real): (s: string)
    ensures v > 0.0 ==> AllureToSec(s) == Success(RoundHalfEven(3600.0 / v))
    ensures s == "N/A" <==> v <= 0.0
  {
    if v > 0.0 then
      PaceOfSpeed(v);
      assert |FormatPace(60.0 / v)| >= |PaceUnit|;
      FormatPace(60.0 / v)
    else "N/A"
  }

  /** The row for the samples `w` of a recovery: the duration from the
      first to the last of them, rounded half to even, the pace of their
      mean speed and their mean heart rate rounded to one decimal. */
  function SegmentRow(title: string, times: seq<real>, speeds: seq<real>, bpms: seq<real>, w: seq<nat>): (r: Recovery)
    requires |times| == |speeds| == |bpms|
    requires |w| > 0 && IndicesBelow(w, |times|)
    ensures r.title == title
    ensures r.duration == IntToString(RoundHalfEven(times[w[|w| - 1]] - times[w[0]])) + " s"
    ensures r.pace == "N/A" <==> Mean(Pick(speeds, w)) <= 0.0
    ensures Mean(Pick(speeds, w)) > 0.0 ==>
              AllureToSec(r.pace) == Success(RoundHalfEven(3600.0 / Mean(Pick(speeds, w))))
    ensures -0.05 <= Mean(Pick(bpms, w)) - r.meanBpm <= 0.05
  {
    Recovery(title, IntToString(RoundHalfEven(times[w[|w| - 1]] - times[w[0]])) + " s",
             PaceText(Mean(Pick(speeds, w))), Round1(Mean(Pick(bpms, w))))
  }

  /** The row for the samples between `cur.end` and `nxt.start`, both
      included; none when no sample falls there. The first and last of
      those samples are the extreme ones (`WindowEnds`). */
  function GapRecovery(title: string, times: seq<real>, speeds: seq<real>, bpms: seq<real>,
                       cur: Block, nxt: Block): (r: Option<Recovery>)
    requires |times| == |speeds| == |bpms|
    ensures r.None? <==> forall k :: !InWindow(times, cur.end, nxt.start, k)
    ensures r.Some? ==> r.value == SegmentRow(title, times, speeds, bpms, Window(times, cur.end, nxt.start))
  {
    var w := Window(times, cur.end, nxt.start);
    WindowEnds(times, cur.end, nxt.start);
    if |w| == 0 then None
    else Some(SegmentRow(title, times, speeds, bpms, w))
  }

  /** The first and last rows of a non-empty window are its extreme rows. */
  lemma WindowEnds(times: seq<real>, lo: real, hi: real)
    ensures var w := Window(times, lo, hi);
            |w| > 0 ==> FirstAndLastIn(times, lo, hi, w[0], w[|w| - 1])
    ensures var w := Window(times, lo, hi);
            |w| == 0 <==> forall k :: !InWindow(times, lo, hi, k)
  {
    var w := Window(times, lo, hi);
    if |w| > 0 {
      assert InWindow(times, lo, hi, w[0]);
      forall k | InWindow(times, lo, hi, k)
        ensures w[0] <= k <= w[|w| - 1]
      {
        assert k in w;
      }
    }
  }

  // ----- multi-scale recoveries -----

  /** `tol_map.get(scale, 10)`. */
  function StepFor(tolMap: map<Scale, Step>, s: Scale): Step
  {
    if s in tolMap then tolMap[s] else 10
  }

  /** `_round_with_scale`: the duration rounded to the step of its scale. */
  function RoundWithScale(value: real, s: Scale, tolMap: map<Scale, Step>): (r: int)
    ensures r % StepFor(tolMap, s) == 0
    ensures -(StepFor(tolMap, s) as real) / 2.0 <= value - r as real <= StepFor(tolMap, s) as real / 2.0
  {
    RoundToStep(value, StepFor(tolMap, s))
  }

  /** A scale missing from the tolerance map is rounded to 10 s. */
  lemma UnknownScaleRoundsToTen(value: real, s: Scale, tolMap: map<Scale, Step>)
    requires s !in tolMap
    ensures RoundWithScale(value, s, tolMap) % 10 == 0
    ensures -5.0 <= value - RoundWithScale(value, s, tolMap) as real <= 5.0
  {
  }

  /** With the default map a block's key is a multiple of 5, 10 or 15 s
      for the short, medium and long scales. */
  lemma DefaultGroupingSteps(value: real)
    ensures RoundWithScale(value, Short, DurationGrouping) % 5 == 0
    ensures RoundWithScale(value, Medium, DurationGrouping) % 10 == 0
    ensures RoundWithScale(value, Long, DurationGrouping) % 15 == 0
  {
    assert StepFor(DurationGrouping, Short) == 5;
    assert StepFor(DurationGrouping, Medium) == 10;
    assert StepFor(DurationGrouping, Long) == 15;
  }

  /** The `grp_key` of a block. */
  function GroupKey(tolMap: map<Scale, Step>, b: ScaledBlock): int
  {
    RoundWithScale(b.block.duration, b.scale, tolMap)
  }

  /** Two neighbours of the same kind, with samples between them. */
  predicate SimilarNeighbours(s: Session, tolMap: map<Scale, Step>, cur: ScaledBlock, nxt: ScaledBlock)
  {
    && GroupKey(tolMap, cur) == GroupKey(tolMap, nxt)
    && exists k :: 0 <= k < |s.time| && InWindow(s.time, cur.block.end, nxt.block.start, k)
  }

  /** The row for one pair of neighbours, read on the first block's scale
      channels and titled with its rounded duration. */
  function MultiScalePair(s: Session, tolMap: map<Scale, Step>, cur: ScaledBlock, nxt: ScaledBlock): (r: Option<Recovery>)
    requires s.Valid()
    ensures r.Some? <==> SimilarNeighbours(s, tolMap, cur, nxt)
    ensures r.Some? ==> r.value.title == IntToString(RoundHalfEven(cur.block.duration)) + "s"
  {
    if GroupKey(tolMap, cur) != GroupKey(tolMap, nxt) then None
    else GapRecovery(IntToString(RoundHalfEven(cur.block.duration)) + "s",
                     s.time, s.SpeedOf(cur.scale), s.BpmOf(cur.scale), cur.block, nxt.block)
  }

  function MultiScalePairs(s: Session, tolMap: map<Scale, Step>): (ScaledBlock, ScaledBlock) -> Option<Recovery>
    requires s.Valid()
  {
    (cur: ScaledBlock, nxt: ScaledBlock) => MultiScalePair(s, tolMap, cur, nxt)
  }

  predicate LeScaledStart(a: ScaledBlock, b: ScaledBlock)
  {
    a.block.start <= b.block.start
  }

  lemma LeScaledStartIsTotalPreorder()
    ensures TotalPreorder(LeScaledStart)
  {
  }

  /** `r` holds one row per pair of neighbours of `sorted` of the same
      kind with samples between them, in pair order: the `k`-th row is the
      one of the `k`-th such pair. */
  ghost predicate OneRowPerSimilarPair(s: Session, tolMap: map<Scale, Step>, sorted: seq<ScaledBlock>, r: seq<Recovery>)
    requires s.Valid()
  {
    var pairs := Paired(sorted, MultiScalePairs(s, tolMap));
    && |r| == |pairs|
    && (forall k :: 0 <= k < |r| ==> MultiScalePair(s, tolMap, sorted[pairs[k]], sorted[pairs[k] + 1]) == Some(r[k]))
    && (forall i :: 0 <= i < |sorted| - 1 ==> (i in pairs <==> SimilarNeighbours(s, tolMap, sorted[i], sorted[i + 1])))
  }

  /** `analyze_recups` of the multi-scale analysis: at most one row per
      pair of neighbours in start order, a row exactly for the neighbours
      of the same kind with samples between them. */
  function MultiScaleRecoveries(s: Session, blocks: seq<ScaledBlock>, tolMap: map<Scale, Step>): (r: seq<Recovery>)
    requires s.Valid()
    ensures |blocks| <= 1 ==> r == []
    ensures |blocks| > 1 ==> |r| <= |blocks| - 1
    ensures var sorted := Sort(blocks, LeScaledStart);
            && (forall k :: 0 <= k < |r| ==> FromNeighbours(sorted, MultiScalePairs(s, tolMap), r[k]))
            && (forall i :: 0 <= i < |sorted| - 1 && SimilarNeighbours(s, tolMap, sorted[i], sorted[i + 1]) ==>
                  MultiScalePair(s, tolMap, sorted[i], sorted[i + 1]).value in r)
    ensures OneRowPerSimilarPair(s, tolMap, Sort(blocks, LeScaledStart), r)
  {
    var sorted := Sort(blocks, LeScaledStart);
    var r := NeighbourRows(sorted, MultiScalePairs(s, tolMap));
    MultiScaleRowPerPair(s, tolMap, sorted, r);
    r
  }

  lemma MultiScaleRowPerPair(s: Session, tolMap: map<Scale, Step>, sorted: seq<ScaledBlock>, r: seq<Recovery>)
    requires s.Valid()
    requires RowPerPair(sorted, MultiScalePairs(s, tolMap), r)
    ensures OneRowPerSimilarPair(s, tolMap, sorted, r)
  {
    var pairs := Paired(sorted, MultiScalePairs(s, tolMap));
    forall k | 0 <= k < |r|
      ensures MultiScalePair(s, tolMap, sorted[pairs[k]], sorted[pairs[k] + 1]) == Some(r[k])
    {
      assert PairRow(sorted, MultiScalePairs(s, tolMap), pairs[k]) == Some(r[k]);
    }
    forall i | 0 <= i < |sorted| - 1
      ensures i in pairs <==> SimilarNeighbours(s, tolMap, sorted[i], sorted[i + 1])
    {
      assert PairRow(sorted, MultiScalePairs(s, tolMap), i) == MultiScalePair(s, tolMap, sorted[i], sorted[i + 1]);
      if i in pairs {
        var k :| 0 <= k < |pairs| && pairs[k] == i;
      }
    }
  }

  lemma MultiScaleRecoveriesInStartOrder(blocks: seq<ScaledBlock>)
    ensures SortedBy(Sort(blocks, LeScaledStart), LeScaledStart)
  {
    LeScaledStartIsTotalPreorder();
    SortSorted(blocks, LeScaledStart);
  }

  // ----- single-scale recoveries -----

  /** `distance_round`: the distance rounded to `roundTo` metres. */
  function DistanceRound(roundTo: Step, b: Block): int
  {
    RoundToStep(b.distance, roundTo)
  }

  predicate SameDistanceNeighbours(t: Series, roundTo: Step, cur: Block, nxt: Block)
  {
    && DistanceRound(roundTo, cur) == DistanceRound(roundTo, nxt)
    && exists k :: 0 <= k < |t.time| && InWindow(t.time, cur.end, nxt.start, k)
  }

  /** The row for one pair of neighbours, titled with their common
      rounded distance. */
  function SingleScalePair(t: Series, roundTo: Step, cur: Block, nxt: Block): (r: Option<Recovery>)
    requires t.Valid()
    ensures r.Some? <==> SameDistanceNeighbours(t, roundTo, cur, nxt)
    ensures r.Some? ==> r.value.title == "Récup entre " + IntToString(DistanceRound(roundTo, cur)) + " m"
    ensures r.Some? ==> DistanceRound(roundTo, cur) % roundTo == 0
  {
    if DistanceRound(roundTo, cur) != DistanceRound(roundTo, nxt) then None
    else GapRecovery("Récup entre " + IntToString(DistanceRound(roundTo, cur)) + " m",
                     t.time, t.speed, t.bpm, cur, nxt)
  }

  function SingleScalePairs(t: Series, roundTo: Step): (Block, Block) -> Option<Recovery>
    requires t.Valid()
  {
    (cur: Block, nxt: Block) => SingleScalePair(t, roundTo, cur, nxt)
  }

  predicate LeStart(a: Block, b: Block)
  {
    a.start <= b.start
  }

  lemma LeStartIsTotalPreorder()
    ensures TotalPreorder(LeStart)
  {
  }

  /** The default rounding of `analyze_recups`: 50 m. */
  const RecoveryStep: Step := 50

  /** `r` holds one row per pair of neighbours of `sorted` of equal
      rounded distance with samples between them, in pair order: the `k`-th
      row is the one of the `k`-th such pair. */
  ghost predicate OneRowPerSameDistancePair(t: Series, roundTo: Step, sorted: seq<Block>, r: seq<Recovery>)
    requires t.Valid()
  {
    var pairs := Paired(sorted, SingleScalePairs(t, roundTo));
    && |r| == |pairs|
    && (forall k :: 0 <= k < |r| ==> SingleScalePair(t, roundTo, sorted[pairs[k]], sorted[pairs[k] + 1]) == Some(r[k]))
    && (forall i :: 0 <= i < |sorted| - 1 ==> (i in pairs <==> SameDistanceNeighbours(t, roundTo, sorted[i], sorted[i + 1])))
  }

  /** `analyze_recups` of the single-scale session analysis. */
  function SingleScaleRecoveries(t: Series, blocks: seq<Block>, roundTo: Step): (r: seq<Recovery>)
    requires t.Valid()
    ensures |blocks| <= 1 ==> r == []
    ensures |blocks| > 1 ==> |r| <= |blocks| - 1
    ensures var sorted := Sort(blocks, LeStart);
            && (forall k :: 0 <= k < |r| ==> FromNeighbours(sorted, SingleScalePairs(t, roundTo), r[k]))
            && (forall i :: 0 <= i < |sorted| - 1 && SameDistanceNeighbours(t, roundTo, sorted[i], sorted[i + 1]) ==>
                  SingleScalePair(t, roundTo, sorted[i], sorted[i + 1]).value in r)
    ensures OneRowPerSameDistancePair(t, roundTo, Sort(blocks, LeStart), r)
  {
    var sorted := Sort(blocks, LeStart);
    var r := NeighbourRows(sorted, SingleScalePairs(t, roundTo));
    SingleScaleRowPerPair(t, roundTo, sorted, r);
    r
  }

  lemma SingleScaleRowPerPair(t: Series, roundTo: Step, sorted: seq<Block>, r: seq<Recovery>)
    requires t.Valid()
    requires RowPerPair(sorted, SingleScalePairs(t, roundTo), r)
    ensures OneRowPerSameDistancePair(t, roundTo, sorted, r)
  {
    var pairs := Paired(sorted, SingleScalePairs(t, roundTo));
    forall k | 0 <= k < |r|
      ensures SingleScalePair(t, roundTo, sorted[pairs[k]], sorted[pairs[k] + 1]) == Some(r[k])
    {
      assert PairRow(sorted, SingleScalePairs(t, roundTo), pairs[k]) == Some(r[k]);
    }
    forall i | 0 <= i < |sorted| - 1
      ensures i in pairs <==> SameDistanceNeighbours(t, roundTo, sorted[i], sorted[i + 1])
    {
      assert PairRow(sorted, SingleScalePairs(t, roundTo), i) == SingleScalePair(t, roundTo, sorted[i], sorted[i + 1]);
      if i in pairs {
        var k :| 0 <= k < |pairs| && pairs[k] == i;
      }
    }
  }

  lemma SingleScaleRecoveriesInStartOrder(blocks: seq<Block>)
    ensures SortedBy(Sort(blocks, LeStart), LeStart)
  {
    LeStartIsTotalPreorder();
    SortSorted(blocks, LeStart);
  }
}

=== FILE: results.dfy ===
/** Failure-compatible wrappers shared by every stage of the pipeline.
    The Python code signals failure by raising; the model returns `Failure`
    with the kind of exception the code would have raised. */
module Results {

  datatype Option<+T> = None | Some(value: T)

  /** The exceptional outcomes the analysis code can reach. */
  datatype Error =
    | MissingColumns        // filter_by_cardio: a required column is absent
    | LengthMismatch        // pandas.DataFrame built from columns of unequal length
    | EmptySeries           // numpy nanmax / nanmean over an empty channel
    | ZeroSpeed             // 60 / mean speed with a zero mean: int(inf) overflows
    | BadPace               // a pace string that int() or the unpacking rejects

  datatype Result<+T> = Success(value: T) | Failure(error: Error) {
    predicate IsFailure() { Failure? }

    function PropagateFailure<U>(): Result<U>
      requires Failure?
    {
      Failure(error)
    }

    function Extract(): T
      requires Success?
    {
      value
    }
  }
}

=== FILE: seqs.dfy ===
/** Sequence utilities standing in for the pandas operations the analysis
    uses: boolean-mask row selection, column picks and `sort_values`. */
module Seqs {
  import opened Results

  predicate StrictlyIncreasing(s: seq<real>)
  {
    forall i, j :: 0 <= i < j < |s| ==> s[i] < s[j]
  }

  predicate NonDecreasing(s: seq<real>)
  {
    forall i, j :: 0 <= i < j < |s| ==> s[i] <= s[j]
  }

  predicate AscendingIndices(w: seq<nat>)
  {
    forall a, b :: 0 <= a < b < |w| ==> w[a] < w[b]
  }

  predicate IndicesBelow(w: seq<nat>, n: nat)
  {
    forall k :: 0 <= k < |w| ==> w[k] < n
  }

  /** Rows among the first `n` whose time lies in `[lo, hi]`, in row order:
      the mask `(time_s >= lo) & (time_s <= hi)` restricted to a prefix. */
  function WindowUpTo(times: seq<real>, lo: real, hi: real, n: nat): (w: seq<nat>)
    requires n <= |times|
    ensures IndicesBelow(w, n) && AscendingIndices(w)
    ensures forall k :: 0 <= k < |w| ==> lo <= times[w[k]] <= hi
    ensures forall i :: 0 <= i < n && lo <= times[i] <= hi ==> i in w
  {
    if n == 0 then []
    else
      var w := WindowUpTo(times, lo, hi, n - 1);
      if lo <= times[n - 1] <= hi then w + [n - 1] else w
  }

  /** `df[(df["time_s"] >= lo) & (df["time_s"] <= hi)]`, as row indices. */
  function Window(times: seq<real>, lo: real, hi: real): (w: seq<nat>)
    ensures IndicesBelow(w, |times|) && AscendingIndices(w)
    ensures forall k :: 0 <= k < |w| ==> lo <= times[w[k]] <= hi
    ensures forall i :: 0 <= i < |times| && lo <= times[i] <= hi ==> i in w
  {
    WindowUpTo(times, lo, hi, |times|)
  }

  /** A column restricted to the selected rows. */
  function Pick(col: seq<real>, w: seq<nat>): (r: seq<real>)
    requires IndicesBelow(w, |col|)
    ensures |r| == |w|
    ensures forall k :: 0 <= k < |w| ==> r[k] == col[w[k]]
  {
    seq(|w|, k requires 0 <= k < |w| => col[w[k]])
  }

  // ----- sorting -----

  ghost predicate TotalPreorder<T(!new)>(le: (T, T) -> bool)
  {
    && (forall a, b :: le(a, b) || le(b, a))
    && (forall a, b, c :: le(a, b) && le(b, c) ==> le(a, c))
  }

  predicate SortedBy<T>(s: seq<T>, le: (T, T) -> bool)
  {
    forall i, j :: 0 <= i < j < |s| ==> le(s[i], s[j])
  }

  /** Inserts `x` after every trailing element that is not above it, so
      elements that compare equal keep their input order. */
  function Insert<T>(s: seq<T>, x: T, le: (T, T) -> bool): (r: seq<T>)
    ensures multiset(r) == multiset(s) + multiset{x}
    ensures |r| == |s| + 1
  {
    if |s| == 0 then [x]
    else if le(s[|s| - 1], x) then s + [x]
    else
      var init := s[..|s| - 1];
      assert s == init + [s[|s| - 1]];
      Insert(init, x, le) + [s[|s| - 1]]
  }

  /** Stable insertion sort: Python's `sorted` and the model's
      `sort_values`. */
  function Sort<T>(xs: seq<T>, le: (T, T) -> bool): (r: seq<T>)
    ensures multiset(r) == multiset(xs)
    ensures |r| == |xs|
  {
    if |xs| == 0 then []
    else
      var init := xs[..|xs| - 1];
      assert xs == init + [xs[|xs| - 1]];
      Insert(Sort(init, le), xs[|xs| - 1], le)
  }

  lemma {:induction false} InsertSorted<T(!new)>(s: seq<T>, x: T, le: (T, T) -> bool)
    requires TotalPreorder(le)
    requires SortedBy(s, le)
    ensures SortedBy(Insert(s, x, le), le)
  {
    if |s| == 0 {
    } else if le(s[|s| - 1], x) {
      var r := s + [x];
      forall i, j | 0 <= i < j < |r|
        ensures le(r[i], r[j])
      {
        if j == |s| && i < |s| - 1 {
          assert le(s[i], s[|s| - 1]);
        }
      }
    } else {
      var init := s[..|s| - 1];
      var last := s[|s| - 1];
      assert le(x, last);
      InsertSorted(init, x, le);
      var m := Insert(init, x, le);
      var r := m + [last];
      forall i, j | 0 <= i < j < |r|
        ensures le(r[i], r[j])
      {
        if j == |m| {
          assert r[i] in multiset(m);
          assert r[i] in multiset(init) || r[i] == x;
          if r[i] != x {
            var k :| 0 <= k < |init| && init[k] == r[i];
            assert le(s[k], s[|s| - 1]);
          }
        }
      }
    }
  }

  lemma {:induction false} SortSorted<T(!new)>(xs: seq<T>, le: (T, T) -> bool)
    requires TotalPreorder(le)
    ensures SortedBy(Sort(xs, le), le)
  {
    if |xs| > 0 {
      var init := xs[..|xs| - 1];
      SortSorted(init, le);
      InsertSorted(Sort(init, le), xs[|xs| - 1], le);
    }
  }

  /** A property of every element survives sorting. */
  lemma SortKeepsProperty<T>(xs: seq<T>, le: (T, T) -> bool, p: T -> bool)
    requires forall i :: 0 <= i < |xs| ==> p(xs[i])
    ensures forall i :: 0 <= i < |Sort(xs, le)| ==> p(Sort(xs, le)[i])
  {
    var sorted := Sort(xs, le);
    forall i | 0 <= i < |sorted|
      ensures p(sorted[i])
    {
      assert sorted[i] in multiset(sorted);
      var j :| 0 <= j < |xs| && xs[j] == sorted[i];
    }
  }

  // ----- distinctness and counting -----

  /** No value occurs twice. */
  ghost predicate Distinct<T(!new)>(s: seq<T>)
  {
    forall x :: multiset(s)[x] <= 1
  }

  lemma DistinctTail<T(!new)>(s: seq<T>)
    requires |s| > 0 && Distinct(s)
    ensures Distinct(s[1..]) && s[0] !in s[1..]
  {
    assert s == [s[0]] + s[1..];
    assert multiset(s) == multiset{s[0]} + multiset(s[1..]);
    assert multiset(s)[s[0]] == 1 + multiset(s[1..])[s[0]];
    forall x
      ensures multiset(s[1..])[x] <= 1
    {
      assert multiset(s)[x] >= multiset(s[1..])[x];
    }
  }

  /** Number of elements of `s` equal to `x`. */
  function Count<T(==)>(s: seq<T>, x: T): nat
  {
    if |s| == 0 then 0 else (if s[0] == x then 1 else 0) + Count(s[1..], x)
  }

  lemma {:induction false} CountIsMultiplicity<T>(s: seq<T>, x: T)
    ensures Count(s, x) == multiset(s)[x]
  {
    if |s| > 0 {
      assert s == [s[0]] + s[1..];
      CountIsMultiplicity(s[1..], x);
    }
  }

  /** Two positions of a repetition-free sequence hold different values. */
  lemma DistinctIndices<T(!new)>(s: seq<T>, i: nat, j: nat)
    requires Distinct(s) && i < |s| && j < |s| && i != j
    ensures s[i] != s[j]
  {
    if i < j {
      Occurrences(s, i, j);
    } else {
      Occurrences(s, j, i);
    }
  }

  lemma Occurrences<T>(s: seq<T>, i: nat, j: nat)
    requires i < j < |s|
    ensures multiset(s)[s[i]] >= if s[i] == s[j] then 2 else 1
  {
    assert s == s[..i] + [s[i]] + s[i + 1..j] + [s[j]] + s[j + 1..];
  }

  // ----- filtering -----

  /** The elements satisfying `p`, in order: a boolean-mask selection. */
  function Filter<T>(xs: seq<T>, p: T -> bool): (r: seq<T>)
    ensures |r| <= |xs|
    ensures forall i :: 0 <= i < |r| ==> r[i] in xs && p(r[i])
    ensures forall i :: 0 <= i < |xs| && p(xs[i]) ==> xs[i] in r
    ensures multiset(r) <= multiset(xs)
  {
    if |xs| == 0 then []
    else
      var rest := Filter(xs[1..], p);
      var r := if p(xs[0]) then [xs[0]] + rest else rest;
      FilterStep(xs, p, rest, r);
      r
  }

  /** One step of `Filter`: the head is kept or dropped in front of a
      selection of the tail. */
  lemma FilterStep<T>(xs: seq<T>, p: T -> bool, rest: seq<T>, r: seq<T>)
    requires |xs| > 0
    requires |rest| <= |xs| - 1
    requires forall i :: 0 <= i < |rest| ==> p(rest[i])
    requires forall i :: 1 <= i < |xs| && p(xs[i]) ==> xs[i] in rest
    requires multiset(rest) <= multiset(xs[1..])
    requires r == if p(xs[0]) then [xs[0]] + rest else rest
    ensures |r| <= |xs|
    ensures forall i :: 0 <= i < |r| ==> r[i] in xs && p(r[i])
    ensures forall i :: 0 <= i < |xs| && p(xs[i]) ==> xs[i] in r
    ensures multiset(r) <= multiset(xs)
  {
    assert xs == [xs[0]] + xs[1..];
    assert multiset(xs) == multiset{xs[0]} + multiset(xs[1..]);
    if p(xs[0]) {
      assert multiset(r) == multiset{xs[0]} + multiset(rest);
    }
    forall i | 0 <= i < |r|
      ensures r[i] in xs && p(r[i])
    {
      assert r[i] in multiset(r);
    }
  }

  /** `Filter` on a non-empty sequence, one step. */
  lemma FilterUnfolds<T>(xs: seq<T>, p: T -> bool)
    requires |xs| > 0
    ensures Filter(xs, p) == if p(xs[0]) then [xs[0]] + Filter(xs[1..], p) else Filter(xs[1..], p)
  {
  }

  /** Selecting twice with the same mask selects nothing more. */
  lemma {:induction false} FilterIdempotent<T>(xs: seq<T>, p: T -> bool)
    ensures Filter(Filter(xs, p), p) == Filter(xs, p)
  {
    if |xs| > 0 {
      FilterIdempotent(xs[1..], p);
      var rest := Filter(xs[1..], p);
      if p(xs[0]) {
        assert ([xs[0]] + rest)[1..] == rest;
      }
    }
  }

  /** A mask every element passes keeps the sequence whole. */
  lemma {:induction false} FilterKeepsAll<T>(xs: seq<T>, p: T -> bool)
    requires forall i :: 0 <= i < |xs| ==> p(xs[i])
    ensures Filter(xs, p) == xs
  {
    if |xs| > 0 {
      FilterKeepsAll(xs[1..], p);
      assert xs == [xs[0]] + xs[1..];
    }
  }

  // ----- integer totals -----

  function SumBy<T>(xs: seq<T>, f: T -> int): int
  {
    if |xs| == 0 then 0 else f(xs[0]) + SumBy(xs[1..], f)
  }

  lemma {:induction false} SumByAppend<T>(a: seq<T>, b: seq<T>, f: T -> int)
    ensures SumBy(a + b, f) == SumBy(a, f) + SumBy(b, f)
  {
    if |a| == 0 {
      assert a + b == b;
    } else {
      assert (a + b)[1..] == a[1..] + b;
      SumByAppend(a[1..], b, f);
    }
  }

  lemma {:induction false} SumByInsert<T>(s: seq<T>, x: T, le: (T, T) -> bool, f: T -> int)
    ensures SumBy(Insert(s, x, le), f) == SumBy(s, f) + f(x)
  {
    if |s| == 0 {
    } else if le(s[|s| - 1], x) {
      SumByAppend(s, [x], f);
    } else {
      var init := s[..|s| - 1];
      var last := s[|s| - 1];
      SumByInsert(init, x, le, f);
      SumByAppend(Insert(init, x, le), [last], f);
      SumByAppend(init, [last], f);
      assert init + [last] == s;
    }
  }

  /** Sorting does not change a total. */
  lemma {:induction false} SumBySort<T>(xs: seq<T>, le: (T, T) -> bool, f: T -> int)
    ensures SumBy(Sort(xs, le), f) == SumBy(xs, f)
  {
    if |xs| > 0 {
      var init := xs[..|xs| - 1];
      var last := xs[|xs| - 1];
      SumBySort(init, le, f);
      SumByInsert(Sort(init, le), last, le, f);
      SumByAppend(init, [last], f);
      assert init + [last] == xs;
    }
  }
  /** `f` applied to every element, in order. */
  function MapSeq<T, R>(xs: seq<T>, f: T -> R): (r: seq<R>)
    ensures |r| == |xs|
    ensures forall i :: 0 <= i < |xs| ==> r[i] == f(xs[i])
  {
    seq(|xs|, i requires 0 <= i < |xs| => f(xs[i]))
  }

  // ----- per-row outputs that may be skipped -----

  /** `v` is what `f` makes of some element of `xs`. */
  ghost predicate Produces<T, R>(xs: seq<T>, f: T -> Option<R>, v: R)
  {
    exists i :: 0 <= i < |xs| && f(xs[i]) == Some(v)
  }

  /** The positions of the elements `f` accepts, in increasing order:
      each listed position is accepted, and every accepted one is listed. */
  ghost function Accepted<T, R>(xs: seq<T>, f: T -> Option<R>): (idx: seq<nat>)
    ensures forall k :: 0 <= k < |idx| ==> idx[k] < |xs| && f(xs[idx[k]]).Some?
    ensures forall k, l :: 0 <= k < l < |idx| ==> idx[k] < idx[l]
    ensures forall i :: 0 <= i < |xs| && f(xs[i]).Some? ==> i in idx
    ensures |idx| <= |xs|
    ensures (forall i :: 0 <= i < |xs| ==> f(xs[i]).Some?) ==> |idx| == |xs|
  {
    if |xs| == 0 then []
    else
      var rest := Accepted(xs[..|xs| - 1], f);
      AcceptedOfPrefix(xs, f, rest);
      if f(xs[|xs| - 1]).Some? then rest + [|xs| - 1] else rest
  }

  /** The positions accepted in the prefix without the last element stay
      accepted, and below that last position. */
  lemma AcceptedOfPrefix<T, R>(xs: seq<T>, f: T -> Option<R>, rest: seq<nat>)
    requires |xs| > 0
    requires forall k :: 0 <= k < |rest| ==> rest[k] < |xs| - 1 && f(xs[..|xs| - 1][rest[k]]).Some?
    ensures forall k :: 0 <= k < |rest| ==> rest[k] < |xs| - 1 && f(xs[rest[k]]).Some?
  {
    forall k | 0 <= k < |rest|
      ensures f(xs[rest[k]]).Some?
    {
      assert xs[..|xs| - 1][rest[k]] == xs[rest[k]];
    }
  }

  /** `r` holds one output per accepted element of `xs`, in input order. */
  ghost predicate Selected<T, R>(xs: seq<T>, f: T -> Option<R>, r: seq<R>)
  {
    && |r| == |Accepted(xs, f)|
    && forall k :: 0 <= k < |r| ==> f(xs[Accepted(xs, f)[k]]) == Some(r[k])
  }

  /** A loop that appends `f(x)` for each `x`, skipping (`continue`) the
      elements `f` rejects: one output per accepted element, in input
      order. */
  function FilterMap<T, R>(xs: seq<T>, f: T -> Option<R>): (r: seq<R>)
    ensures |r| <= |xs|
    ensures forall k :: 0 <= k < |r| ==> Produces(xs, f, r[k])
    ensures forall i :: 0 <= i < |xs| && f(xs[i]).Some? ==> f(xs[i]).value in r
    ensures (forall i :: 0 <= i < |xs| ==> f(xs[i]).Some?) ==> |r| == |xs|
    ensures Selected(xs, f, r)
  {
    if |xs| == 0 then []
    else
      var rest := FilterMap(xs[..|xs| - 1], f);
      var r := if f(xs[|xs| - 1]).Some? then rest + [f(xs[|xs| - 1]).value] else rest;
      SelectedStep(xs, f, rest, r);
      SelectedOutputs(xs, f, r);
      r
  }

  /** What one output per accepted element, in order, implies: every
      output comes from an element, every accepted element's output is
      there, and nothing is dropped when all are accepted. */
  lemma SelectedOutputs<T, R>(xs: seq<T>, f: T -> Option<R>, r: seq<R>)
    requires Selected(xs, f, r)
    ensures |r| <= |xs|
    ensures forall k :: 0 <= k < |r| ==> Produces(xs, f, r[k])
    ensures forall i :: 0 <= i < |xs| && f(xs[i]).Some? ==> f(xs[i]).value in r
    ensures (forall i :: 0 <= i < |xs| ==> f(xs[i]).Some?) ==> |r| == |xs|
  {
    var idx := Accepted(xs, f);
    forall k | 0 <= k < |r|
      ensures Produces(xs, f, r[k])
    {
      assert f(xs[idx[k]]) == Some(r[k]);
    }
    forall i | 0 <= i < |xs| && f(xs[i]).Some?
      ensures f(xs[i]).value in r
    {
      var k :| 0 <= k < |idx| && idx[k] == i;
      assert f(xs[idx[k]]) == Some(r[k]);
    }
  }

  /** One step of `FilterMap`: the outputs of the prefix, followed by the
      last element's output when it is accepted. */
  lemma SelectedStep<T, R>(xs: seq<T>, f: T -> Option<R>, rest: seq<R>, r: seq<R>)
    requires |xs| > 0
    requires Selected(xs[..|xs| - 1], f, rest)
    requires r == if f(xs[|xs| - 1]).Some? then rest + [f(xs[|xs| - 1]).value] else rest
    ensures Selected(xs, f, r)
  {
    var init := xs[..|xs| - 1];
    var idx := Accepted(init, f);
    var all := Accepted(xs, f);
    assert all == if f(xs[|xs| - 1]).Some? then idx + [|xs| - 1] else idx;
    forall k | 0 <= k < |r|
      ensures f(xs[all[k]]) == Some(r[k])
    {
      if k < |rest| {
        assert all[k] == idx[k] && r[k] == rest[k];
        assert init[idx[k]] == xs[idx[k]];
      } else {
        assert all[k] == |xs| - 1;
      }
    }
  }

}

=== FILE: sessions.dfy ===
/** The conditioned session the detectors read: timestamps, heart rate and,
    for the multi-scale analysis, one smoothed speed and heart-rate channel
    per scale profile. */
module Sessions {
  import opened Results
  import opened Numbers

  /** The three detection scales, in the order the profile table lists
      them. */
  datatype Scale = Short | Medium | Long

  const Scales: seq<Scale> := [Short, Medium, Long]

  function ScaleName(s: Scale): string
  {
    match s
    case Short => "short"
    case Medium => "medium"
    case Long => "long"
  }

  /** One entry of the profile table: smoothing window and polynomial
      order, minimum effort duration (s), tolerated dip (samples) and the
      fraction of the maximum speed used as threshold. */
  datatype Profile = Profile(window: nat, poly: nat, minDur: real, maxPause: int, seuilRel: real)

  function ProfileOf(s: Scale): Profile
  {
    match s
    case Short => Profile(11, 2, 20.0, 6, 0.82)
    case Medium => Profile(25, 2, 70.0, 8, 0.80)
    case Long => Profile(51, 3, 160.0, 12, 0.78)
  }

  /** Rounding step (s) used to group repetitions of each scale. */
  const DurationGrouping: map<Scale, Step> := map[Short := 5, Medium := 10, Long := 15]

  /** The `speed_<scale>` column and, when present, the `bpm_<scale>`
      column. */
  datatype ScaleChannels = ScaleChannels(speed: seq<real>, bpm: Option<seq<real>>)

  datatype Session = Session(time: seq<real>, bpm: seq<real>,
                             short: ScaleChannels, medium: ScaleChannels, long: ScaleChannels)
  {
    function Channels(s: Scale): ScaleChannels
    {
      match s
      case Short => short
      case Medium => medium
      case Long => long
    }

    /** Every column is aligned with the timestamps. */
    predicate Valid()
    {
      && |bpm| == |time|
      && (forall s :: |Channels(s).speed| == |time|)
      && (forall s :: Channels(s).bpm.Some? ==> |Channels(s).bpm.value| == |time|)
    }

    function SpeedOf(s: Scale): seq<real>
    {
      Channels(s).speed
    }

    /** `block.get(f"bpm_{scale}", block["bpm"])`: the scale's heart-rate
        channel, falling back to the raw one. */
    function BpmOf(s: Scale): (b: seq<real>)
      requires Valid()
      ensures |b| == |time|
      ensures Channels(s).bpm.None? ==> b == bpm
    {
      match Channels(s).bpm
      case Some(b) => b
      case None => bpm
    }
  }

  /** The single-scale table: `time_s`, the smoothed `speed_kmh` and
      `bpm`. */
  datatype Series = Series(time: seq<real>, speed: seq<real>, bpm: seq<real>)
  {
    predicate Valid()
    {
      |speed| == |time| && |bpm| == |time|
    }
  }
}

=== FILE: singlescale.dfy ===
/** The single-scale pipeline shared by the interval detector and the
    session analysis: efforts detected on the smoothed `speed_kmh`, their
    ends refined, and the metrics of each kept window. The two scripts
    differ only in the threshold rule. */
module SingleScale {
  import opened Results
  import opened Seqs
  import opened Sessions
  import opened Detection
  import opened Blocks

  /** `detect_intervals` of the interval detector: 75 % of the maximum
      speed. */
  const FractThreshold: ThresholdRule := FractionOfMax(0.75)

  /** `detect_intervals` of the session analysis: its first threshold is
      overwritten by `1 * mean_speed`, so the session mean is used. */
  const SeanceThreshold: ThresholdRule := SessionMean

  /** The defaults `min_duration=40`, `hold_below=10`. */
  const DefaultMinDuration: real := 40.0
  const DefaultHoldBelow: int := 10

  /** Some sample at time `x` is strictly above `thr`. */
  ghost predicate OpensAt(t: Series, thr: real, x: real)
  {
    exists i :: 0 <= i < |t.time| && i < |t.speed| && t.time[i] == x && t.speed[i] > thr
  }

  /** `detect_intervals`: nothing on an empty table; otherwise each effort
      starts on a sample strictly above the threshold, lasts at least
      `minDuration` and, on a strictly increasing clock, ends before the
      next one starts. */
  function DetectIntervals(t: Series, rule: ThresholdRule, minDuration: real, holdBelow: int): (r: seq<Span>)
    requires t.Valid()
    ensures |t.time| == 0 ==> r == []
    ensures |t.time| > 0 ==> forall k :: 0 <= k < |r| ==>
              && OpensAt(t, Threshold(rule, t.speed).value, r[k].start)
              && r[k].end - r[k].start >= minDuration
    ensures StrictlyIncreasing(t.time) ==> forall k :: 0 <= k < |r| - 1 ==> r[k].end < r[k + 1].start
    ensures |t.time| > 0 ==>
              SpecifiedEfforts(SingleScaleConventions(minDuration, holdBelow), Threshold(rule, t.speed).value,
                               t.time, t.speed, r)
  {
    if |t.time| == 0 then []
    else
      var thr := Threshold(rule, t.speed).value;
      var c := SingleScaleConventions(minDuration, holdBelow);
      var r := FindEfforts(c, thr, t.time, t.speed);
      forall k | 0 <= k < |r|
        ensures OpensAt(t, thr, r[k].start)
      {
        var h := FindHits(c, thr, t.time, t.speed)[k];
        assert r[k].start == t.time[h.entry] && Enters(c, thr, t.speed[h.entry]);
      }
      r
  }

  /** `refine_intervals` for one effort: the end moves onto the last
      sustained sample when the window has samples; otherwise the effort
      is kept unchanged (the mean of an empty window is NaN and nothing
      passes the comparison). */
  function RefineSpan(t: Series, sp: Span): (r: Span)
    requires t.Valid()
    ensures r.start == sp.start
    ensures (exists k :: InWindow(t.time, sp.start, sp.end, k)) ==> sp.start <= r.end <= sp.end
    ensures (forall k :: !InWindow(t.time, sp.start, sp.end, k)) ==> r == sp
  {
    match RefineEnd(t.time, t.speed, sp.start, sp.end)
    case None => sp
    case Some(e) => Span(sp.start, e)
  }

  /** `refine_intervals`: one effort per input, same start, end never
      later; an effort with samples ends within itself, one without is
      kept as it is. */
  function RefineIntervals(t: Series, spans: seq<Span>): (r: seq<Span>)
    requires t.Valid()
    ensures |r| == |spans|
    ensures forall k :: 0 <= k < |r| ==> r[k].start == spans[k].start && r[k].end <= spans[k].end
    ensures forall k :: 0 <= k < |r| && (exists j :: InWindow(t.time, spans[k].start, spans[k].end, j)) ==>
              spans[k].start <= r[k].end
    ensures forall k :: 0 <= k < |r| && (forall j :: !InWindow(t.time, spans[k].start, spans[k].end, j)) ==>
              r[k] == spans[k]
  {
    seq(|spans|, k requires 0 <= k < |spans| => RefineSpan(t, spans[k]))
  }

  /** Windows shorter than this many seconds yield no block. */
  const MinBlockSeconds: real := 10.0

  /** `extract_blocks` for one effort: a block exactly when the samples of
      the effort span at least the minimum, measured on those samples. */
  function ExtractOne(t: Series, sp: Span): (r: Option<Block>)
    requires t.Valid()
    ensures r.Some? <==> LongEnough(t.time, sp.start, sp.end, MinBlockSeconds)
    ensures r.Some? ==> && sp.start <= r.value.start && r.value.end <= sp.end
                        && r.value.duration == r.value.end - r.value.start >= MinBlockSeconds
    ensures r.Some? ==> MeasuresWindow(t.time, t.speed, t.bpm, sp.start, sp.end, r.value)
  {
    ExtractBlock(t.time, t.speed, t.bpm, sp.start, sp.end, MinBlockSeconds)
  }

  function Extractor(t: Series): Span -> Option<Block>
    requires t.Valid()
  {
    (sp: Span) => ExtractOne(t, sp)
  }

  /** `b` lies inside one of `spans` and lasts at least the minimum. */
  ghost predicate InsideOneOf(spans: seq<Span>, b: Block)
  {
    && b.duration >= MinBlockSeconds
    && exists i :: 0 <= i < |spans| && spans[i].start <= b.start && b.end <= spans[i].end
  }

  /** `b` is the block measured on the samples of one of `spans`. */
  ghost predicate MeasuredOnOneOf(t: Series, spans: seq<Span>, b: Block)
    requires t.Valid()
  {
    exists i :: 0 <= i < |spans| && MeasuresWindow(t.time, t.speed, t.bpm, spans[i].start, spans[i].end, b)
  }

  /** `extract_blocks`: at most one block per effort, each inside it and
      measured on its samples, and one for every effort whose samples span
      at least the minimum. The blocks follow the efforts: the `k`-th block
      is the one of the `k`-th effort that yields a block. */
  function ExtractBlocks(t: Series, spans: seq<Span>): (r: seq<Block>)
    requires t.Valid()
    ensures |r| <= |spans|
    ensures forall k :: 0 <= k < |r| ==> InsideOneOf(spans, r[k])
    ensures forall k :: 0 <= k < |r| ==> MeasuredOnOneOf(t, spans, r[k])
    ensures forall i :: 0 <= i < |spans| && LongEnough(t.time, spans[i].start, spans[i].end, MinBlockSeconds) ==>
              exists k :: 0 <= k < |r| && MeasuresWindow(t.time, t.speed, t.bpm, spans[i].start, spans[i].end, r[k])
    ensures var idx := Accepted(spans, Extractor(t));
            && |r| == |idx|
            && (forall k :: 0 <= k < |r| ==> ExtractOne(t, spans[idx[k]]) == Some(r[k]))
            && (forall i :: 0 <= i < |spans| ==>
                  (i in idx <==> LongEnough(t.time, spans[i].start, spans[i].end, MinBlockSeconds)))
  {
    var r := FilterMap(spans, Extractor(t));
    ExtractedAreMeasured(t, spans, r);
    LongEffortsExtracted(t, spans, r);
    ExtractedInOrder(t, spans, r);
    r
  }

  /** The blocks are the outputs of the accepted efforts, one each, and an
      effort is accepted exactly when it is long enough. */
  lemma ExtractedInOrder(t: Series, spans: seq<Span>, r: seq<Block>)
    requires t.Valid()
    requires Selected(spans, Extractor(t), r)
    ensures var idx := Accepted(spans, Extractor(t));
            && |r| == |idx|
            && (forall k :: 0 <= k < |r| ==> ExtractOne(t, spans[idx[k]]) == Some(r[k]))
            && (forall i :: 0 <= i < |spans| ==>
                  (i in idx <==> LongEnough(t.time, spans[i].start, spans[i].end, MinBlockSeconds)))
  {
    var idx := Accepted(spans, Extractor(t));
    forall i | 0 <= i < |spans|
      ensures i in idx <==> LongEnough(t.time, spans[i].start, spans[i].end, MinBlockSeconds)
    {
      if i in idx {
        var k :| 0 <= k < |idx| && idx[k] == i;
        assert Extractor(t)(spans[i]).Some?;
      }
    }
  }

  lemma ExtractedAreMeasured(t: Series, spans: seq<Span>, r: seq<Block>)
    requires t.Valid()
    requires forall k :: 0 <= k < |r| ==> Produces(spans, Extractor(t), r[k])
    ensures forall k :: 0 <= k < |r| ==> InsideOneOf(spans, r[k]) && MeasuredOnOneOf(t, spans, r[k])
  {
    forall k | 0 <= k < |r|
      ensures InsideOneOf(spans, r[k]) && MeasuredOnOneOf(t, spans, r[k])
    {
      var i :| 0 <= i < |spans| && Extractor(t)(spans[i]) == Some(r[k]);
    }
  }

  lemma LongEffortsExtracted(t: Series, spans: seq<Span>, r: seq<Block>)
    requires t.Valid()
    requires forall i :: 0 <= i < |spans| && Extractor(t)(spans[i]).Some? ==> Extractor(t)(spans[i]).value in r
    ensures forall i :: 0 <= i < |spans| && LongEnough(t.time, spans[i].start, spans[i].end, MinBlockSeconds) ==>
              exists k :: 0 <= k < |r| && MeasuresWindow(t.time, t.speed, t.bpm, spans[i].start, spans[i].end, r[k])
  {
    forall i | 0 <= i < |spans| && LongEnough(t.time, spans[i].start, spans[i].end, MinBlockSeconds)
      ensures exists k :: 0 <= k < |r| && MeasuresWindow(t.time, t.speed, t.bpm, spans[i].start, spans[i].end, r[k])
    {
      var b := Extractor(t)(spans[i]).value;
      var k :| 0 <= k < |r| && r[k] == b;
    }
  }

  /** Detection, refinement and extraction chained: every block lasts at
      least ten seconds and lies inside a detected effort. */
  function SingleScaleBlocks(t: Series, rule: ThresholdRule, minDuration: real, holdBelow: int): (r: seq<Block>)
    requires t.Valid()
    ensures |r| <= |DetectIntervals(t, rule, minDuration, holdBelow)|
    ensures forall k :: 0 <= k < |r| ==> InsideOneOf(DetectIntervals(t, rule, minDuration, holdBelow), r[k])
  {
    var raw := DetectIntervals(t, rule, minDuration, holdBelow);
    RefinedBlocksInside(t, raw);
    ExtractBlocks(t, RefineIntervals(t, raw))
  }

  /** Refining and then extracting keeps every block inside an effort of
      the list it started from. */
  lemma RefinedBlocksInside(t: Series, raw: seq<Span>)
    requires t.Valid()
    ensures var blocks := ExtractBlocks(t, RefineIntervals(t, raw));
            && |blocks| <= |raw|
            && forall k :: 0 <= k < |blocks| ==> InsideOneOf(raw, blocks[k])
  {
    var refined := RefineIntervals(t, raw);
    BlocksInsideRaw(raw, refined, ExtractBlocks(t, refined));
  }

  lemma BlocksInsideRaw(raw: seq<Span>, refined: seq<Span>, blocks: seq<Block>)
    requires |refined| == |raw|
    requires forall k :: 0 <= k < |raw| ==> refined[k].start == raw[k].start && refined[k].end <= raw[k].end
    requires forall k :: 0 <= k < |blocks| ==> InsideOneOf(refined, blocks[k])
    ensures forall k :: 0 <= k < |blocks| ==> InsideOneOf(raw, blocks[k])
  {
    forall k | 0 <= k < |blocks|
      ensures InsideOneOf(raw, blocks[k])
    {
      InsideRefinedIsInsideRaw(raw, refined, blocks[k]);
    }
  }

  /** A block inside a refined effort is inside the effort it came from. */
  lemma InsideRefinedIsInsideRaw(raw: seq<Span>, refined: seq<Span>, b: Block)
    requires |refined| == |raw|
    requires forall k :: 0 <= k < |raw| ==> refined[k].start == raw[k].start && refined[k].end <= raw[k].end
    requires InsideOneOf(refined, b)
    ensures InsideOneOf(raw, b)
  {
    var i :| 0 <= i < |refined| && refined[i].start <= b.start && b.end <= refined[i].end;
    assert raw[i].start <= b.start && b.end <= raw[i].end;
  }
}

=== FILE: streams.dfy ===
/** Building the stream table from the activity-streams payload: pick the
    `time`, `velocity_smooth`, `heartrate` and `altitude` arrays, convert
    speed from m/s to km/h and pad absent channels. */
module Streams {
  import opened Results

  /** One stream object of the payload; `data` may be absent. */
  datatype StreamObject = StreamObject(data: Option<seq<real>>)

  type Payload = map<string, StreamObject>

  /** The four columns of the table, in order. */
  const ColumnNames: seq<string> := ["time_s", "speed_kmh", "bpm", "altitude_m"]

  /** A cell is `None` where the channel was missing. */
  datatype StreamTable = StreamTable(time: seq<real>, speedKmh: seq<Option<real>>,
                                     bpm: seq<Option<real>>, altitude: seq<Option<real>>)
  {
    function Rows(): nat { |time| }
  }

  /** `payload.get(key, {}).get("data", [])`. */
  function DataOf(payload: Payload, key: string): seq<real>
  {
    if key in payload && payload[key].data.Some? then payload[key].data.value else []
  }

  function MsToKmh(v: real): real { v * 3.6 }

  /** A channel column: the converted values when the channel has data,
      otherwise `None` repeated for every timestamp. */
  function Column(data: seq<real>, n: nat, convert: bool): (c: seq<Option<real>>)
    ensures |data| > 0 ==> |c| == |data|
    ensures |data| == 0 ==> |c| == n && forall i :: 0 <= i < n ==> c[i] == None
    ensures |data| > 0 ==> forall i :: 0 <= i < |data| ==>
              c[i] == Some(if convert then MsToKmh(data[i]) else data[i])
  {
    if |data| > 0 then
      seq(|data|, i requires 0 <= i < |data| => Some(if convert then MsToKmh(data[i]) else data[i]))
    else
      seq(n, i => None)
  }

  /** `streams_to_df`. pandas refuses columns of unequal length, so a
      present channel whose length differs from `time` is a failure. */
  function StreamsToTable(payload: Payload): (r: Result<StreamTable>)
    ensures r.Success? <==>
      (forall key :: key in ["velocity_smooth", "heartrate", "altitude"] ==>
         |DataOf(payload, key)| == 0 || |DataOf(payload, key)| == |DataOf(payload, "time")|)
    ensures r.Success? ==> r.value.time == DataOf(payload, "time")
    ensures r.Success? ==> |r.value.speedKmh| == |r.value.bpm| == |r.value.altitude| == r.value.Rows()
    ensures r.Success? ==> forall i :: 0 <= i < |DataOf(payload, "velocity_smooth")| ==>
              r.value.speedKmh[i] == Some(3.6 * DataOf(payload, "velocity_smooth")[i])
    ensures r.Success? ==> forall i :: 0 <= i < |DataOf(payload, "heartrate")| ==>
              r.value.bpm[i] == Some(DataOf(payload, "heartrate")[i])
    ensures r.Success? ==> forall i :: 0 <= i < |DataOf(payload, "altitude")| ==>
              r.value.altitude[i] == Some(DataOf(payload, "altitude")[i])
    ensures r.Success? && |DataOf(payload, "velocity_smooth")| == 0 ==>
              forall i :: 0 <= i < r.value.Rows() ==> r.value.speedKmh[i] == None
    ensures r.Success? && |DataOf(payload, "heartrate")| == 0 ==>
              forall i :: 0 <= i < r.value.Rows() ==> r.value.bpm[i] == None
    ensures r.Success? && |DataOf(payload, "altitude")| == 0 ==>
              forall i :: 0 <= i < r.value.Rows() ==> r.value.altitude[i] == None
  {
    var time := DataOf(payload, "time");
    var n := |time|;
    var speed := Column(DataOf(payload, "velocity_smooth"), n, true);
    var hr := Column(DataOf(payload, "heartrate"), n, false);
    var alt := Column(DataOf(payload, "altitude"), n, false);
    if |speed| == n && |hr| == n && |alt| == n then
      Success(StreamTable(time, speed, hr, alt))
    else
      Failure(LengthMismatch)
  }

  // ----- reading a table back -----

  /** Every cell of the column holds a value. */
  predicate Filled(c: seq<Option<real>>)
  {
    forall i :: 0 <= i < |c| ==> c[i].Some?
  }

  /** Every cell of the column is missing. */
  predicate Missing(c: seq<Option<real>>)
  {
    forall i :: 0 <= i < |c| ==> c[i] == None
  }

  /** A table `streams_to_df` can produce: four columns as long as `time`,
      each channel either filled or missing throughout. */
  predicate TableShape(t: StreamTable)
  {
    && |t.speedKmh| == |t.bpm| == |t.altitude| == |t.time|
    && (Filled(t.speedKmh) || Missing(t.speedKmh))
    && (Filled(t.bpm) || Missing(t.bpm))
    && (Filled(t.altitude) || Missing(t.altitude))
  }

  /** The stream object of a column: its values, scaled by `factor`, when
      it is filled, and no data when it is missing. */
  function StreamOf(c: seq<Option<real>>, factor: real): (o: StreamObject)
    ensures Filled(c) ==> o.data.Some? && |o.data.value| == |c|
    ensures Filled(c) ==> forall i :: 0 <= i < |c| ==> o.data.value[i] == c[i].value * factor
  {
    if Filled(c) then StreamObject(Some(seq(|c|, i requires 0 <= i < |c| => c[i].value * factor)))
    else StreamObject(None)
  }

  /** The payload a table was read from: `time` as it is, the speed back
      in m/s, and each missing channel without data. */
  function PayloadOf(t: StreamTable): Payload
  {
    map["time" := StreamObject(Some(t.time)),
        "velocity_smooth" := StreamOf(t.speedKmh, 1.0 / 3.6),
        "heartrate" := StreamOf(t.bpm, 1.0),
        "altitude" := StreamOf(t.altitude, 1.0)]
  }

  /** Reading back the payload of a table rebuilds the table. */
  lemma StreamsRoundTrip(t: StreamTable)
    requires TableShape(t)
    ensures StreamsToTable(PayloadOf(t)) == Success(t)
  {
    var p := PayloadOf(t);
    assert DataOf(p, "time") == t.time;
    ColumnRoundTrip(t.speedKmh, |t.time|, 1.0 / 3.6, true);
    ColumnRoundTrip(t.bpm, |t.time|, 1.0, false);
    ColumnRoundTrip(t.altitude, |t.time|, 1.0, false);
    assert DataOf(p, "velocity_smooth") == ChannelData(t.speedKmh, 1.0 / 3.6);
    assert DataOf(p, "heartrate") == ChannelData(t.bpm, 1.0);
    assert DataOf(p, "altitude") == ChannelData(t.altitude, 1.0);
  }

  /** The data a column's stream object carries, `[]` when it has none. */
  function ChannelData(c: seq<Option<real>>, factor: real): seq<real>
  {
    var o := StreamOf(c, factor);
    if o.data.Some? then o.data.value else []
  }

  /** A filled or missing column is rebuilt from its stream's data, given
      that converting undoes the scaling. */
  lemma ColumnRoundTrip(c: seq<Option<real>>, n: nat, factor: real, convert: bool)
    requires |c| == n && (Filled(c) || Missing(c))
    requires factor == if convert then 1.0 / 3.6 else 1.0
    ensures Column(ChannelData(c, factor), n, convert) == c
  {
    var data := ChannelData(c, factor);
    if |c| > 0 && Filled(c) {
      var col := Column(data, n, convert);
      forall i | 0 <= i < n
        ensures col[i] == c[i]
      {
        assert data[i] == c[i].value * factor;
        if convert {
          assert MsToKmh(c[i].value * (1.0 / 3.6)) == c[i].value;
        }
      }
    } else if |c| > 0 {
      assert c[0] == None;
      assert !Filled(c);
    }
  }

  /** Without a `time` stream the table is empty. */
  lemma NoTimeNoRows(payload: Payload)
    requires "time" !in payload
    requires |DataOf(payload, "velocity_smooth")| == 0
    requires |DataOf(payload, "heartrate")| == 0
    requires |DataOf(payload, "altitude")| == 0
    ensures StreamsToTable(payload) == Success(StreamTable([], [], [], []))
  {
  }
}

=== FILE: text.dfy ===
/** The string operations the analysis relies on: `str(int)`, `int(str)`,
    `format(n, "02d")`, `str.split`, `str.replace` and Python's ordering of
    strings. */
module Text {
  import opened Results

  predicate IsDigit(c: char)
  {
    '0' <= c <= '9'
  }

  predicate AllDigits(s: string)
  {
    forall i :: 0 <= i < |s| ==> IsDigit(s[i])
  }

  function DigitChar(d: nat): (c: char)
    requires d < 10
    ensures IsDigit(c)
  {
    ('0' as int + d) as char
  }

  function DigitValue(c: char): nat
    requires IsDigit(c)
  {
    c as int - '0' as int
  }

  /** Decimal digits of a natural number, most significant first. */
  function NatToString(n: nat): (s: string)
    ensures |s| > 0 && AllDigits(s)
  {
    if n < 10 then [DigitChar(n)] else NatToString(n / 10) + [DigitChar(n % 10)]
  }

  /** `str(n)` for a Python int. */
  function IntToString(n: int): string
  {
    if n < 0 then "-" + NatToString(-n) else NatToString(n)
  }

  /** Value of a run of decimal digits (leading zeros allowed). */
  function DigitsValue(s: string): nat
    requires AllDigits(s)
  {
    if |s| == 0 then 0 else DigitsValue(s[..|s| - 1]) * 10 + DigitValue(s[|s| - 1])
  }

  /** `int(s)` for the strings this code produces: an optional sign and at
      least one digit; anything else raises ValueError. */
  function ParseInt(s: string): Option<int>
  {
    if |s| > 0 && (s[0] == '-' || s[0] == '+') then
      var body := s[1..];
      if |body| > 0 && AllDigits(body) then
        Some(if s[0] == '-' then -(DigitsValue(body) as int) else DigitsValue(body) as int)
      else None
    else if |s| > 0 && AllDigits(s) then Some(DigitsValue(s))
    else None
  }

  lemma {:induction false} DigitsOfNat(n: nat)
    ensures DigitsValue(NatToString(n)) == n
  {
    if n >= 10 {
      DigitsOfNat(n / 10);
      var s := NatToString(n);
      assert s[..|s| - 1] == NatToString(n / 10);
    }
  }

  /** `int(str(n)) == n`. */
  lemma ParseIntToString(n: int)
    ensures ParseInt(IntToString(n)) == Some(n)
  {
    if n < 0 {
      DigitsOfNat(-n);
      assert IntToString(n)[1..] == NatToString(-n);
    } else {
      DigitsOfNat(n);
    }
  }

  /** `format(n, "02d")`: at least two characters, zero padded when
      non-negative (a negative number is already two characters wide). */
  function Pad2(n: int): (s: string)
    ensures |s| >= 2 || n < 0
  {
    if 0 <= n < 10 then "0" + NatToString(n) else IntToString(n)
  }

  lemma ParsePad2(n: int)
    ensures ParseInt(Pad2(n)) == Some(n)
  {
    if 0 <= n < 10 {
      var s := Pad2(n);
      assert s[..|s| - 1] == "0";
      assert DigitsValue("0") == 0;
    } else {
      ParseIntToString(n);
    }
  }

  lemma IntToStringHasNoColonOrSpace(n: int)
    ensures ':' !in IntToString(n) && ' ' !in IntToString(n)
  {
    var s := NatToString(if n < 0 then -n else n);
    assert forall i :: 0 <= i < |s| ==> IsDigit(s[i]);
    if n < 0 {
      assert IntToString(n) == "-" + s;
    }
  }

  lemma Pad2HasNoColonOrSpace(n: int)
    ensures ':' !in Pad2(n) && ' ' !in Pad2(n)
  {
    if 0 <= n < 10 {
      var s := NatToString(n);
      assert forall i :: 0 <= i < |s| ==> IsDigit(s[i]);
      assert Pad2(n) == "0" + s;
    } else {
      IntToStringHasNoColonOrSpace(n);
    }
  }

  // ----- str.split(sep) and str.replace(pat, "") -----

  /** `s.split(sep)` for a one-character separator: the pieces between
      separators, always at least one. */
  function Split(s: string, sep: char): (parts: seq<string>)
    ensures |parts| >= 1
  {
    if |s| == 0 then [""]
    else
      var rest := Split(s[1..], sep);
      if s[0] == sep then [""] + rest else [[s[0]] + rest[0]] + rest[1..]
  }

  lemma {:induction false} SplitWithout(a: string, sep: char)
    requires sep !in a
    ensures Split(a, sep) == [a]
  {
    if |a| > 0 {
      SplitWithout(a[1..], sep);
      assert [a[0]] + a[1..] == a;
    }
  }

  lemma {:induction false} SplitFirst(a: string, sep: char, b: string)
    requires sep !in a
    ensures Split(a + [sep] + b, sep) == [a] + Split(b, sep)
  {
    if |a| == 0 {
      assert a + [sep] + b == [sep] + b;
      assert ([sep] + b)[1..] == b;
    } else {
      assert (a + [sep] + b)[1..] == a[1..] + [sep] + b;
      SplitFirst(a[1..], sep, b);
      assert [a[0]] + a[1..] == a;
    }
  }

  /** `s.replace(pat, rep)`: every non-overlapping occurrence of `pat`,
      scanning left to right. */
  function ReplaceAll(s: string, pat: string, rep: string): string
    requires |pat| > 0
    decreases |s|
  {
    if |s| < |pat| then s
    else if s[..|pat|] == pat then rep + ReplaceAll(s[|pat|..], pat, rep)
    else [s[0]] + ReplaceAll(s[1..], pat, rep)
  }

  /** Removing a suffix `pat` whose first character the prefix never uses
      leaves exactly the prefix. */
  lemma {:induction false} ReplaceDropsSuffix(a: string, pat: string)
    requires |pat| > 0 && pat[0] !in a
    ensures ReplaceAll(a + pat, pat, "") == a
    decreases |a|
  {
    var s := a + pat;
    if |a| == 0 {
      assert s == pat;
      assert s[|pat|..] == [];
    } else {
      assert s[0] == a[0] != pat[0];
      assert s[..|pat|][0] == s[0];
      assert s[..|pat|] != pat;
      assert s[1..] == a[1..] + pat;
      ReplaceDropsSuffix(a[1..], pat);
      assert [a[0]] + a[1..] == a;
    }
  }

  // ----- string ordering -----

  /** Python's `a < b` on str: code-point lexicographic, a proper prefix
      sorting first. */
  predicate LexLess(a: string, b: string)
  {
    if |b| == 0 then false
    else if |a| == 0 then true
    else if a[0] != b[0] then a[0] < b[0]
    else LexLess(a[1..], b[1..])
  }

  predicate LexLe(a: string, b: string)
  {
    a == b || LexLess(a, b)
  }

  lemma {:induction false} LexTotal(a: string, b: string)
    ensures LexLe(a, b) || LexLe(b, a)
  {
    if |a| > 0 && |b| > 0 && a[0] == b[0] {
      LexTotal(a[1..], b[1..]);
      if a[1..] == b[1..] {
        assert a == [a[0]] + a[1..] && b == [b[0]] + b[1..];
      }
    }
  }

  lemma {:induction false} LexTransitive(a: string, b: string, c: string)
    requires LexLess(a, b) && LexLess(b, c)
    ensures LexLess(a, c)
  {
    if |a| > 0 && a[0] == b[0] && b[0] == c[0] {
      LexTransitive(a[1..], b[1..], c[1..]);
    }
  }

  lemma LexLeIsTotalPreorder()
    ensures forall a, b :: LexLe(a, b) || LexLe(b, a)
    ensures forall a, b, c :: LexLe(a, b) && LexLe(b, c) ==> LexLe(a, c)
  {
    forall a, b
      ensures LexLe(a, b) || LexLe(b, a)
    {
      LexTotal(a, b);
    }
    forall a, b, c | LexLe(a, b) && LexLe(b, c)
      ensures LexLe(a, c)
    {
      if a != b && b != c {
        LexTransitive(a, b, c);
      }
    }
  }

  /** `sep.join(parts)`. */
  function Join(parts: seq<string>, sep: string): (s: string)
    ensures |parts| == 1 ==> s == parts[0]
    ensures |parts| == 0 ==> s == ""
  {
    if |parts| == 0 then ""
    else if |parts| == 1 then parts[0]
    else parts[0] + sep + Join(parts[1..], sep)
  }
}
